=== FILE: README.md ===
# paddle-spotify downloader, modelled in Dafny

This project models the sequential core of the paddle-spotify catalog
extractor. The extractor walks the playlists of one or more Spotify
categories and dumps them, with their tracks and artists, into six
deduplicated CSV tables.

The model covers:

- **Session** (`sessions.dfy`). `SessionWithBase` resolves relative URLs
  against the API base. On an HTTP 429 it sleeps for `Retry-After` seconds
  and retries, up to `rate_limit_max_retries` attempts. `get_response_dict`
  checks the status and the body's shape. The session also carries the
  bearer header and is built by `create_session`. The remote is a script of
  responses, answered one per attempt: the answers as the mounted adapter
  hands them back to `SessionWithBase.request`. The session logs every URL it sends
  and every duration it sleeps.
- **Paged generators** (`paging.dfy`, `playlists.dfy`, `client.dfy`).
  - `get_playlists` and `get_tracks` are one suspended generator, `Pager`.
    Its `Next` is proved against a pure step function, `Pull`.
  - `Walk` is the drained generator. The lemmas compare it to a served chain
    of pages, linked by their `next` URLs.
  - `get_playlist` splits the first page of tracks off the playlist's
    detail.
- **Table writers** (`records.dfy`). The six `*Records` writers are one
  class, `TableWriter`, tagged with the table it writes. Each writer keeps
  its set of seen keys and its rows in order. Each add offers rows in order
  and stops at the first key already seen. `RecordBuilder` fans every event
  out to every writer and closes them. A writer's rows are always the
  replay of its history of events (`Replay`).
- **Driver** (`downloader.dfy`). `run` and `fetch_playlists` are methods.
  Each is proved against a pure account of the run: `FetchAll`,
  `FetchCategory` and `VisitPlaylist`. These give the events handed to the
  builder, the playlists visited, the error that ended the run, the session
  log and the responses left.

Errors that the Python code raises (`AssertionError`, `KeyError`,
`HTTPError`, pydantic's `ValidationError`, ...) are values of the `Error`
datatype. A raise is a `Result`/`Option` error that ends the caller, as the
exception would. This includes the limits of CPython's builtins that the
session meets: `int()` rejects a Retry-After of more than 4300 digits with
ValueError, and `time.sleep` raises OverflowError for more than
9223372036 seconds either way (a signed 64-bit count of nanoseconds) and
ValueError for a negative duration. The one exception is the link writer's call of
`added_at.isoformat()` on a missing `added_at` (see Findings): the writers,
the builder and the driver use the corrected link row, which never raises.
The builder as written, which stops the run there, is modelled beside them
(`ApplyAsWritten`, `FanOutAsWritten`, `ReplayAsWritten`), with lemmas saying
where the two agree.

## Model

| member | source | states |
|---|---|---|
| Sessions.DefaultConfig | paddle/downloader/config.py:6-18 | The default base URL is `https://api.spotify.com/v1/`, the bucket is 30 seconds and at most 3 attempts are made on 429 |
| Sessions.Resolve | paddle/downloader/session.py:78 | A URL with a scheme is kept unchanged; any other URL is appended to the base URL |
| Sessions.HasSchemeIsUrlsplits | paddle/downloader/session.py:78 | The scheme test agrees on every URL with `urlsplit`'s steps: strip leading C0 controls and spaces, delete every tab, CR and LF, then find a ':' after a run of scheme characters that starts with an ASCII letter |
| Sessions.LeadingControlsIgnored | paddle/downloader/session.py:78 | Leading C0 controls and spaces never change whether a URL has a scheme |
| Sessions.UnsafeCharIgnored | paddle/downloader/session.py:78 | A tab, CR or LF anywhere in a URL never changes whether it has a scheme |
| Sessions.NoColonNoScheme | paddle/downloader/session.py:78 | A URL without a ':', such as every relative path the client requests, has no scheme and is appended to the base URL |
| Sessions.SchemeThenRest | paddle/downloader/session.py:78 | A letter, then scheme characters, then ':' gives a URL with a scheme, whatever follows |
| Sessions.DefaultBaseHasScheme | paddle/downloader/config.py:10 | The default API base has a scheme, so it is never prefixed again |
| Sessions.SchemeSurvivesAppend | paddle/downloader/session.py:78 | Appending to a base URL that has a scheme gives a URL that has a scheme |
| Sessions.ResolveIdempotent | paddle/downloader/session.py:77-79 | With a base that has a scheme, resolving an already resolved URL changes nothing, so the loop's reassignment of `url` never double-prefixes |
| Sessions.ParseIntOfDigits | paddle/downloader/session.py:82-86 | `int()` reads a plain run of digits as its value when it has at most 4300 digits, and rejects a longer one |
| Sessions.ParseIntOfDecimal | paddle/downloader/session.py:82-86 | `int()` reads a decimal Retry-After header of at most 4300 digits back as its number |
| Sessions.LongDecimalRejected | paddle/downloader/session.py:82-86 | A decimal Retry-After header of more than 4300 digits is rejected, as `int()` raises ValueError for it |
| Sessions.NatToDigitsLength | paddle/downloader/session.py:82-86 | A number below `10^k` is written with at most `k` digits, so every Retry-After `time.sleep` accepts is within `int()`'s digit limit |
| Sessions.DropUnderscoresOfDigits | paddle/downloader/session.py:82-86 | A run of plain digits reads as itself: there is no underscore to drop |
| Sessions.TrailingBlankRetryAfter | paddle/downloader/session.py:82-86 | `int("42 ")` is 42: trailing whitespace is skipped |
| Sessions.LeadingBlankRetryAfter | paddle/downloader/session.py:82-86 | `int(" +42")` is 42: leading whitespace and a sign are accepted |
| Sessions.SeparatorBlankRetryAfter | paddle/downloader/session.py:82-86 | `int("\x1c42\x1f")` is 42: the ASCII separators 0x1C to 0x1F are whitespace to `int()` |
| Sessions.UnderscoreRetryAfter | paddle/downloader/session.py:82-86 | `int("4_2")` is 42: a single underscore between digits is dropped |
| Sessions.BadUnderscoreRetryAfter | paddle/downloader/session.py:82-86 | `int()` rejects a doubled underscore and an underscore at either end of the digits |
| Sessions.RetryAfterSeconds | paddle/downloader/session.py:82-86 | A missing header gives the bucket size; a present header gives exactly the integer `int()` reads from it, and fails exactly when `int()` rejects it (including a header of more than 4300 digits) |
| Sessions.SleepFor | paddle/downloader/session.py:82-88 | The session sleeps exactly when the Retry-After seconds are read and lie in 0..9223372036, and then for those seconds; more seconds than that raise OverflowError, as `time.sleep` does |
| Sessions.Attempts | paddle/downloader/session.py:75-89 | The request loop never adds answers; a returned answer is not a 429 and uses up at least one response |
| Sessions.SleepsFollowRetryAfter | paddle/downloader/session.py:80-88 | Every sleep answers a 429 and lasts that response's Retry-After; there is one request per sleep, plus one unless the attempts ran out |
| Sessions.ReturnsFirstNon429 | paddle/downloader/session.py:79-81 | A successful request returns the first non-429 response, after one sleep per preceding 429, and consumes exactly those responses within the attempt limit |
| Sessions.ReturnsNon429WithinLimit | paddle/downloader/session.py:76-81 | Conversely, when the first non-429 answer comes within the attempt limit after 429s that all sleep, the request returns it, consumes exactly the responses up to it, and sleeps once per preceding 429 |
| Sessions.EveryAttemptSameUrl | paddle/downloader/session.py:77-79 | Every attempt of one request goes to the same resolved URL |
| Sessions.ExhaustedAfterMaxAttempts | paddle/downloader/session.py:76-89 | After `rate_limit_max_retries` answers of 429, the request raises after exactly that many attempts and sleeps; with a limit of 0 or less nothing is sent |
| Sessions.OneRateLimitOneSleep | paddle/downloader/session.py:80-88 | One 429 whose Retry-After is `n`, for any `n` `time.sleep` accepts, then an answer, gives exactly one `sleep(n)` and two sends of the same URL, and returns the answer |
| Sessions.OverlongRetryAfterFails | paddle/downloader/session.py:82-88 | A 429 whose Retry-After is past the range of `time.sleep` makes the request raise OverflowError after one send and no sleep, leaving the later answers |
| Sessions.RetryAfter42 | tests/test_importer.py:232-267 | A 429 with `Retry-After: 42` causes exactly one `sleep(42)` |
| Sessions.GetResponseDict | paddle/downloader/session.py:92-96 | The body is returned exactly when the status is outside 400..599 and the body is a JSON object; a 4xx/5xx status raises an HTTP error |
| Sessions.BearerHeader | paddle/downloader/session.py:58-60 | The header map has exactly the `Authorization` key |
| Sessions.BearerRoundTrip | paddle/downloader/session.py:58-60 | The `Authorization` value is `Bearer ` followed by the access token, which can be read back from it |
| Sessions.SessionWithBase.constructor | paddle/downloader/session.py:71-73 | A new session has its config, an empty header map (the model's map holds only the headers the code sets, not the defaults `requests.Session` adds), and has sent nothing and slept nothing |
| Sessions.SessionWithBase.UpdateHeaders | paddle/downloader/session.py:28 | `headers.update` overrides the given keys and keeps the rest |
| Sessions.SessionWithBase.Request | paddle/downloader/session.py:75-89 | The loop returns what the retry specification returns, consumes its responses and appends its sends and sleeps to the session logs |
| Sessions.CreateSession | paddle/downloader/session.py:26-28 | A session exists exactly when the token was obtained; it is fresh, carries the bearer header and has sent nothing; a token failure is passed on |
| Models.Get | paddle/downloader/client.py:26 | `dict.get` finds a key exactly when it is present, with its value |
| Models.Lookup | paddle/downloader/client.py:29 | Indexing a dict fails exactly when the key is missing, with `KeyError` for that key |
| Models.Delete | paddle/downloader/client.py:42 | `del data[key]` removes that key only and keeps what the object validates as |
| Models.Iterate | paddle/downloader/playlist.py:29 | Iterating a list gives its elements in order |
| Models.ValidateSummary | paddle/downloader/client.py:33 | A listed item validates exactly when it is a simplified playlist, and gives that playlist; otherwise it raises a validation error |
| Models.ValidateEntry | paddle/downloader/playlist.py:24 | A track item validates exactly when it is a playlist-track entry, and gives that entry; otherwise it raises a validation error |
| Models.ValidatePlaylist | paddle/downloader/client.py:43 | A detail without `tracks` validates exactly when it is a playlist, and gives that playlist; otherwise it raises a validation error |
| Paging.CursorOf | paddle/downloader/client.py:28 | A missing or `None` `next` stops the loop; a string `next` is the URL followed |
| Paging.FetchPage | paddle/downloader/client.py:24-25 | Fetching a page costs exactly the request's log and responses; a page that parses uses up a response |
| Paging.Fill | paddle/downloader/playlist.py:26-31 | The page loop ends with an item to yield or a finished link; it requests nothing while the buffer holds items, and each page read uses up a response |
| Paging.Take | paddle/downloader/playlist.py:29-30 | A yield takes the first buffered item and keeps the rest; an empty buffer with no link is the end of the generator |
| Paging.Pull | paddle/downloader/playlist.py:22-31 | One `next()` either yields and makes progress, or ends the generator for good |
| Paging.Walk | paddle/downloader/main.py:103 | A `for` loop draining a generator (the tracks here, the listing of client.py:23-33 likewise) never adds responses; what it yields is stated by `WalkYields`, `WalkStops` and `FollowChain` |
| Paging.WalkYields | paddle/downloader/playlist.py:22-31 | Draining a generator that yields gives that item, then the rest of the drain, with the logs joined |
| Paging.WalkStops | paddle/downloader/playlist.py:22-31 | Draining a generator that returns or raises yields nothing more, and ends with that outcome |
| Paging.ValidatedAppend | paddle/downloader/playlist.py:23-30 | Validating two runs of items gives the two validated runs concatenated |
| Paging.ServeAll | paddle/downloader/client.py:24 | A served chain answers each page in order with a plain 200 |
| Paging.ServedAnswer | paddle/downloader/session.py:79-81 | A plain first answer is returned after one request to the resolved URL and no sleep |
| Paging.WalkAfterFetch | paddle/downloader/playlist.py:26-31 | Once a page is fetched and parsed, the generator continues from that page's items and link |
| Paging.DrainBuffer | paddle/downloader/playlist.py:23-24 | The buffered items are all yielded in order before anything is requested |
| Paging.ResolveAll | paddle/downloader/session.py:78 | Each followed URL is logged in its resolved form, in order |
| Paging.CursorTo | paddle/downloader/client.py:28 | A served `next` link reads back as the link followed or as the end |
| Paging.PageChain | paddle/downloader/client.py:23-35 | A served chain of pages holds each page's items, each linking to the next URL and the last linking to nothing |
| Paging.FirstPage | paddle/downloader/client.py:23-35 | The first page of a chain is requested once; its items come first |
| Paging.FollowChain | paddle/downloader/playlist.py:25-31 | Following `next` links over a served chain yields every item of every page in order, requests each page once at its resolved URL, never sleeps and leaves later responses untouched |
| Paging.ChainStep | paddle/downloader/playlist.py:31 | The rest of a chain is a chain, linked from its first page |
| Paging.PageChainIsChain | paddle/downloader/client.py:23-35 | Pages written by an encoder that round-trips through the parser form a chain whose items are the pages' items |
| Paging.FetchJson | paddle/downloader/client.py:24-25 | `session.get`, then `get_response_dict`, then the shape checks: exactly the page specification, with the session advanced by its log |
| Paging.Pager.constructor | paddle/downloader/playlist.py:22-25 | A new generator starts at its given state over the session's request |
| Paging.Pager.Advance | paddle/downloader/playlist.py:27-31 | One page request moves the generator to the parsed page, or ends it with the error |
| Paging.Pager.FillBuffer | paddle/downloader/playlist.py:26-31 | The page loop as a `while` loop is the `Fill` specification, with the session logs advanced by its requests |
| Paging.Pager.Next | paddle/downloader/playlist.py:22-31 | `next()` yields, returns or raises exactly as `Pull` says, and leaves the generator and session where `Pull` leaves them |
| Playlists.TracksStart | paddle/downloader/playlist.py:23-25 | The generator begins with the embedded tracks and then the embedded link; embedded tracks that are not a list fail the first `next()` |
| Playlists.ParseTrackPage | paddle/downloader/playlist.py:28-31 | A track page needs `items`; its items are buffered at once, and a missing `next` fails only after they are used up |
| Playlists.ParseTrackPageRoundTrip | paddle/downloader/playlist.py:28-31 | A served page of tracks reads back as its items and its link |
| Playlists.TrackPagesRoundTrip | paddle/downloader/playlist.py:28-31 | Every served page of tracks round-trips through the page reader |
| Playlists.MissingNextFailsAfterItems | paddle/downloader/playlist.py:29-31 | A page without `next` yields all its items, then raises `KeyError('next')` without requesting anything |
| Playlists.NoLinkNoRequest | paddle/downloader/playlist.py:23-26 | With no `next_url`, exactly the embedded tracks are yielded and no request is sent |
| Playlists.PlaylistClient.constructor | paddle/downloader/playlist.py:11-20 | The client holds the session, the playlist, the link and the embedded tracks it was given |
| Playlists.PlaylistClient.GetTracks | paddle/downloader/playlist.py:22-25 | `get_tracks` is a fresh generator at the embedded tracks and link, and nothing is requested yet |
| Playlists.TracksInOrder | paddle/downloader/playlist.py:22-31 | The tracks are the embedded ones followed by every page's, in order; each further page is requested once and nothing else is sent |
| Client.ParseListingPage | paddle/downloader/client.py:25-30 | A listing needs `playlists` to be a dict and its `items` to be present and a list, and fails with the matching error otherwise; `next` is read before the items |
| Client.ListingPagesRoundTrip | paddle/downloader/client.py:26-30 | Every served listing page reads back as its items and its link |
| Client.ParseDetail | paddle/downloader/client.py:39-43 | A detail needs `tracks` to be a dict with `items`; it gives the playlist without `tracks`, the optional link and the embedded items, and each missing piece fails with its own error |
| Client.DetailRoundTrip | paddle/downloader/client.py:40-46 | A served detail reads back as its playlist, and the tracks generator starts at its embedded tracks and link |
| Client.GetPlaylistServed | paddle/downloader/client.py:37-46 | `get_playlist` on a served detail sends one request, to `playlists/{id}`, and returns the playlist, the embedded tracks and the link |
| Client.PlaylistsInOrder | paddle/downloader/client.py:21-35 | A listing starting at `browse/categories/{id}/playlists?limit=50` yields every playlist of every page in page order, with one request per page |
| Client.SpotifyClient.constructor | paddle/downloader/client.py:13-19 | The client holds the session it was given |
| Client.SpotifyClient.GetPlaylists | paddle/downloader/client.py:21-22 | `get_playlists` is a fresh generator at the category's first listing URL, and nothing is requested yet |
| Client.SpotifyClient.GetPlaylist | paddle/downloader/client.py:37-46 | `get_playlist` fetches and reads the detail; on success the client it returns holds the playlist, the link and the embedded tracks; errors are passed on |
| Records.HeaderFitsRows | paddle/downloader/records.py:21-22 | Each table's header has one column per cell of the rows its writer writes, and no column is named twice |
| Records.KeyColumns | paddle/downloader/records.py:70-72 | A row's key is its id column in an entity table and its two id columns in a link table; a playlist-track link's `added_at` is not part of its key |
| Records.PlaylistRowsKeyed | paddle/downloader/records.py:73-82 | A playlist event offers each playlist table one row of that table, keyed by the playlist id, with `len(tracks)` as the category row's track count; the other tables get nothing |
| Records.TrackRowsKeyed | paddle/downloader/records.py:115-193 | A track event offers each table only rows of that table: nothing for an episode or to the playlist tables; one row keyed by the track id, or by playlist and track id carrying the entry's `added_at`, to the track and link tables; one row per artist, in order, keyed by track and artist id or by artist id, to the artist tables |
| Records.KeysOfAppend | paddle/downloader/records.py:72 | The keys of two runs of rows are the union of their keys |
| Records.AddKeepsConsistent | paddle/downloader/records.py:70-73 | Writing a row with a new key keeps the seen keys equal to the rows' keys, one row per key |
| Records.OfferKeepsConsistent | paddle/downloader/records.py:168-173 | The writers' loop keeps the seen keys equal to the rows' keys, one row per key |
| Records.ResumeConsistent | paddle/downloader/records.py:118-124 | Any further events keep a writer's seen keys equal to its rows' keys, with no two rows sharing a key |
| Records.ReplayConsistent | paddle/downloader/records.py:145-151 | In every table, after any history, the seen keys are the rows' keys and no two rows share a key |
| Records.OfferOnlyAppends | paddle/downloader/records.py:72-73 | A writer only adds keys and only appends rows |
| Records.FirstOfferedSeen | paddle/downloader/records.py:70-72 | After an add, the first offered key is among the seen keys, whether it was written now or before |
| Records.ResumeOnlyAdds | paddle/downloader/records.py:118-121 | Further events never forget a seen key |
| Records.ResumeAppend | paddle/downloader/records.py:202-208 | Two histories in a row are handled as their concatenation |
| Records.FirstKeysSeen | paddle/downloader/records.py:69-72 | After any history, the first key each event offered has been seen |
| Records.SeenEventsChangeNothing | paddle/downloader/records.py:70-71 | Events whose first key has been seen change nothing |
| Records.ReplayTwice | paddle/downloader/records.py:68-193 | Handing a writer its whole history a second time leaves its table unchanged |
| Records.StopIndex | paddle/downloader/records.py:168-173 | The number of rows written is at most the number offered |
| Records.KeysOfPrefix | paddle/downloader/records.py:168-169 | A prefix of rows is its first row and then a prefix of the others |
| Records.StopIndexAtFirstSeen | paddle/downloader/records.py:168-173 | The rows written are the longest prefix in which no key was seen before or repeats within it; the row after it has such a key |
| Records.OfferWritesPrefix | paddle/downloader/records.py:168-173 | An artist add writes exactly that prefix of the artists and adds exactly their keys |
| Records.EpisodeWritesNothing | paddle/downloader/records.py:117 | An episode entry leaves every table unchanged (the same test at lines 144, 167, 187) |
| Records.PlaylistWrittenOnce | paddle/downloader/records.py:68-101 | A playlist row is written only for an unseen id, is exactly `(description, name, id, uri + "/tracks", len(tracks), snapshot_id)` or `(id, followers)`, and afterwards the id is seen |
| Records.OneLinkPerPlaylist | paddle/downloader/records.py:145-151 | In any table, the link key is `(playlist id, track id)`: a new pair appends its row and key, the same pair again adds nothing, the same track in another playlist not yet linked appends one more row, and a pair already seen leaves the table unchanged |
| Records.SeenArtistHidesLaterArtists | paddle/downloader/records.py:188-191 | If a track's first artist has been seen, the artist table is unchanged, even for the artists after it |
| Records.ReplayThree | paddle/downloader/records.py:202-208 | Three events are handled one after the other |
| Records.OneRowOnce | paddle/downloader/records.py:118-121 | A single row is written once and a repeat is dropped |
| Records.TwoRowsOnce | paddle/downloader/records.py:168-173 | Two rows with different keys are both written, and offering them again is dropped |
| Records.TrackTableTwice | paddle/downloader/records.py:115-124 | A one-row table given the same track twice keeps one row |
| Records.ArtistTableTwice | paddle/downloader/records.py:165-173 | An artist table given the same two-artist track twice keeps the two rows |
| Records.PlaylistTableOnce | paddle/downloader/records.py:96-101 | A playlist table writes its single row for the playlist event |
| Records.DuplicateEntriesAsWritten | paddle/downloader/records.py:142-151 | The same entry twice, then its playlist: with `added_at` the builder as written is the replay of every table; without it the builder as written stops at the first entry with `NoneAttribute` |
| Records.DuplicateEntries | tests/test_importer.py:294-351 | The same entry twice, then its playlist with both entries, gives one track row, one link row, two artist rows and a playlist row counting 2 tracks; as written, this holds when the entry has `added_at`, and without it the run stops at the first entry |
| Records.AddedAtMissingRaises | paddle/downloader/records.py:150 | As written, an entry without `added_at` makes the link row raise |
| Records.LinkRowAlwaysWritten | paddle/downloader/records.py:142-151 | Corrected: a new link row is always written, with an empty cell for a missing `added_at`, and agrees with the code wherever the code succeeds |
| Records.ApplyAsWritten | paddle/downloader/records.py:142-151 | As written, a writer raises exactly when it is the link writer, the entry is a track, its pair is new and `added_at` is missing; it then keeps the key without a row; every other call is `Apply` |
| Records.FanOutAsWritten | paddle/downloader/records.py:206-208 | As written, the builder's loop keeps one table per writer; the first writer that raises ends the loop |
| Records.ReplayAll | paddle/downloader/main.py:74-83 | The six tables of `run`'s builder, each the replay of the history for its kind |
| Records.ReplayAsWritten | paddle/downloader/main.py:84-87 | As written, the run's builder after a history keeps six tables; the first raise ends the run |
| Records.FanOutAgrees | paddle/downloader/records.py:206-208 | A fan-out that does not raise gives each writer what `Apply` gives it; an event whose entry has `added_at` never raises |
| Records.FanOutRaisesNoneAttribute | paddle/downloader/records.py:150 | The only error a fan-out raises is the missing `added_at` |
| Records.AgreesUntilRaise | paddle/downloader/records.py:142-151 | Until something raises, the builder as written holds exactly the replayed tables, and the only raise is `NoneAttribute` |
| Records.DatedNeverRaises | paddle/downloader/records.py:145-151 | A history whose track entries all carry `added_at` never raises, and the builder as written is then the replay of every table |
| Records.RaiseIsFinal | paddle/downloader/main.py:84-87 | Once the builder as written has raised, later events change nothing |
| Records.MissingAddedAtStopsFanOut | paddle/downloader/records.py:145-150 | A first entry without `added_at`: the tracks table has its row, the link table has the key but no row, the artist tables never saw the event, and the builder raises `NoneAttribute` |
| Records.TableWriter.constructor | paddle/downloader/records.py:15-22 | A new writer has its table's header, no keys, no rows, is open and has an empty history |
| Records.TableWriter.OfferRows | paddle/downloader/records.py:168-173 | The loop over the offered rows writes exactly what `Offer` says |
| Records.TableWriter.AddPlaylist | paddle/downloader/records.py:68-101 | `add_playlist` handles the playlist as its table does and extends the writer's history by it |
| Records.TableWriter.AddTrack | paddle/downloader/records.py:115-193 | `add_track` handles the entry as its table does and extends the writer's history by it |
| Records.TableWriter.Close | paddle/downloader/records.py:43-47 | `close` closes the writer's file, once more |
| Records.RecordBuilder.constructor | paddle/downloader/records.py:199-200 | The builder holds the given writers, with an empty shared history |
| Records.RecordBuilder.AddPlaylist | paddle/downloader/records.py:202-204 | Every writer gets the playlist event once, so the shared history grows by exactly it |
| Records.RecordBuilder.AddTrack | paddle/downloader/records.py:206-208 | Every writer gets the track event once, so the shared history grows by exactly it |
| Records.RecordBuilder.Close | paddle/downloader/records.py:210-212 | Every writer is closed once more, and the history is unchanged |
| Records.BuilderTables | paddle/downloader/records.py:202-208 | Each writer's table is the replay of the builder's history, and is consistent |
| Downloader.TrackEvents | paddle/downloader/main.py:103-104 | One `add_track` per entry, in order |
| Downloader.VisitPlaylist | paddle/downloader/main.py:100-106 | A visit never adds responses, and a visit that succeeds uses up at least one |
| Downloader.FetchFrom | paddle/downloader/main.py:94-106 | The rest of the listing walk never adds responses |
| Downloader.FetchCategory | paddle/downloader/main.py:91-106 | A category never adds responses |
| Downloader.FetchAll | paddle/downloader/main.py:84-86 | The category loop never adds responses |
| Downloader.VisitsEachIdOnce | paddle/downloader/main.py:95-98 | Within the walk, the ids visited are all different and none was already seen |
| Downloader.CategoryVisitsEachIdOnce | paddle/downloader/main.py:92-98 | `fetch_playlists` visits each playlist of its category at most once |
| Downloader.FetchAllStep | paddle/downloader/main.py:84-86 | Categories run in order: the first category's events, visits and log come first, and a category that raises ends the run |
| Downloader.VisitEventsShape | paddle/downloader/main.py:102-106 | A visit forwards its tracks one by one; only when all were read does it forward the playlist, last, with exactly those tracks |
| Downloader.ServedVisit | paddle/downloader/main.py:100-106 | A fully served playlist is one detail request plus one request per further page, with no sleep; every track is forwarded in order, then the playlist with all of them |
| Downloader.RepeatedCategoryAddsNothing | paddle/downloader/main.py:92 | Replaying the events of one pass over a category a second time leaves every table as the first pass left it. The seen ids are local to a category, so a repeated category is visited again; when the remote answers that second pass as it answered the first, the writers' keys absorb it |
| Downloader.FetchFromStops | paddle/downloader/main.py:94 | When the listing returns or raises, `fetch_playlists` ends with that outcome |
| Downloader.FetchFromSkips | paddle/downloader/main.py:95-97 | A listed id already seen is skipped: no request and no event |
| Downloader.FetchFromVisitFails | paddle/downloader/main.py:98-106 | A new id is visited; a visit that raises ends the category with the tracks forwarded so far |
| Downloader.FetchFromVisitGoesOn | paddle/downloader/main.py:98-106 | A new id is visited; after a visit that succeeds the walk goes on with the id seen |
| Downloader.PrefixedThen | paddle/downloader/main.py:94-106 | The work done so far, extended twice, is extended once by the combined work |
| Downloader.TrackEventsAppend | paddle/downloader/main.py:103-104 | One more forwarded entry is one more `add_track` |
| Downloader.WalkedAfterYield | paddle/downloader/main.py:103-105 | The drained tracks seen after one more yield |
| Downloader.ForwardNext | paddle/downloader/main.py:103-104 | One `next()` of the tracks, and a yielded track forwarded to the builder |
| Downloader.ForwardTracks | paddle/downloader/main.py:102-105 | The tracks loop forwards exactly the drained tracks, in order, and keeps them |
| Downloader.ForwardPlaylist | paddle/downloader/main.py:101-106 | The tracks are forwarded, then the playlist with all of them unless reading the tracks raised |
| Downloader.VisitNew | paddle/downloader/main.py:100-106 | A new playlist's visit does exactly what `VisitPlaylist` says to the session and the builder |
| Downloader.VisitListed | paddle/downloader/main.py:98-106 | A listed new id is visited, and a successful visit makes progress on the responses |
| Downloader.FetchTurn | paddle/downloader/main.py:94-106 | One turn of the loop is the first step of `FetchFrom`, so the loop so far is a prefix of it |
| Downloader.FetchPlaylists | paddle/downloader/main.py:91-110 | `fetch_playlists` does exactly what `FetchCategory` says to the session and the builder |
| Downloader.NewWriters | paddle/downloader/main.py:75-82 | The six writers are distinct and fresh, in the fixed table order, each with its header, no rows, an empty history and an open file |
| Downloader.OpenWriters | paddle/downloader/main.py:74-83 | The six writers are fresh and in the fixed table order, each with its table's header, with empty shared history |
| Downloader.FetchCategories | paddle/downloader/main.py:84-86 | The category loop does exactly what `FetchAll` says to the session and the builder |
| Downloader.Run | paddle/downloader/main.py:66-87 | A missing output directory fails before any session exists; a token failure is passed on; otherwise every writer keeps its table's header and every table is the replay of `FetchAll`'s events, the session logs are its logs, and the builder is closed once exactly when no category raised |

## Left out

- HTTP transport and the token POST request (session.py:43-56) are I/O. The access token, or the error that obtaining it raised, is a parameter of `Run` and `CreateSession`.
- The mounted adapter's own retries are not modelled (session.py:34-40). urllib3's `Retry` retries up to `retry_max_retries` (5) times with a float backoff: on 500, 502, 503 and 504, and, since it honours `Retry-After` by default, also on a 429 that carries that header. The token-bucket rate limiter (`pyrate_limiter`) is time-based. The remote script stands for the answers as the adapter hands them back to `SessionWithBase.request`, after its own retries; a 5xx answer in the script is an HTTP error at once.
- Sessions.Resolve does not raise for a URL whose network location has an unbalanced '[' or ']' or a bad bracketed host, where `urlparse` raises ValueError. Such a URL is resolved like any other.
- Sessions.ParseInt uses CPython's default digit limit of 4300. A process that changes it with `sys.set_int_max_str_digits` or `PYTHONINTMAXSTRDIGITS` is not modelled.
- Paging.Walk: its own ensures only bounds the responses used. Its meaning is stated by the lemmas beside it.
- Sessions.RetryAfterSeconds reads the header as `int()` does for ASCII text: ASCII whitespace around it (space, tab, LF, VT, FF, CR and the separators 0x1C to 0x1F), a sign, and single underscores between digits. Non-ASCII decimal digits and non-ASCII whitespace, which `int()` also accepts, are rejected here.
- CSV quoting, gzip and file handles (records.py:15-28) are left out. A writer is its header and its sequence of rows, so the file name and the `FileType` choice are not modelled.
- pydantic validation (models.py) is a foreign library. A JSON object that pydantic would accept carries the validated record. Validation is the test of that record's kind.
- argparse, environment variables, logging and `main()` (main.py:23-63) are left out.
- `datetime.isoformat` is left out; `added_at` is an opaque string.
- The six writer subclasses are one `TableWriter` class tagged by `TableKind`. The base `Builder`'s no-op `add_playlist`/`add_track` are the tables that offer no rows.
- Records.RecordBuilder.constructor requires distinct, open writers with empty histories. That is what `run` passes it; the source takes any list.
- Records.RecordBuilder.AddPlaylist states that every writer receives the event once. It does not state the order in which the writers receive it: the writers share no state, so the order cannot be observed.
- Records.TableWriter.Close records that the file was closed; what a later write to a closed file would do is not modelled. `run` closes the builder only at its end.
- Downloader.VisitPlaylist, Downloader.FetchFrom, Downloader.FetchCategory and Downloader.FetchAll: their own ensures only bound the responses used. Their meaning is stated by the lemmas beside them and by the methods proved against them.
- Records.TrackRows builds the corrected link row, with an empty cell for a missing `added_at`, where the code raises (records.py:150). `Records.ApplyAsWritten` is that writer as written.
- Records.TableWriter.AddTrack follows `TrackRows`, so the link writer never raises on a missing `added_at`. The call as written is `Records.ApplyAsWritten`.
- Records.RecordBuilder.AddTrack gives the event to every writer, even after the link writer would have raised. `Records.FanOutAsWritten` is the loop as written, and `Records.FanOutAgrees` shows the two agree whenever the loop does not raise.
- Records.DuplicateEntries states the corrected tables; its as-written part covers both a present and a missing `added_at`.
- Downloader.VisitPlaylist goes on past an entry without `added_at`, where the code raises out of `add_track` and stops the run. `Records.ReplayAsWritten` and `Records.RaiseIsFinal` give the builder as written, which takes the events only up to that entry.
- Downloader.FetchFrom goes on past an entry without `added_at`, where the code stops; see `Records.ReplayAsWritten`.
- Downloader.FetchCategory goes on past an entry without `added_at`, where the code stops; see `Records.ReplayAsWritten`.
- Downloader.FetchAll goes on past an entry without `added_at`, where the code stops; see `Records.ReplayAsWritten`.
- Downloader.ForwardNext forwards an entry without `added_at` without raising.
- Downloader.ForwardTracks goes on reading tracks after an entry without `added_at`, where the code stops.
- Downloader.ForwardPlaylist goes on reading tracks after an entry without `added_at` and then hands over the playlist, where the code stops.
- Downloader.VisitNew goes on after an entry without `added_at`, where the code stops.
- Downloader.VisitListed goes on after an entry without `added_at`, where the code stops.
- Downloader.FetchTurn goes on after an entry without `added_at`, where the code stops.
- Downloader.FetchPlaylists goes on to later playlists after an entry without `added_at`, where the code stops.
- Downloader.FetchCategories goes on to later categories after an entry without `added_at`, where the code stops.
- Downloader.Run goes on past an entry without `added_at` and, when nothing else raises, closes the builder; the code raises there, sends nothing more and leaves the builder open. On runs whose entries all carry `added_at`, `Records.DatedNeverRaises` shows that the tables are the same as written. The session log of a run that would raise is not modelled past the raise.
- The order of a dict's keys is not modelled. Every key the code reads is read by name.
- Local tracks: the code writes any `SimplifiedTrack`, local or not, and so does the model.
- The default category list `["latin"]` (config.py:37, main.py:41) is a dataclass and argparse default. `Run` takes the categories as given.
- `raise_for_status` fails only for statuses 400..599. Other non-2xx statuses pass, as in the code.
- The extractor sends every request with `GET`, so `Request` takes no method.
- `models.py`, `config.py` and the test data are used only to shape the datatypes and defaults.

## Findings

| source | as written | input that shows it | evidently intended | confidence | as-written member | corrected member |
|---|---|---|---|---|---|---|
| paddle/downloader/records.py:150 | `playlist_track.added_at.isoformat()` is called, yet `added_at` is optional (models.py:172) | a playlist entry whose `added_at` is `None` and whose track is a track, not an episode | write the link row with an empty `playlist_added_at` cell | not executed | Records.MissingAddedAtStopsFanOut | Records.LinkRowAlwaysWritten |

=== FILE: client.dfy ===
/**
 * The mini Spotify client: the paged listing of a category's playlists and
 * the detail of one playlist, which carries its first page of tracks.
 */
module Client {
  import opened Models
  import opened Sessions
  import opened Paging
  import opened Playlists

  /** The first page of a category's playlists, fifty to a page, relative to the API base. */
  function ListingUrl(categoryId: string): string {
    "browse/categories/" + categoryId + "/playlists?limit=50"
  }

  /** A playlist's detail, relative to the API base. */
  function DetailUrl(playlistId: string): string {
    "playlists/" + playlistId
  }

  /**
   * A page of a category's playlists: `data["playlists"]` must be a dict,
   * its `next` link is read at once, its `items` must be present and a
   * list; each item is validated only when it is yielded.
   */
  function ParseListingPage(data: Json): (r: Result<PagerState>)
    ensures IsDict(data) && ("playlists" !in Keys(data) || !IsDict(Keys(data)["playlists"]))
      ==> r == Err(PlaylistsNotDict)
    ensures IsDict(data) && "playlists" in Keys(data) && IsDict(Keys(data)["playlists"])
      ==> var listing := Keys(Keys(data)["playlists"]);
        && ("items" !in listing ==> r == Err(KeyMissing("items")))
        && ("items" in listing && !listing["items"].JList? ==> r == Err(ItemsNotList))
        && ("items" in listing && listing["items"].JList? ==>
              r == Ok(PagerState(listing["items"].elems, CursorOf(if "next" in listing then Some(listing["next"]) else None))))
    ensures r.Ok? ==> IsDict(data)
  {
    if !IsDict(data) then Err(BodyNotDict)
    else
      match Get(data, "playlists")
      case None => Err(PlaylistsNotDict)
      case Some(listing) =>
        if !IsDict(listing) then Err(PlaylistsNotDict)
        else
          var cursor := CursorOf(Get(listing, "next"));
          match Lookup(listing, "items")
          case Err(e) => Err(e)
          case Ok(items) =>
            if !items.JList? then Err(ItemsNotList) else Ok(PagerState(items.elems, cursor))
  }

  /** A page of a category's playlists as the remote serves it. */
  function ListingPage(items: seq<Json>, next: Option<string>): Json {
    JDict(map["playlists" := JDict(map["items" := JList(items), "next" := Link(next)])])
  }

  /** The listing pages round-trip through `ParseListingPage`. */
  lemma ListingPagesRoundTrip()
    ensures RoundTrips(ParseListingPage, ListingPage)
  {
    forall items, next
      ensures IsDict(ListingPage(items, next))
        && ParseListingPage(ListingPage(items, next)) == Ok(PagerState(items, CursorTo(next)))
    {
      var listing := JDict(map["items" := JList(items), "next" := Link(next)]);
      assert Get(ListingPage(items, next), "playlists") == Some(listing);
      assert Get(listing, "next") == Some(Link(next));
    }
  }

  /** The detail of a playlist: the playlist without its tracks, the link to the second page of tracks, the embedded tracks. */
  datatype Detail = Detail(playlist: Playlist, nextUrl: Option<Json>, pendingTracks: Json)

  /**
   * A playlist's detail page: `data["tracks"]` must be present and a dict,
   * its `next` is optional and its `items` required; the rest of the page,
   * without `tracks`, must validate as a playlist.
   */
  function ParseDetail(data: Json): (r: Result<Detail>)
    ensures IsDict(data) && "tracks" !in Keys(data) ==> r == Err(KeyMissing("tracks"))
    ensures IsDict(data) && "tracks" in Keys(data) && !IsDict(Keys(data)["tracks"]) ==> r == Err(NotADict)
    ensures IsDict(data) && "tracks" in Keys(data) && IsDict(Keys(data)["tracks"]) && "items" !in Keys(Keys(data)["tracks"])
      ==> r == Err(KeyMissing("items"))
    ensures r.Ok? <==>
      && IsDict(data) && "tracks" in Keys(data)
      && IsDict(Keys(data)["tracks"]) && "items" in Keys(Keys(data)["tracks"])
      && data.JObject? && data.record.PlaylistRecord?
    ensures r.Ok? ==> var tracks := Keys(Keys(data)["tracks"]);
      r.value == Detail(data.record.playlist, if "next" in tracks then Some(tracks["next"]) else None, tracks["items"])
  {
    if !IsDict(data) then Err(BodyNotDict)
    else
      match Lookup(data, "tracks")
      case Err(e) => Err(e)
      case Ok(tracks) =>
        if !IsDict(tracks) then Err(NotADict)
        else
          var nextUrl := Get(tracks, "next");
          match Lookup(tracks, "items")
          case Err(e) => Err(e)
          case Ok(items) =>
            match ValidatePlaylist(Delete(data, "tracks"))
            case Err(e) => Err(e)
            case Ok(playlist) => Ok(Detail(playlist, nextUrl, items))
  }

  /** A playlist's detail page as the remote serves it, with its first page of tracks. */
  function DetailBody(playlist: Playlist, items: seq<Json>, next: Option<string>): Json {
    JObject(PlaylistRecord(playlist), map["tracks" := JDict(map["items" := JList(items), "next" := Link(next)])])
  }

  /**
   * Reading a served detail page gives back the playlist, and the client's
   * tracks generator starts at the embedded tracks and the embedded link.
   */
  lemma DetailRoundTrip(playlist: Playlist, items: seq<Json>, next: Option<string>)
    ensures ParseDetail(DetailBody(playlist, items, next)) == Ok(Detail(playlist, Some(Link(next)), JList(items)))
    ensures TracksStart(JList(items), Some(Link(next))) == PagerState(items, CursorTo(next))
  {
    var tracks := JDict(map["items" := JList(items), "next" := Link(next)]);
    assert Lookup(DetailBody(playlist, items, next), "tracks") == Ok(tracks);
    assert Get(tracks, "next") == Some(Link(next));
  }

  /**
   * `get_playlist`: one request for the detail page, answered with a
   * served detail, leaves the playlist, its embedded tracks and its link.
   */
  lemma GetPlaylistServed(config: SpotifyConfig, playlistId: string, playlist: Playlist,
                          items: seq<Json>, next: Option<string>, rest: seq<Response>)
    requires config.rateLimitMaxRetries >= 1
    ensures FetchPage(ParseDetail, Transport(config), DetailUrl(playlistId), [Served(DetailBody(playlist, items, next))] + rest)
      == Fetched(Ok(Detail(playlist, Some(Link(next)), JList(items))),
                 Log([Resolve(config.baseUrl, DetailUrl(playlistId))], []), rest)
  {
    ServedAnswer(config, DetailUrl(playlistId), DetailBody(playlist, items, next), rest);
    DetailRoundTrip(playlist, items, next);
  }

  /**
   * `get_playlists`: a generator started at the category's first page,
   * over listing pages served in order, yields every playlist of every page
   * in order, requests each page once at its resolved URL and never sleeps.
   */
  lemma PlaylistsInOrder(config: SpotifyConfig, categoryId: string, urls: seq<string>,
                         pageItems: seq<seq<Json>>, tail: seq<Response>)
    requires config.rateLimitMaxRetries >= 1
    requires |urls| == |pageItems| && urls != [] && urls[0] == ListingUrl(categoryId)
    requires forall i :: 0 <= i < |pageItems| ==> AllValid(ValidateSummary, pageItems[i])
    ensures AllValid(ValidateSummary, Flatten(pageItems))
    ensures Walk(ValidateSummary, ParseListingPage, Transport(config), PagerState([], Follow(ListingUrl(categoryId))),
                 ServeAll(PageChain(ListingPage, urls, pageItems)) + tail)
      == Walked(Validated(ValidateSummary, Flatten(pageItems)), None, Log(ResolveAll(config.baseUrl, urls), []), tail)
  {
    ListingPagesRoundTrip();
    PageChainIsChain(ValidateSummary, ParseListingPage, ListingPage, urls, pageItems);
    FollowChain(ValidateSummary, ParseListingPage, config, urls, PageChain(ListingPage, urls, pageItems), tail);
  }

  /** A mini Spotify client over a session. */
  class SpotifyClient {
    const session: SessionWithBase

    constructor (session: SessionWithBase)
      ensures this.session == session
    {
      this.session := session;
    }

    /** `get_playlists`: a fresh generator at the category's first page; nothing is requested yet. */
    method GetPlaylists(categoryId: string) returns (playlists: Pager<SimplifiedPlaylist>)
      ensures fresh(playlists)
      ensures playlists.session == session && playlists.validate == ValidateSummary
      ensures playlists.parse == ParseListingPage && playlists.request == Transport(session.config)
      ensures playlists.state == PagerState([], Follow(ListingUrl(categoryId)))
    {
      playlists := new Pager(session, ValidateSummary, ParseListingPage, PagerState([], Follow(ListingUrl(categoryId))));
    }

    /** `get_playlist`: request and read the detail page, then wrap it in a client over its tracks. */
    method GetPlaylist(playlistId: string) returns (r: Result<PlaylistClient>)
      modifies session`responses, session`sent, session`slept
      ensures var f := FetchPage(ParseDetail, Transport(session.config), DetailUrl(playlistId), old(session.responses));
        && session.responses == f.rest
        && session.sent == old(session.sent) + f.log.sent && session.slept == old(session.slept) + f.log.slept
        && (r.Ok? <==> f.page.Ok?)
        && (r.Err? ==> r.error == f.page.error)
        && (r.Ok? ==> && fresh(r.value) && r.value.session == session
                      && r.value.playlist == f.page.value.playlist
                      && r.value.nextUrl == f.page.value.nextUrl
                      && r.value.pendingTracks == f.page.value.pendingTracks)
    {
      var detail := FetchJson(session, ParseDetail, DetailUrl(playlistId));
      if detail.Err? {
        return Err(detail.error);
      }
      var client := new PlaylistClient(session, detail.value.playlist, detail.value.nextUrl, detail.value.pendingTracks);
      r := Ok(client);
    }
  }
}

=== FILE: downloader.dfy ===
/**
 * The downloader's driver: for each category, walk its paged playlists,
 * skip the ones already seen in that category, and for each new playlist
 * fetch its detail, forward each of its tracks to the record builder and
 * then the playlist itself; close the builder once every category is done.
 * Any error raised on the way ends the run, and the builder is then not
 * closed.
 */
module Downloader {
  import opened Models
  import opened Sessions
  import opened Paging
  import opened Playlists
  import opened Client
  import opened Records

  // ---------------------------------------------------------------------
  // Reference definitions

  /** What one playlist's visit hands the builder, and what it cost the session. */
  datatype Visit = Visit(events: seq<Event>, failure: Option<Error>, log: Log, rest: seq<Response>)

  /**
   * What a run of category walks hands the builder: the events in order, the
   * playlist ids visited in order, the error that ended it if any, the
   * session log and the responses left.
   */
  datatype Fetch = Fetch(events: seq<Event>, visited: seq<string>, failure: Option<Error>, log: Log, rest: seq<Response>)

  /** One `add_track` event per entry, in order. */
  function TrackEvents(playlist: Playlist, entries: seq<PlaylistTrack>): (events: seq<Event>)
    ensures |events| == |entries|
    ensures forall i :: 0 <= i < |entries| ==> events[i] == TrackEvent(playlist, entries[i])
  {
    seq(|entries|, i requires 0 <= i < |entries| => TrackEvent(playlist, entries[i]))
  }

  /**
   * One new playlist: request its detail, drain its tracks forwarding each
   * as it comes, then hand over the playlist with all its tracks. An error
   * while reading the tracks leaves the tracks already forwarded and no
   * playlist event.
   */
  function VisitPlaylist(config: SpotifyConfig, playlistId: string, responses: seq<Response>): (v: Visit)
    ensures |v.rest| <= |responses|
    ensures v.failure.None? ==> |v.rest| < |responses|
  {
    var f := FetchPage(ParseDetail, Transport(config), DetailUrl(playlistId), responses);
    match f.page
    case Err(e) => Visit([], Some(e), f.log, f.rest)
    case Ok(d) =>
      var w := Walk(ValidateEntry, ParseTrackPage, Transport(config), TracksStart(d.pendingTracks, d.nextUrl), f.rest);
      var forwarded := TrackEvents(d.playlist, w.items);
      if w.failure.Some? then Visit(forwarded, w.failure, f.log.Then(w.log), w.rest)
      else Visit(forwarded + [PlaylistEvent(d.playlist, w.items)], None, f.log.Then(w.log), w.rest)
  }

  /**
   * The rest of `fetch_playlists` from a listing generator in state `st`,
   * with the ids `seen` so far in this category.
   */
  function FetchFrom(config: SpotifyConfig, seen: set<string>, st: PagerState, responses: seq<Response>): (r: Fetch)
    decreases |responses|, |st.buffer|
    ensures |r.rest| <= |responses|
  {
    var p := Pull(ValidateSummary, ParseListingPage, Transport(config), st, responses);
    match p.step
    case Done => Fetch([], [], None, p.log, p.rest)
    case Fail(e) => Fetch([], [], Some(e), p.log, p.rest)
    case Yield(item) =>
      if item.id in seen then
        var r := FetchFrom(config, seen, p.state, p.rest);
        Fetch(r.events, r.visited, r.failure, p.log.Then(r.log), r.rest)
      else
        var v := VisitPlaylist(config, item.id, p.rest);
        if v.failure.Some? then Fetch(v.events, [item.id], v.failure, p.log.Then(v.log), v.rest)
        else
          var r := FetchFrom(config, seen + {item.id}, p.state, v.rest);
          Fetch(v.events + r.events, [item.id] + r.visited, r.failure, p.log.Then(v.log.Then(r.log)), r.rest)
  }

  /** The listing generator of a category before its first `next()`. */
  function ListingStart(categoryId: string): PagerState {
    PagerState([], Follow(ListingUrl(categoryId)))
  }

  /** `fetch_playlists` of one category, with an empty set of seen ids. */
  function FetchCategory(config: SpotifyConfig, categoryId: string, responses: seq<Response>): (r: Fetch)
    ensures |r.rest| <= |responses|
  {
    FetchFrom(config, {}, ListingStart(categoryId), responses)
  }

  /** The category loop of `run`: each category in turn, until one of them raises. */
  function FetchAll(config: SpotifyConfig, categoryIds: seq<string>, responses: seq<Response>): (r: Fetch)
    ensures |r.rest| <= |responses|
    decreases |categoryIds|
  {
    if categoryIds == [] then Fetch([], [], None, NoLog, responses)
    else
      var f := FetchCategory(config, categoryIds[0], responses);
      if f.failure.Some? then f
      else
        var r := FetchAll(config, categoryIds[1..], f.rest);
        Fetch(f.events + r.events, f.visited + r.visited, r.failure, f.log.Then(r.log), r.rest)
  }

  // ---------------------------------------------------------------------
  // Properties of the reference definitions

  /** A sequence without repetitions. */
  predicate NoRepeats(xs: seq<string>) {
    forall i, j :: 0 <= i < j < |xs| ==> xs[i] != xs[j]
  }

  /**
   * Within one category each playlist is visited at most once: the ids
   * visited are all different and none of them had been seen before.
   */
  lemma {:induction false} VisitsEachIdOnce(config: SpotifyConfig, seen: set<string>, st: PagerState, responses: seq<Response>)
    ensures var r := FetchFrom(config, seen, st, responses);
      NoRepeats(r.visited) && forall i :: 0 <= i < |r.visited| ==> r.visited[i] !in seen
    decreases |responses|, |st.buffer|
  {
    var p := Pull(ValidateSummary, ParseListingPage, Transport(config), st, responses);
    if !p.step.Yield? {
      FetchFromStops(config, seen, st, responses);
    } else if p.step.item.id in seen {
      FetchFromSkips(config, seen, st, responses);
      VisitsEachIdOnce(config, seen, p.state, p.rest);
    } else {
      var id := p.step.item.id;
      var v := VisitPlaylist(config, id, p.rest);
      if v.failure.Some? {
        FetchFromVisitFails(config, seen, st, responses);
      } else {
        FetchFromVisitGoesOn(config, seen, st, responses);
        VisitsEachIdOnce(config, seen + {id}, p.state, v.rest);
      }
    }
  }

  /** `fetch_playlists` visits every playlist of its category at most once. */
  lemma CategoryVisitsEachIdOnce(config: SpotifyConfig, categoryId: string, responses: seq<Response>)
    ensures NoRepeats(FetchCategory(config, categoryId, responses).visited)
  {
    VisitsEachIdOnce(config, {}, ListingStart(categoryId), responses);
  }

  /**
   * The category loop seen one category at a time: the first category's
   * events, visits and log come first, then the rest of the loop's; a
   * category that raises ends the loop with what it did.
   */
  lemma FetchAllStep(config: SpotifyConfig, categoryIds: seq<string>, responses: seq<Response>)
    requires categoryIds != []
    ensures var f := FetchCategory(config, categoryIds[0], responses);
      var r := FetchAll(config, categoryIds, responses);
      && (f.failure.Some? ==> r == f)
      && (f.failure.None? ==> r == Prefixed(f.events, f.visited, f.log, FetchAll(config, categoryIds[1..], f.rest)))
  {
  }

  /**
   * What a visit hands the builder: its tracks one by one, and only when
   * they were all read, the playlist with exactly those tracks, last.
   */
  lemma VisitEventsShape(config: SpotifyConfig, playlistId: string, responses: seq<Response>)
    ensures var v := VisitPlaylist(config, playlistId, responses);
      && (v.failure.Some? ==> forall k :: 0 <= k < |v.events| ==> v.events[k].TrackEvent?)
      && (v.failure.None? ==> v.events != [] && var last := v.events[|v.events| - 1];
            && last.PlaylistEvent?
            && v.events[..|v.events| - 1] == TrackEvents(last.playlist, last.tracks))
  {
    var f := FetchPage(ParseDetail, Transport(config), DetailUrl(playlistId), responses);
    if f.page.Ok? {
      var d := f.page.value;
      var w := Walk(ValidateEntry, ParseTrackPage, Transport(config), TracksStart(d.pendingTracks, d.nextUrl), f.rest);
      var forwarded := TrackEvents(d.playlist, w.items);
      if w.failure.None? {
        assert (forwarded + [PlaylistEvent(d.playlist, w.items)])[..|forwarded|] == forwarded;
      }
    }
  }

  /**
   * A playlist served in full: its detail page, then its further track
   * pages. The visit requests the detail and each further page once, at
   * their resolved URLs, never sleeps, forwards every track in order and
   * then the playlist with all of them.
   */
  lemma ServedVisit(config: SpotifyConfig, playlistId: string, playlist: Playlist, pending: seq<Json>,
                    urls: seq<string>, pageItems: seq<seq<Json>>, tail: seq<Response>)
    requires config.rateLimitMaxRetries >= 1
    requires |urls| == |pageItems|
    requires AllValid(ValidateEntry, pending)
    requires forall i :: 0 <= i < |pageItems| ==> AllValid(ValidateEntry, pageItems[i])
    ensures AllValid(ValidateEntry, pending + Flatten(pageItems))
    ensures var detail := DetailBody(playlist, pending, if urls == [] then None else Some(urls[0]));
      var entries := Validated(ValidateEntry, pending + Flatten(pageItems));
      VisitPlaylist(config, playlistId, [Served(detail)] + ServeAll(PageChain(TrackPage, urls, pageItems)) + tail)
        == Visit(TrackEvents(playlist, entries) + [PlaylistEvent(playlist, entries)], None,
                 Log([Resolve(config.baseUrl, DetailUrl(playlistId))] + ResolveAll(config.baseUrl, urls), []), tail)
  {
    var next := if urls == [] then None else Some(urls[0]);
    var pages := ServeAll(PageChain(TrackPage, urls, pageItems)) + tail;
    assert [Served(DetailBody(playlist, pending, next))] + ServeAll(PageChain(TrackPage, urls, pageItems)) + tail
      == [Served(DetailBody(playlist, pending, next))] + pages;
    GetPlaylistServed(config, playlistId, playlist, pending, next, pages);
    TracksInOrder(config, pending, urls, pageItems, tail);
  }

  /**
   * A category that repeats: handing a writer the events of one pass over a
   * category a second time leaves every table as the first pass left it.
   * A run whose category list names a category twice does this when the
   * remote answers the second pass as it answered the first; the lemma says
   * nothing about a second pass that is answered differently.
   */
  lemma RepeatedCategoryAddsNothing(config: SpotifyConfig, categoryId: string, responses: seq<Response>, kind: TableKind)
    ensures var f := FetchCategory(config, categoryId, responses);
      Replay(kind, f.events + f.events) == Replay(kind, f.events)
  {
    ReplayTwice(kind, FetchCategory(config, categoryId, responses).events);
  }

  /** A run seen from the middle: what was done so far, then what `r` does from there. */
  function Prefixed(forwarded: seq<Event>, visited: seq<string>, done: Log, r: Fetch): Fetch {
    Fetch(forwarded + r.events, visited + r.visited, r.failure, done.Then(r.log), r.rest)
  }

  /** The listing's `next()` returns or raises: `fetch_playlists` ends there. */
  lemma FetchFromStops(config: SpotifyConfig, seen: set<string>, st: PagerState, responses: seq<Response>)
    requires !Pull(ValidateSummary, ParseListingPage, Transport(config), st, responses).step.Yield?
    ensures var p := Pull(ValidateSummary, ParseListingPage, Transport(config), st, responses);
      FetchFrom(config, seen, st, responses) == Fetch([], [], if p.step.Done? then None else Some(p.step.error), p.log, p.rest)
  {
  }

  /** A listed id already seen is skipped. */
  lemma FetchFromSkips(config: SpotifyConfig, seen: set<string>, st: PagerState, responses: seq<Response>)
    requires var p := Pull(ValidateSummary, ParseListingPage, Transport(config), st, responses);
      p.step.Yield? && p.step.item.id in seen
    ensures var p := Pull(ValidateSummary, ParseListingPage, Transport(config), st, responses);
      var later := FetchFrom(config, seen, p.state, p.rest);
      FetchFrom(config, seen, st, responses) == Fetch(later.events, later.visited, later.failure, p.log.Then(later.log), later.rest)
  {
  }

  /** A listed id not seen before is visited; a visit that raises ends the walk. */
  lemma FetchFromVisitFails(config: SpotifyConfig, seen: set<string>, st: PagerState, responses: seq<Response>)
    requires var p := Pull(ValidateSummary, ParseListingPage, Transport(config), st, responses);
      && p.step.Yield? && p.step.item.id !in seen
      && VisitPlaylist(config, p.step.item.id, p.rest).failure.Some?
    ensures var p := Pull(ValidateSummary, ParseListingPage, Transport(config), st, responses);
      var v := VisitPlaylist(config, p.step.item.id, p.rest);
      FetchFrom(config, seen, st, responses) == Fetch(v.events, [p.step.item.id], v.failure, p.log.Then(v.log), v.rest)
  {
  }

  /** A listed id not seen before is visited; after a visit that succeeds the walk goes on with the id seen. */
  lemma FetchFromVisitGoesOn(config: SpotifyConfig, seen: set<string>, st: PagerState, responses: seq<Response>)
    requires var p := Pull(ValidateSummary, ParseListingPage, Transport(config), st, responses);
      && p.step.Yield? && p.step.item.id !in seen
      && VisitPlaylist(config, p.step.item.id, p.rest).failure.None?
    ensures var p := Pull(ValidateSummary, ParseListingPage, Transport(config), st, responses);
      var id := p.step.item.id;
      var v := VisitPlaylist(config, id, p.rest);
      var later := FetchFrom(config, seen + {id}, p.state, v.rest);
      FetchFrom(config, seen, st, responses)
        == Fetch(v.events + later.events, [id] + later.visited, later.failure, p.log.Then(v.log.Then(later.log)), later.rest)
  {
  }

  /** A run seen from the middle, seen again further on. */
  lemma PrefixedThen(forwarded: seq<Event>, visited: seq<string>, done: Log,
                     events: seq<Event>, ids: seq<string>, log: Log, later: Fetch)
    ensures Prefixed(forwarded, visited, done, Prefixed(events, ids, log, later))
      == Prefixed(forwarded + events, visited + ids, done.Then(log), later)
  {
    AppendAssoc(forwarded, events, later.events);
    AppendAssoc(visited, ids, later.visited);
    ThenAssoc(done, log, later.log);
  }

  // ---------------------------------------------------------------------
  // The driver

  /** The run's configuration: the API settings and the categories to download, in order. */
  datatype Config = Config(spotify: SpotifyConfig, categoryIds: seq<string>)

  /** One more forwarded entry is one more `add_track` event. */
  lemma TrackEventsAppend(playlist: Playlist, entries: seq<PlaylistTrack>, entry: PlaylistTrack)
    ensures TrackEvents(playlist, entries + [entry]) == TrackEvents(playlist, entries) + [TrackEvent(playlist, entry)]
  {
  }

  /** The drained generator seen after one more yielded item. */
  lemma WalkedAfterYield<T>(whole: Walked<T>, entries: seq<T>, done: Log, p: Pulled<T>, w: Walked<T>, later: Walked<T>)
    requires p.step.Yield?
    requires w == Walked([p.step.item] + later.items, later.failure, p.log.Then(later.log), later.rest)
    requires whole == Walked(entries + w.items, w.failure, done.Then(w.log), w.rest)
    ensures whole == Walked((entries + [p.step.item]) + later.items, later.failure, done.Then(p.log).Then(later.log), later.rest)
  {
    AppendAssoc(entries, [p.step.item], later.items);
    ThenAssoc(done, p.log, later.log);
  }

  /** One turn of the inner loop of `fetch_playlists`: the generator's `next()`, and a yielded track forwarded to the builder. */
  method ForwardNext(builder: RecordBuilder, playlist: Playlist, tracks: Pager<PlaylistTrack>) returns (step: Step<PlaylistTrack>)
    requires tracks.request == Transport(tracks.session.config)
    requires builder.Valid()
    modifies tracks`state, tracks.session`responses, tracks.session`sent, tracks.session`slept
    modifies builder.builders, builder`events
    ensures var p := Pull(tracks.validate, tracks.parse, tracks.request, old(tracks.state), old(tracks.session.responses));
      && step == p.step && tracks.state == p.state && tracks.session.responses == p.rest
      && tracks.session.sent == old(tracks.session.sent) + p.log.sent
      && tracks.session.slept == old(tracks.session.slept) + p.log.slept
    ensures builder.Valid()
    ensures builder.events == old(builder.events) + if step.Yield? then [TrackEvent(playlist, step.item)] else []
  {
    step := tracks.Next();
    if step.Yield? {
      builder.AddTrack(playlist, step.item);
    } else {
      assert builder.events + [] == builder.events;
    }
  }

  /** The inner loop of `fetch_playlists`: forward each track of the generator to the builder and keep it. */
  method ForwardTracks(builder: RecordBuilder, playlist: Playlist, tracks: Pager<PlaylistTrack>)
    returns (entries: seq<PlaylistTrack>, failure: Option<Error>)
    requires tracks.request == Transport(tracks.session.config)
    requires tracks.validate == ValidateEntry && tracks.parse == ParseTrackPage
    requires builder.Valid()
    modifies tracks`state, tracks.session`responses, tracks.session`sent, tracks.session`slept
    modifies builder.builders, builder`events
    ensures var w := Walk(ValidateEntry, ParseTrackPage, tracks.request, old(tracks.state), old(tracks.session.responses));
      && entries == w.items && failure == w.failure && tracks.session.responses == w.rest
      && tracks.session.sent == old(tracks.session.sent) + w.log.sent
      && tracks.session.slept == old(tracks.session.slept) + w.log.slept
    ensures builder.Valid() && builder.events == old(builder.events) + TrackEvents(playlist, entries)
  {
    var session := tracks.session;
    ghost var request := tracks.request;
    ghost var whole := Walk(ValidateEntry, ParseTrackPage, request, tracks.state, session.responses);
    ghost var sent0, slept0, events0 := session.sent, session.slept, builder.events;
    ghost var done := NoLog;
    entries := [];
    while true
      invariant builder.Valid() && builder.events == events0 + TrackEvents(playlist, entries)
      invariant session.sent == sent0 + done.sent && session.slept == slept0 + done.slept
      invariant var w := Walk(ValidateEntry, ParseTrackPage, request, tracks.state, session.responses);
        whole == Walked(entries + w.items, w.failure, done.Then(w.log), w.rest)
      decreases |session.responses|, |tracks.state.buffer|
    {
      ghost var st, responses := tracks.state, session.responses;
      ghost var p := Pull(ValidateEntry, ParseTrackPage, request, st, responses);
      var step := ForwardNext(builder, playlist, tracks);
      AppendAssoc(sent0, done.sent, p.log.sent);
      AppendAssoc(slept0, done.slept, p.log.slept);
      if !step.Yield? {
        WalkStops(ValidateEntry, ParseTrackPage, request, st, responses);
        assert entries + [] == entries;
        return entries, if step.Done? then None else Some(step.error);
      }
      WalkYields(ValidateEntry, ParseTrackPage, request, st, responses);
      ghost var later := Walk(ValidateEntry, ParseTrackPage, request, tracks.state, session.responses);
      WalkedAfterYield(whole, entries, done, p, Walk(ValidateEntry, ParseTrackPage, request, st, responses), later);
      TrackEventsAppend(playlist, entries, step.item);
      AppendAssoc(events0, TrackEvents(playlist, entries), [TrackEvent(playlist, step.item)]);
      entries := entries + [step.item];
      done := done.Then(p.log);
    }
  }

  /** The tracks of a playlist whose detail was read, then the playlist itself: forwarded to the builder. */
  method ForwardPlaylist(builder: RecordBuilder, playlistClient: PlaylistClient) returns (failure: Option<Error>)
    requires builder.Valid()
    modifies playlistClient.session`responses, playlistClient.session`sent, playlistClient.session`slept
    modifies builder.builders, builder`events
    ensures var session := playlistClient.session;
      var w := Walk(ValidateEntry, ParseTrackPage, Transport(session.config),
                    TracksStart(playlistClient.pendingTracks, playlistClient.nextUrl), old(session.responses));
      && failure == w.failure && session.responses == w.rest
      && session.sent == old(session.sent) + w.log.sent && session.slept == old(session.slept) + w.log.slept
      && builder.Valid()
      && builder.events == old(builder.events) +
           if w.failure.Some? then TrackEvents(playlistClient.playlist, w.items)
           else TrackEvents(playlistClient.playlist, w.items) + [PlaylistEvent(playlistClient.playlist, w.items)]
  {
    var playlist := playlistClient.playlist;
    var tracks := playlistClient.GetTracks();
    ghost var events0 := builder.events;
    var entries;
    entries, failure := ForwardTracks(builder, playlist, tracks);
    if failure.Some? {
      return;
    }
    builder.AddPlaylist(playlist, entries);
    AppendAssoc(events0, TrackEvents(playlist, entries), [PlaylistEvent(playlist, entries)]);
  }

  /** The body of `fetch_playlists` for a playlist id not seen before. */
  method VisitNew(client: SpotifyClient, builder: RecordBuilder, playlistId: string) returns (failure: Option<Error>)
    requires builder.Valid()
    modifies client.session`responses, client.session`sent, client.session`slept
    modifies builder.builders, builder`events
    ensures var v := VisitPlaylist(client.session.config, playlistId, old(client.session.responses));
      && failure == v.failure && client.session.responses == v.rest
      && client.session.sent == old(client.session.sent) + v.log.sent
      && client.session.slept == old(client.session.slept) + v.log.slept
      && builder.Valid() && builder.events == old(builder.events) + v.events
  {
    var session := client.session;
    ghost var f := FetchPage(ParseDetail, Transport(session.config), DetailUrl(playlistId), session.responses);
    var detail := client.GetPlaylist(playlistId);
    if detail.Err? {
      assert builder.events + [] == builder.events;
      return Some(detail.error);
    }
    var playlistClient := detail.value;
    ghost var d := f.page.value;
    ghost var w := Walk(ValidateEntry, ParseTrackPage, Transport(session.config), TracksStart(d.pendingTracks, d.nextUrl), f.rest);
    failure := ForwardPlaylist(builder, playlistClient);
    AppendAssoc(old(session.sent), f.log.sent, w.log.sent);
    AppendAssoc(old(session.slept), f.log.slept, w.log.slept);
  }

  /**
   * A listed playlist not seen before, in the walk that `st` and `responses`
   * were at before the listing's `next()` yielded it: visit it, and the walk
   * ends if the visit raises.
   */
  method VisitListed(client: SpotifyClient, builder: RecordBuilder, playlistIds: set<string>, playlistId: string,
                     ghost st: PagerState, ghost responses: seq<Response>)
    returns (failure: Option<Error>, ghost events: seq<Event>, ghost log: Log)
    requires var p := Pull(ValidateSummary, ParseListingPage, Transport(client.session.config), st, responses);
      && p.step.Yield? && p.step.item.id == playlistId && playlistId !in playlistIds && p.rest == client.session.responses
    requires builder.Valid()
    modifies client.session`responses, client.session`sent, client.session`slept
    modifies builder.builders, builder`events
    ensures var p := Pull(ValidateSummary, ParseListingPage, Transport(client.session.config), st, responses);
      var r := FetchFrom(client.session.config, playlistIds, st, responses);
      && (failure.Some? ==> r == Fetch(events, [playlistId], failure, p.log.Then(log), client.session.responses))
      && (failure.None? ==> r == Prefixed(events, [playlistId], p.log.Then(log),
                                          FetchFrom(client.session.config, playlistIds + {playlistId}, p.state, client.session.responses)))
    ensures failure.None? ==> |client.session.responses| < old(|client.session.responses|)
    ensures client.session.sent == old(client.session.sent) + log.sent
    ensures client.session.slept == old(client.session.slept) + log.slept
    ensures builder.Valid() && builder.events == old(builder.events) + events
  {
    ghost var config := client.session.config;
    ghost var p := Pull(ValidateSummary, ParseListingPage, Transport(config), st, responses);
    ghost var v := VisitPlaylist(config, playlistId, client.session.responses);
    failure := VisitNew(client, builder, playlistId);
    events, log := v.events, v.log;
    if failure.Some? {
      FetchFromVisitFails(config, playlistIds, st, responses);
      return;
    }
    FetchFromVisitGoesOn(config, playlistIds, st, responses);
    ThenAssoc(p.log, v.log, FetchFrom(config, playlistIds + {playlistId}, p.state, client.session.responses).log);
  }

  /**
   * One turn of the loop of `fetch_playlists`: the listing's `next()`, then
   * the listed playlist skipped or visited. `events`, `ids` and `log` are
   * what the turn handed the builder, visited and cost; `stop` says that the
   * walk ended in this turn.
   */
  method FetchTurn(client: SpotifyClient, builder: RecordBuilder, playlists: Pager<SimplifiedPlaylist>, playlistIds: set<string>)
    returns (stop: bool, failure: Option<Error>, seen: set<string>, ghost events: seq<Event>, ghost ids: seq<string>, ghost log: Log)
    requires playlists.session == client.session && playlists.request == Transport(client.session.config)
    requires playlists.validate == ValidateSummary && playlists.parse == ParseListingPage
    requires builder.Valid()
    modifies playlists`state, client.session`responses, client.session`sent, client.session`slept
    modifies builder.builders, builder`events
    ensures var r := FetchFrom(client.session.config, playlistIds, old(playlists.state), old(client.session.responses));
      && (stop ==> r == Fetch(events, ids, failure, log, client.session.responses))
      && (!stop ==> r == Prefixed(events, ids, log, FetchFrom(client.session.config, seen, playlists.state, client.session.responses)))
    ensures !stop ==> (|client.session.responses| < old(|client.session.responses|)
      || (client.session.responses == old(client.session.responses) && |playlists.state.buffer| < old(|playlists.state.buffer|)))
    ensures client.session.sent == old(client.session.sent) + log.sent
    ensures client.session.slept == old(client.session.slept) + log.slept
    ensures builder.Valid() && builder.events == old(builder.events) + events
  {
    var session := client.session;
    var config := session.config;
    ghost var st, responses := playlists.state, session.responses;
    ghost var p := Pull(ValidateSummary, ParseListingPage, Transport(config), st, responses);
    var step := playlists.Next();
    seen := playlistIds;
    if !step.Yield? {
      FetchFromStops(config, playlistIds, st, responses);
      assert builder.events + [] == builder.events;
      return true, if step.Done? then None else Some(step.error), seen, [], [], p.log;
    }
    var item := step.item;
    if item.id in playlistIds {
      FetchFromSkips(config, playlistIds, st, responses);
      ghost var later := FetchFrom(config, seen, playlists.state, session.responses);
      assert builder.events + [] == builder.events;
      assert [] + later.events == later.events && [] + later.visited == later.visited;
      return false, None, seen, [], [], p.log;
    }
    seen := playlistIds + {item.id};
    ghost var visitLog;
    failure, events, visitLog := VisitListed(client, builder, playlistIds, item.id, st, responses);
    AppendAssoc(old(session.sent), p.log.sent, visitLog.sent);
    AppendAssoc(old(session.slept), p.log.slept, visitLog.slept);
    stop, ids, log := failure.Some?, [item.id], p.log.Then(visitLog);
  }

  /** `fetch_playlists`: walk the category's playlists, visiting each id the first time it is listed. */
  method FetchPlaylists(client: SpotifyClient, builder: RecordBuilder, categoryId: string) returns (failure: Option<Error>)
    requires builder.Valid()
    modifies client.session`responses, client.session`sent, client.session`slept
    modifies builder.builders, builder`events
    ensures var r := FetchCategory(client.session.config, categoryId, old(client.session.responses));
      && failure == r.failure && client.session.responses == r.rest
      && client.session.sent == old(client.session.sent) + r.log.sent
      && client.session.slept == old(client.session.slept) + r.log.slept
      && builder.Valid() && builder.events == old(builder.events) + r.events
  {
    var session := client.session;
    var config := session.config;
    ghost var whole := FetchCategory(config, categoryId, session.responses);
    ghost var sent0, slept0, events0 := session.sent, session.slept, builder.events;
    ghost var done := NoLog;
    ghost var forwarded: seq<Event> := [];
    ghost var visited: seq<string> := [];
    var playlistIds: set<string> := {};
    var playlists := client.GetPlaylists(categoryId);
    while true
      invariant builder.Valid() && builder.events == events0 + forwarded
      invariant session.sent == sent0 + done.sent && session.slept == slept0 + done.slept
      invariant whole == Prefixed(forwarded, visited, done, FetchFrom(config, playlistIds, playlists.state, session.responses))
      decreases |session.responses|, |playlists.state.buffer|
    {
      var stop, turnFailure, seen, events, ids, log := FetchTurn(client, builder, playlists, playlistIds);
      AppendAssoc(sent0, done.sent, log.sent);
      AppendAssoc(slept0, done.slept, log.slept);
      AppendAssoc(events0, forwarded, events);
      if stop {
        return turnFailure;
      }
      PrefixedThen(forwarded, visited, done, events, ids, log, FetchFrom(config, seen, playlists.state, session.responses));
      playlistIds := seen;
      forwarded, visited, done := forwarded + events, visited + ids, done.Then(log);
    }
  }

  /** The writers of `run`: one fresh writer per table, in the fixed order, each as built. */
  method NewWriters() returns (writers: seq<TableWriter>)
    ensures |writers| == |Kinds| && Disjoint(writers)
    ensures forall i :: 0 <= i < |Kinds| ==> fresh(writers[i]) && Blank(writers[i]) && writers[i].kind == Kinds[i]
    ensures forall i :: 0 <= i < |Kinds| ==> writers[i].header == Header(Kinds[i])
  {
    var categoryPlaylists := new TableWriter(CategoryPlaylists);
    var playlists := new TableWriter(Playlists);
    var tracks := new TableWriter(Tracks);
    var playlistTrackIds := new TableWriter(PlaylistTrackIds);
    var trackArtistIds := new TableWriter(TrackArtistIds);
    var artists := new TableWriter(Artists);
    writers := [categoryPlaylists, playlists, tracks, playlistTrackIds, trackArtistIds, artists];
  }

  /** The builder of `run`: one fresh writer per table, in the fixed order, all with empty histories. */
  method OpenWriters() returns (builder: RecordBuilder)
    ensures fresh(builder) && builder.Valid() && builder.events == [] && builder.closings == 0
    ensures |builder.builders| == |Kinds|
    ensures forall i :: 0 <= i < |Kinds| ==> fresh(builder.builders[i]) && builder.builders[i].kind == Kinds[i]
    ensures forall i :: 0 <= i < |Kinds| ==> builder.builders[i].header == Header(Kinds[i])
  {
    var writers := NewWriters();
    builder := new RecordBuilder(writers);
  }

  /** The category loop of `run`: `fetch_playlists` for each category in turn, until one of them raises. */
  method FetchCategories(client: SpotifyClient, builder: RecordBuilder, categoryIds: seq<string>) returns (failure: Option<Error>)
    requires builder.Valid()
    modifies client.session`responses, client.session`sent, client.session`slept
    modifies builder.builders, builder`events
    ensures var r := FetchAll(client.session.config, categoryIds, old(client.session.responses));
      && failure == r.failure && client.session.responses == r.rest
      && client.session.sent == old(client.session.sent) + r.log.sent
      && client.session.slept == old(client.session.slept) + r.log.slept
      && builder.Valid() && builder.events == old(builder.events) + r.events
  {
    var session := client.session;
    var config := session.config;
    ghost var whole := FetchAll(config, categoryIds, session.responses);
    ghost var sent0, slept0, events0 := session.sent, session.slept, builder.events;
    ghost var forwarded: seq<Event> := [];
    ghost var visited: seq<string> := [];
    ghost var done := NoLog;
    for i := 0 to |categoryIds|
      invariant builder.Valid() && builder.events == events0 + forwarded
      invariant session.sent == sent0 + done.sent && session.slept == slept0 + done.slept
      invariant whole == Prefixed(forwarded, visited, done, FetchAll(config, categoryIds[i..], session.responses))
    {
      ghost var rest := categoryIds[i..];
      ghost var f := FetchCategory(config, categoryIds[i], session.responses);
      FetchAllStep(config, rest, session.responses);
      assert rest[0] == categoryIds[i] && rest[1..] == categoryIds[i + 1..];
      failure := FetchPlaylists(client, builder, categoryIds[i]);
      AppendAssoc(sent0, done.sent, f.log.sent);
      AppendAssoc(slept0, done.slept, f.log.slept);
      AppendAssoc(events0, forwarded, f.events);
      if failure.Some? {
        AppendAssoc(forwarded, f.events, []);
        AppendAssoc(visited, f.visited, []);
        assert whole == Fetch(forwarded + f.events, visited + f.visited, f.failure, done.Then(f.log), f.rest);
        return;
      }
      PrefixedThen(forwarded, visited, done, f.events, f.visited, f.log, FetchAll(config, categoryIds[i + 1..], session.responses));
      forwarded, visited, done := forwarded + f.events, visited + f.visited, done.Then(f.log);
    }
    assert categoryIds[|categoryIds|..] == [];
    assert forwarded + [] == forwarded && visited + [] == visited;
    failure := None;
  }

  /**
   * `run`: check the output directory, create the session, open the six
   * writers in their fixed order, fetch each category in turn, and close
   * the builder once every category is done. An error ends the run where it
   * is raised; the builder is then left open.
   */
  method Run(config: Config, outputDirExists: bool, accessToken: Result<string>, remote: seq<Response>)
    returns (failure: Option<Error>, session: SessionWithBase?, builder: RecordBuilder?)
    ensures !outputDirExists ==> failure == Some(OutputDirMissing) && session == null && builder == null
    ensures outputDirExists && accessToken.Err? ==> failure == Some(accessToken.error) && session == null && builder == null
    ensures outputDirExists && accessToken.Ok? ==>
      && session != null && builder != null && fresh(session) && fresh(builder)
      && session.config == config.spotify && session.headers == BearerHeader(accessToken.value)
      && var r := FetchAll(config.spotify, config.categoryIds, remote);
      && failure == r.failure && session.responses == r.rest && session.sent == r.log.sent && session.slept == r.log.slept
      && builder.Valid() && builder.events == r.events
      && |builder.builders| == |Kinds|
      && (forall i :: 0 <= i < |Kinds| ==> builder.builders[i].kind == Kinds[i])
      && (forall i :: 0 <= i < |Kinds| ==> builder.builders[i].header == Header(Kinds[i]))
      && (forall i :: 0 <= i < |Kinds| ==> builder.builders[i].Contents() == Replay(Kinds[i], r.events))
      && builder.closings == if failure.None? then 1 else 0
  {
    if !outputDirExists {
      return Some(OutputDirMissing), null, null;
    }
    var created := CreateSession(config.spotify, accessToken, remote);
    if created.Err? {
      return Some(created.error), null, null;
    }
    var s := created.value;
    var client := new SpotifyClient(s);
    var b := OpenWriters();
    failure := FetchCategories(client, b, config.categoryIds);
    if failure.None? {
      b.Close();
    }
    session, builder := s, b;
  }
}

=== FILE: models.dfy ===
/**
 * Value types of the catalog extractor: the records the remote API returns,
 * the JSON values pages are made of, and the failures that abort a run.
 *
 * The record types keep only the fields the extractor reads; pydantic's
 * validation of the remaining fields is abstracted (see `Json`).
 */
module Models {

  datatype Option<+T> = None | Some(value: T)

  /** Every way the run can abort; each stands for a Python exception. */
  datatype Error =
    | OutputDirMissing              // assertion in `run`
    | AuthFailed                    // the client-credentials token request failed
    | RateLimitExhausted(maxRetries: int)
    | BadRetryAfter(header: string) // `int()` of the Retry-After header raised ValueError
    | NegativeSleep(seconds: int)   // `time.sleep` of a negative duration raised ValueError
    | SleepOverflow(seconds: int)   // `time.sleep` of a duration past its range raised OverflowError
    | NoResponse                    // the remote did not answer a request
    | HttpError(status: int)        // `raise_for_status`
    | BodyNotJson                   // `response.json()` raised
    | BodyNotDict                   // assertion in `get_response_dict`
    | PlaylistsNotDict              // assertion in `get_playlists`
    | ItemsNotList                  // assertion in `get_playlists`
    | KeyMissing(key: string)       // `d[key]` raised KeyError
    | NotADict                      // `.get` on a value that is not a dict
    | NotIterable                   // `for item in v` on a value that is not iterable
    | BadCursor                     // a `next` cursor that is neither a string nor null
    | Invalid                       // pydantic rejected an object
    | NoneAttribute                 // an attribute of None was read (AttributeError)

  datatype Result<+T> = Ok(value: T) | Err(error: Error)

  /** Spotify popularity, constrained to 0..100 by the model. */
  type Popularity = n: int | 0 <= n <= 100

  datatype Artist = Artist(id: string, name: string)

  datatype AlbumGroup = Single | AlbumKind | Compilation

  /** An album summary; its `type` field is pinned to the literal "album". */
  datatype Album = Album(albumType: AlbumGroup)

  /** The discriminated union of a playlist entry's `track` field. */
  datatype Playable =
    | Track(id: string, name: string, popularity: Popularity, uri: string,
            album: Album, artists: seq<Artist>, isLocal: bool)
    | Episode(id: string, name: string)

  /** One entry of a playlist; `addedAt` is the ISO rendering of `added_at`, when present. */
  datatype PlaylistTrack = PlaylistTrack(addedAt: Option<string>, isLocal: bool, track: Playable)

  /** A playlist as listed under a category. */
  datatype SimplifiedPlaylist = SimplifiedPlaylist(id: string, name: string)

  /** A playlist's detail, without its tracks; `followers` is `followers.total`. */
  datatype Playlist = Playlist(id: string, name: string, description: Option<string>,
                               snapshotId: string, uri: string, followers: int)

  /** An object that validates as one of the record models. */
  datatype Record =
    | SummaryRecord(summary: SimplifiedPlaylist)
    | EntryRecord(entry: PlaylistTrack)
    | PlaylistRecord(playlist: Playlist)

  /**
   * A decoded JSON value. `JObject(record, extra)` is an object whose own
   * fields are those of `record` and which carries the further keys `extra`;
   * the extractor looks up only envelope keys (`tracks`, `items`, `next`,
   * `playlists`), which live in `extra`, and reads the record's fields only
   * through validation.
   */
  datatype Json =
    | JNull
    | JBool(b: bool)
    | JInt(i: int)
    | JStr(s: string)
    | JList(elems: seq<Json>)
    | JDict(fields: map<string, Json>)
    | JObject(record: Record, extra: map<string, Json>)

  /** `isinstance(j, dict)` */
  predicate IsDict(j: Json) {
    j.JDict? || j.JObject?
  }

  /** The keys of a dict, for dict values. */
  function Keys(j: Json): map<string, Json> {
    match j
    case JDict(fields) => fields
    case JObject(_, extra) => extra
    case _ => map[]
  }

  /** `d.get(key)` on a dict: absent keys give None. */
  function Get(j: Json, key: string): (r: Option<Json>)
    requires IsDict(j)
    ensures r.Some? <==> key in Keys(j)
    ensures r.Some? ==> r.value == Keys(j)[key]
  {
    if key in Keys(j) then Some(Keys(j)[key]) else None
  }

  /** `d[key]` on a dict: absent keys raise KeyError. */
  function Lookup(j: Json, key: string): (r: Result<Json>)
    requires IsDict(j)
    ensures r.Ok? <==> key in Keys(j)
    ensures r.Err? ==> r.error == KeyMissing(key)
  {
    if key in Keys(j) then Ok(Keys(j)[key]) else Err(KeyMissing(key))
  }

  /** `del d[key]` on a dict that has `key`. */
  function Delete(j: Json, key: string): (r: Json)
    requires IsDict(j)
    ensures IsDict(r) && Keys(r) == Keys(j) - {key}
    ensures j.JObject? ==> r.JObject? && r.record == j.record
  {
    match j
    case JDict(fields) => JDict(fields - {key})
    case JObject(record, extra) => JObject(record, extra - {key})
  }

  /**
   * The elements `for item in j` visits, as far as they can be observed.
   * A list visits its elements. A dict visits its keys and a string its
   * characters: every one of them is a string, which no record model
   * accepts, so a non-empty dict or string fails at its first element (the
   * key order is not modelled) and an empty one visits nothing. Null,
   * booleans and numbers are not iterable.
   */
  function Iterate(j: Json): (r: Result<seq<Json>>)
    ensures j.JList? ==> r == Ok(j.elems)
    ensures r.Ok? ==> j.JList? || r.value == []
  {
    match j
    case JList(elems) => Ok(elems)
    case JDict(fields) => if fields == map[] then Ok([]) else Err(Invalid)
    case JObject(_, _) => Err(Invalid)
    case JStr(s) => if s == [] then Ok([]) else Err(Invalid)
    case _ => Err(NotIterable)
  }

  /** `SimplifiedPlaylist.model_validate(j)` */
  function ValidateSummary(j: Json): (r: Result<SimplifiedPlaylist>)
    ensures r.Ok? <==> j.JObject? && j.record.SummaryRecord?
    ensures r.Ok? ==> r.value == j.record.summary
    ensures r.Err? ==> r.error == Invalid
  {
    match j
    case JObject(SummaryRecord(s), _) => Ok(s)
    case _ => Err(Invalid)
  }

  /** `PlaylistTrack.model_validate(j)` */
  function ValidateEntry(j: Json): (r: Result<PlaylistTrack>)
    ensures r.Ok? <==> j.JObject? && j.record.EntryRecord?
    ensures r.Ok? ==> r.value == j.record.entry
    ensures r.Err? ==> r.error == Invalid
  {
    match j
    case JObject(EntryRecord(e), _) => Ok(e)
    case _ => Err(Invalid)
  }

  /** `Playlist.model_validate(j)` */
  function ValidatePlaylist(j: Json): (r: Result<Playlist>)
    ensures r.Ok? <==> j.JObject? && j.record.PlaylistRecord?
    ensures r.Ok? ==> r.value == j.record.playlist
    ensures r.Err? ==> r.error == Invalid
  {
    match j
    case JObject(PlaylistRecord(p), _) => Ok(p)
    case _ => Err(Invalid)
  }
}

=== FILE: paging.dfy ===
/**
 * The lazy, paged iterators of the client: both `get_playlists` and
 * `get_tracks` are generators that yield the validated items of a page one
 * at a time and fetch the next page, through the session, only once the
 * current one is used up, following `next` links until there is none.
 *
 * A generator's suspended state is a `PagerState`: the raw items still to
 * be yielded and what to do once they are gone. An error found while
 * reading a page after its items (a missing `next`) or a link that cannot be
 * requested surfaces only when the generator reaches it, so it is kept in
 * the cursor until then.
 */
module Paging {
  import opened Models
  import opened Sessions

  datatype Cursor = Stop | Follow(url: string) | Broken(error: Error)

  datatype PagerState = PagerState(buffer: seq<Json>, cursor: Cursor)

  /** A generator that has returned or raised: it yields nothing more. */
  const Exhausted := PagerState([], Stop)

  /** The outcome of one `next()` on a generator. */
  datatype Step<+T> = Yield(item: T) | Done | Fail(error: Error)

  /** One `next()`: its outcome, the generator's new state, what the session did, and the responses left. */
  datatype Pulled<+T> = Pulled(step: Step<T>, state: PagerState, log: Log, rest: seq<Response>)

  /** A generator drained by a `for` loop: the items seen, the error that ended it if any, the session log, the responses left. */
  datatype Walked<+T> = Walked(items: seq<T>, failure: Option<Error>, log: Log, rest: seq<Response>)

  /**
   * What a `next` value means for the loop `while next_url is not None`:
   * absent or null stops, a string is requested, anything else cannot be
   * requested and fails when the loop gets to it.
   */
  function CursorOf(next: Option<Json>): (c: Cursor)
    ensures c.Stop? <==> next.None? || next.value.JNull?
    ensures c.Follow? <==> next.Some? && next.value.JStr?
    ensures c.Follow? ==> c.url == next.value.s
  {
    match next
    case None => Stop
    case Some(JNull) => Stop
    case Some(JStr(url)) => Follow(url)
    case Some(_) => Broken(BadCursor)
  }

  /** A page request: the parsed page or the error that aborts the caller, what the session did, and the responses left. */
  datatype Fetched<+P> = Fetched(page: Result<P>, log: Log, rest: seq<Response>)

  /** Request the page at `url`, then `get_response_dict` and `parse` its answer. */
  function FetchPage<P>(parse: Json -> Result<P>, request: Requester, url: string,
                        responses: seq<Response>): (f: Fetched<P>)
    ensures f.log == request(url, responses).log && f.rest == request(url, responses).rest
    ensures f.page.Ok? ==> |f.rest| < |responses|
  {
    var a := request(url, responses);
    match a.result
    case Err(e) => Fetched(Err(e), a.log, a.rest)
    case Ok(response) =>
      match GetResponseDict(response)
      case Err(e) => Fetched(Err(e), a.log, a.rest)
      case Ok(body) => Fetched(parse(body), a.log, a.rest)
  }

  /** The outcome of the generator's page loop: the state it stops in or the error it raised, what the session did, the responses left. */
  datatype Filled = Filled(state: Result<PagerState>, log: Log, rest: seq<Response>)

  /** A state in which the page loop requests nothing. */
  predicate Ready(st: PagerState) {
    st.buffer != [] || !st.cursor.Follow?
  }

  /** The page loop: while nothing is buffered and there is a link, request and parse the next page. */
  function Fill(parse: Json -> Result<PagerState>, request: Requester, st: PagerState,
                responses: seq<Response>): (f: Filled)
    decreases |responses|
    ensures |f.rest| <= |responses|
    ensures f.state.Ok? ==> Ready(f.state.value)
    ensures f.state.Ok? && f.state.value != st ==> |f.rest| < |responses|
    ensures Ready(st) ==> f == Filled(Ok(st), NoLog, responses)
  {
    if Ready(st) then Filled(Ok(st), NoLog, responses)
    else
      var f := FetchPage(parse, request, st.cursor.url, responses);
      match f.page
      case Err(e) => Filled(Err(e), f.log, f.rest)
      case Ok(next) =>
        var later := Fill(parse, request, next, f.rest);
        Filled(later.state, f.log.Then(later.log), later.rest)
  }

  /** What `next()` does once the page loop is over: yield a buffered item once it validates, return, or raise. */
  function Take<T>(validate: Json -> Result<T>, st: PagerState): (r: (Step<T>, PagerState))
    requires Ready(st)
    ensures r.0.Yield? ==> st.buffer != [] && r.1 == PagerState(st.buffer[1..], st.cursor)
    ensures !r.0.Yield? ==> r.1 == Exhausted
    ensures st.buffer == [] && st.cursor.Stop? ==> r.0 == Done
  {
    if st.buffer != [] then
      match validate(st.buffer[0])
      case Ok(item) => (Yield(item), PagerState(st.buffer[1..], st.cursor))
      case Err(e) => (Fail(e), Exhausted)
    else
      match st.cursor
      case Stop => (Done, Exhausted)
      case Broken(e) => (Fail(e), Exhausted)
  }

  /** One `next()` of a paged generator in state `st`: the page loop, then `Take`. */
  function Pull<T>(validate: Json -> Result<T>, parse: Json -> Result<PagerState>, request: Requester,
                   st: PagerState, responses: seq<Response>): (p: Pulled<T>)
    ensures |p.rest| <= |responses|
    ensures p.step.Yield? ==> |p.rest| < |responses| || (p.rest == responses && |p.state.buffer| < |st.buffer|)
    ensures !p.step.Yield? ==> p.state == Exhausted
  {
    var f := Fill(parse, request, st, responses);
    match f.state
    case Err(e) => Pulled(Fail(e), Exhausted, f.log, f.rest)
    case Ok(ready) =>
      var (step, after) := Take(validate, ready);
      Pulled(step, after, f.log, f.rest)
  }

  /** A paged generator drained by a `for` loop. */
  function Walk<T>(validate: Json -> Result<T>, parse: Json -> Result<PagerState>, request: Requester,
                   st: PagerState, responses: seq<Response>): (w: Walked<T>)
    decreases |responses|, |st.buffer|
    ensures |w.rest| <= |responses|
  {
    var p := Pull(validate, parse, request, st, responses);
    match p.step
    case Yield(item) =>
      var w := Walk(validate, parse, request, p.state, p.rest);
      Walked([item] + w.items, w.failure, p.log.Then(w.log), w.rest)
    case Done => Walked([], None, p.log, p.rest)
    case Fail(e) => Walked([], Some(e), p.log, p.rest)
  }

  /** A drained generator whose `next()` yields: the item, then the rest of the drain. */
  lemma WalkYields<T>(validate: Json -> Result<T>, parse: Json -> Result<PagerState>, request: Requester,
                      st: PagerState, responses: seq<Response>)
    requires Pull(validate, parse, request, st, responses).step.Yield?
    ensures var p := Pull(validate, parse, request, st, responses);
      var later := Walk(validate, parse, request, p.state, p.rest);
      Walk(validate, parse, request, st, responses)
        == Walked([p.step.item] + later.items, later.failure, p.log.Then(later.log), later.rest)
  {
  }

  /** A drained generator whose `next()` returns or raises: the drain ends there. */
  lemma WalkStops<T>(validate: Json -> Result<T>, parse: Json -> Result<PagerState>, request: Requester,
                     st: PagerState, responses: seq<Response>)
    requires !Pull(validate, parse, request, st, responses).step.Yield?
    ensures var p := Pull(validate, parse, request, st, responses);
      Walk(validate, parse, request, st, responses)
        == Walked([], if p.step.Done? then None else Some(p.step.error), p.log, p.rest)
  {
  }

  // ---------------------------------------------------------------------
  // Reference definitions and the paging lemmas

  predicate AllValid<T>(validate: Json -> Result<T>, items: seq<Json>) {
    forall i :: 0 <= i < |items| ==> validate(items[i]).Ok?
  }

  /** The models of a sequence of items that all validate, in order. */
  function Validated<T>(validate: Json -> Result<T>, items: seq<Json>): (r: seq<T>)
    requires AllValid(validate, items)
    ensures |r| == |items|
  {
    if items == [] then [] else [validate(items[0]).value] + Validated(validate, items[1..])
  }

  /** Items that all validate, in two parts, validate part by part. */
  lemma {:induction false} ValidatedAppend<T>(validate: Json -> Result<T>, xs: seq<Json>, ys: seq<Json>)
    requires AllValid(validate, xs) && AllValid(validate, ys)
    ensures AllValid(validate, xs + ys)
    ensures Validated(validate, xs + ys) == Validated(validate, xs) + Validated(validate, ys)
    decreases |xs|
  {
    assert AllValid(validate, xs + ys) by {
      forall i | 0 <= i < |xs + ys| ensures validate((xs + ys)[i]).Ok? {
        if i >= |xs| { assert (xs + ys)[i] == ys[i - |xs|]; }
      }
    }
    if xs != [] {
      assert (xs + ys)[0] == xs[0] && (xs + ys)[1..] == xs[1..] + ys;
      ValidatedAppend(validate, xs[1..], ys);
      var head := [validate(xs[0]).value];
      assert Validated(validate, xs + ys) == head + Validated(validate, xs[1..] + ys);
      assert Validated(validate, xs) == head + Validated(validate, xs[1..]);
      AppendAssoc(head, Validated(validate, xs[1..]), Validated(validate, ys));
    } else {
      assert xs + ys == ys;
    }
  }

  /** A page of items served as a plain answer. */
  function Served(body: Json): Response {
    Response(200, None, Some(body))
  }

  /** Pages served in order, each as a plain answer. */
  function ServeAll(pages: seq<Json>): (r: seq<Response>)
    ensures |r| == |pages| && forall i :: 0 <= i < |pages| ==> r[i] == Served(pages[i])
  {
    seq(|pages|, i requires 0 <= i < |pages| => Served(pages[i]))
  }

  /** A plain answer to the first attempt is what a request returns. */
  lemma ServedAnswer(config: SpotifyConfig, url: string, body: Json, rest: seq<Response>)
    requires config.rateLimitMaxRetries >= 1
    ensures Transport(config)(url, [Served(body)] + rest)
      == Attempt(Ok(Served(body)), Log([Resolve(config.baseUrl, url)], []), rest)
  {
    assert ([Served(body)] + rest)[1..] == rest;
  }

  /**
   * Once a page request is answered and parsed, draining the generator is
   * draining it from the parsed page, after that request.
   */
  lemma WalkAfterFetch<T>(validate: Json -> Result<T>, parse: Json -> Result<PagerState>, request: Requester,
                          url: string, responses: seq<Response>)
    requires FetchPage(parse, request, url, responses).page.Ok?
    ensures var f := FetchPage(parse, request, url, responses);
      var w := Walk(validate, parse, request, f.page.value, f.rest);
      Walk(validate, parse, request, PagerState([], Follow(url)), responses)
        == Walked(w.items, w.failure, f.log.Then(w.log), w.rest)
  {
    var f := FetchPage(parse, request, url, responses);
    var next := f.page.value;
    var later := Pull(validate, parse, request, next, f.rest);
    var filled := Fill(parse, request, next, f.rest);
    assert Pull(validate, parse, request, PagerState([], Follow(url)), responses)
      == Pulled(later.step, later.state, f.log.Then(later.log), later.rest);
    match later.step
    case Yield(item) =>
      var w' := Walk(validate, parse, request, later.state, later.rest);
      ThenAssoc(f.log, later.log, w'.log);
    case Done =>
    case Fail(e) =>
  }

  /**
   * A buffer whose items all validate is yielded in full, in order, before
   * anything is requested.
   */
  lemma {:induction false} DrainBuffer<T>(validate: Json -> Result<T>, parse: Json -> Result<PagerState>,
                                         request: Requester, buffer: seq<Json>, cursor: Cursor,
                                         responses: seq<Response>)
    requires AllValid(validate, buffer)
    ensures var w := Walk(validate, parse, request, PagerState([], cursor), responses);
      Walk(validate, parse, request, PagerState(buffer, cursor), responses)
        == Walked(Validated(validate, buffer) + w.items, w.failure, w.log, w.rest)
    decreases |buffer|
  {
    if buffer != [] {
      DrainBuffer(validate, parse, request, buffer[1..], cursor, responses);
      var w := Walk(validate, parse, request, PagerState([], cursor), responses);
      assert [validate(buffer[0]).value] + (Validated(validate, buffer[1..]) + w.items)
          == Validated(validate, buffer) + w.items;
      assert NoLog.Then(NoLog.Then(w.log)) == w.log;
    }
  }

  /** The resolved URL of each page request. */
  function ResolveAll(baseUrl: string, urls: seq<string>): (r: seq<string>)
    ensures |r| == |urls| && forall i :: 0 <= i < |urls| ==> r[i] == Resolve(baseUrl, urls[i])
  {
    seq(|urls|, i requires 0 <= i < |urls| => Resolve(baseUrl, urls[i]))
  }

  /**
   * `pages` is a chain of pages: page `i` is fetched from `urls[i]`, parses,
   * holds only valid items, and links to `urls[i + 1]`, the last one to nothing.
   */
  predicate IsChain<T>(validate: Json -> Result<T>, parse: Json -> Result<PagerState>,
                       urls: seq<string>, pages: seq<Json>) {
    && |urls| == |pages|
    && forall i :: 0 <= i < |pages| ==>
         && IsDict(pages[i]) && parse(pages[i]).Ok?
         && AllValid(validate, parse(pages[i]).value.buffer)
         && parse(pages[i]).value.cursor == (if i + 1 < |pages| then Follow(urls[i + 1]) else Stop)
  }

  /** A JSON link: null for none. */
  function Link(next: Option<string>): Json {
    match next
    case None => JNull
    case Some(url) => JStr(url)
  }

  /** The cursor a link leads to. */
  function CursorTo(next: Option<string>): (c: Cursor)
    ensures c == CursorOf(Some(Link(next)))
  {
    match next
    case None => Stop
    case Some(url) => Follow(url)
  }

  /** All items of all pages, in order. */
  function Flatten(pageItems: seq<seq<Json>>): seq<Json> {
    if pageItems == [] then [] else pageItems[0] + Flatten(pageItems[1..])
  }

  /** `encode` serves a page of the given items and link that `parse` reads back as it was. */
  ghost predicate RoundTrips(parse: Json -> Result<PagerState>, encode: (seq<Json>, Option<string>) -> Json) {
    forall items, next :: IsDict(encode(items, next)) && parse(encode(items, next)) == Ok(PagerState(items, CursorTo(next)))
  }

  /** Pages of the given items, each linking to the next URL, the last to nothing. */
  function PageChain(encode: (seq<Json>, Option<string>) -> Json, urls: seq<string>, pageItems: seq<seq<Json>>): (pages: seq<Json>)
    requires |urls| == |pageItems|
    ensures |pages| == |pageItems|
    ensures forall i :: 0 <= i < |pages| ==>
      pages[i] == encode(pageItems[i], if i + 1 < |urls| then Some(urls[i + 1]) else None)
  {
    seq(|pageItems|, i requires 0 <= i < |pageItems| =>
      encode(pageItems[i], if i + 1 < |urls| then Some(urls[i + 1]) else None))
  }

  /** The items of a chain of pages, in page order. */
  function ChainItems<T>(validate: Json -> Result<T>, parse: Json -> Result<PagerState>,
                         urls: seq<string>, pages: seq<Json>): seq<T>
    requires IsChain(validate, parse, urls, pages)
  {
    if pages == [] then []
    else
      assert IsChain(validate, parse, urls[1..], pages[1..]);
      Validated(validate, parse(pages[0]).value.buffer) + ChainItems(validate, parse, urls[1..], pages[1..])
  }

  /** The first page of a served chain: its items come first, after one request and no sleep. */
  lemma FirstPage<T>(validate: Json -> Result<T>, parse: Json -> Result<PagerState>,
                     config: SpotifyConfig, url: string, page: Json, rest: seq<Response>)
    requires config.rateLimitMaxRetries >= 1
    requires IsDict(page) && parse(page).Ok? && AllValid(validate, parse(page).value.buffer)
    ensures var next := parse(page).value;
      var request := Transport(config);
      var w := Walk(validate, parse, request, PagerState([], next.cursor), rest);
      Walk(validate, parse, request, PagerState([], Follow(url)), [Served(page)] + rest)
        == Walked(Validated(validate, next.buffer) + w.items, w.failure,
                  Log([Resolve(config.baseUrl, url)], []).Then(w.log), w.rest)
  {
    var request := Transport(config);
    ServedAnswer(config, url, page, rest);
    var next := parse(page).value;
    assert FetchPage(parse, request, url, [Served(page)] + rest)
      == Fetched(Ok(next), Log([Resolve(config.baseUrl, url)], []), rest);
    WalkAfterFetch(validate, parse, request, url, [Served(page)] + rest);
    DrainBuffer(validate, parse, request, next.buffer, next.cursor, rest);
  }

  /**
   * Following `next` links: a generator started at the first URL of a chain
   * of pages, served in order without rate limiting, yields every item of
   * every page in order, requests each page exactly once at its resolved
   * URL, never sleeps, and leaves the responses after the chain untouched.
   */
  lemma {:induction false} FollowChain<T>(validate: Json -> Result<T>, parse: Json -> Result<PagerState>,
                                         config: SpotifyConfig, urls: seq<string>, pages: seq<Json>,
                                         tail: seq<Response>)
    requires config.rateLimitMaxRetries >= 1
    requires IsChain(validate, parse, urls, pages)
    ensures var start := PagerState([], if pages == [] then Stop else Follow(urls[0]));
      Walk(validate, parse, Transport(config), start, ServeAll(pages) + tail)
        == Walked(ChainItems(validate, parse, urls, pages), None, Log(ResolveAll(config.baseUrl, urls), []), tail)
    decreases |pages|
  {
    if pages != [] {
      var rest := ServeAll(pages[1..]) + tail;
      assert ServeAll(pages) + tail == [Served(pages[0])] + rest;
      FirstPage(validate, parse, config, urls[0], pages[0], rest);
      ChainStep(validate, parse, urls, pages);
      FollowChain(validate, parse, config, urls[1..], pages[1..], tail);
      ResolveStep(config.baseUrl, urls);
    }
  }

  /** A non-empty chain is its first page followed by a shorter chain. */
  lemma ChainStep<T>(validate: Json -> Result<T>, parse: Json -> Result<PagerState>,
                     urls: seq<string>, pages: seq<Json>)
    requires IsChain(validate, parse, urls, pages) && pages != []
    ensures IsChain(validate, parse, urls[1..], pages[1..])
    ensures parse(pages[0]).value.cursor == (if pages[1..] == [] then Stop else Follow(urls[1..][0]))
    ensures ChainItems(validate, parse, urls, pages)
      == Validated(validate, parse(pages[0]).value.buffer) + ChainItems(validate, parse, urls[1..], pages[1..])
  {
    assert IsChain(validate, parse, urls[1..], pages[1..]);
  }

  /** The requests of a chain: the first page's, then the rest's. */
  lemma ResolveStep(baseUrl: string, urls: seq<string>)
    requires urls != []
    ensures Log([Resolve(baseUrl, urls[0])], []).Then(Log(ResolveAll(baseUrl, urls[1..]), []))
      == Log(ResolveAll(baseUrl, urls), [])
  {
    assert ResolveAll(baseUrl, urls) == [Resolve(baseUrl, urls[0])] + ResolveAll(baseUrl, urls[1..]);
  }

  /**
   * Pages served by an encoder that round-trips form a chain whose items
   * are all the pages' items, in order.
   */
  lemma {:induction false} PageChainIsChain<T>(validate: Json -> Result<T>, parse: Json -> Result<PagerState>,
                                              encode: (seq<Json>, Option<string>) -> Json,
                                              urls: seq<string>, pageItems: seq<seq<Json>>)
    requires RoundTrips(parse, encode)
    requires |urls| == |pageItems|
    requires forall i :: 0 <= i < |pageItems| ==> AllValid(validate, pageItems[i])
    ensures IsChain(validate, parse, urls, PageChain(encode, urls, pageItems))
    ensures AllValid(validate, Flatten(pageItems))
    ensures ChainItems(validate, parse, urls, PageChain(encode, urls, pageItems))
      == Validated(validate, Flatten(pageItems))
    decreases |pageItems|
  {
    var pages := PageChain(encode, urls, pageItems);
    assert IsChain(validate, parse, urls, pages) by {
      forall i | 0 <= i < |pages|
        ensures && IsDict(pages[i]) && parse(pages[i]).Ok?
                && AllValid(validate, parse(pages[i]).value.buffer)
                && parse(pages[i]).value.cursor == (if i + 1 < |pages| then Follow(urls[i + 1]) else Stop)
      {
        var next := if i + 1 < |urls| then Some(urls[i + 1]) else None;
        assert pages[i] == encode(pageItems[i], next);
      }
    }
    if pageItems != [] {
      PageChainIsChain(validate, parse, encode, urls[1..], pageItems[1..]);
      assert PageChain(encode, urls[1..], pageItems[1..]) == pages[1..];
      ChainStep(validate, parse, urls, pages);
      ValidatedAppend(validate, pageItems[0], Flatten(pageItems[1..]));
    }
  }

  // ---------------------------------------------------------------------
  // The generator object

  /** `session.get(url)`, then `get_response_dict` and `parse` of the answer. */
  method FetchJson<P>(session: SessionWithBase, parse: Json -> Result<P>, url: string) returns (page: Result<P>)
    modifies session`responses, session`sent, session`slept
    ensures var f := FetchPage(parse, Transport(session.config), url, old(session.responses));
      && page == f.page && session.responses == f.rest
      && session.sent == old(session.sent) + f.log.sent && session.slept == old(session.slept) + f.log.slept
  {
    var answer := session.Request(url);
    if answer.Err? {
      return Err(answer.error);
    }
    var body := GetResponseDict(answer.value);
    if body.Err? {
      return Err(body.error);
    }
    page := parse(body.value);
  }

  /**
   * A suspended paged generator over the session it requests pages through.
   * `validate` turns a raw item into its model; `parse` reads a page body
   * into the items it holds and the link that follows it.
   */
  class Pager<T> {
    const session: SessionWithBase
    const validate: Json -> Result<T>
    const parse: Json -> Result<PagerState>
    /** The session's request, as the page loop sees it. */
    const request: Requester
    var state: PagerState

    constructor (session: SessionWithBase, validate: Json -> Result<T>, parse: Json -> Result<PagerState>, state: PagerState)
      ensures this.session == session && this.validate == validate && this.parse == parse && this.state == state
      ensures request == Transport(session.config)
    {
      this.session := session;
      this.validate := validate;
      this.parse := parse;
      this.request := Transport(session.config);
      this.state := state;
    }

    /** One turn of the generator's page loop: request and parse the page the link points to. */
    method Advance() returns (failure: Option<Error>, ghost log: Log)
      requires request == Transport(session.config)
      requires !Ready(state)
      modifies this`state, session`responses, session`sent, session`slept
      ensures session.sent == old(session.sent) + log.sent && session.slept == old(session.slept) + log.slept
      ensures failure.Some? ==> state == Exhausted
      ensures failure.None? ==> |session.responses| < old(|session.responses|)
      ensures var f := Fill(parse, request, state, session.responses);
        Fill(parse, request, old(state), old(session.responses))
          == if failure.Some? then Filled(Err(failure.value), log, session.responses)
             else Filled(f.state, log.Then(f.log), f.rest)
    {
      ghost var f := FetchPage(parse, request, state.cursor.url, session.responses);
      var page := FetchJson(session, parse, state.cursor.url);
      log := f.log;
      if page.Err? {
        state := Exhausted;
        return Some(page.error), log;
      }
      state := page.value;
      failure := None;
    }

    /** The generator's `while next_url is not None` loop, up to the point where an item can be yielded. */
    method FillBuffer() returns (failure: Option<Error>, ghost done: Log)
      requires request == Transport(session.config)
      modifies this`state, session`responses, session`sent, session`slept
      ensures session.sent == old(session.sent) + done.sent && session.slept == old(session.slept) + done.slept
      ensures failure.Some? ==> state == Exhausted
      ensures Fill(parse, request, old(state), old(session.responses))
        == Filled(if failure.Some? then Err(failure.value) else Ok(state), done, session.responses)
    {
      ghost var whole := Fill(parse, request, state, session.responses);
      ghost var sent0, slept0 := session.sent, session.slept;
      done := NoLog;
      while !Ready(state)
        invariant session.sent == sent0 + done.sent && session.slept == slept0 + done.slept
        invariant var f := Fill(parse, request, state, session.responses);
          whole == Filled(f.state, done.Then(f.log), f.rest)
        decreases |session.responses|
      {
        var stepFailure, log := Advance();
        if stepFailure.Some? {
          AppendAssoc(sent0, done.sent, log.sent);
          AppendAssoc(slept0, done.slept, log.slept);
          return stepFailure, done.Then(log);
        }
        ghost var later := Fill(parse, request, state, session.responses);
        ThenAssoc(done, log, later.log);
        AppendAssoc(sent0, done.sent, log.sent);
        AppendAssoc(slept0, done.slept, log.slept);
        done := done.Then(log);
      }
      failure := None;
    }

    /** `next()`: run the page loop, then yield the next item, return, or raise. */
    method Next() returns (step: Step<T>)
      requires request == Transport(session.config)
      modifies this`state, session`responses, session`sent, session`slept
      ensures var p := Pull(validate, parse, request, old(state), old(session.responses));
        && step == p.step && state == p.state && session.responses == p.rest
        && session.sent == old(session.sent) + p.log.sent && session.slept == old(session.slept) + p.log.slept
    {
      var failure, done := FillBuffer();
      if failure.Some? {
        return Fail(failure.value);
      }
      if state.buffer != [] {
        var item := validate(state.buffer[0]);
        if item.Err? {
          state := Exhausted;
          return Fail(item.error);
        }
        state := PagerState(state.buffer[1..], state.cursor);
        return Yield(item.value);
      }
      match state.cursor
      case Stop =>
        step := Done;
      case Broken(e) =>
        state := Exhausted;
        step := Fail(e);
    }
  }
}

=== FILE: playlists.dfy ===
/**
 * A client over one playlist: the tracks embedded in the playlist's detail
 * page are yielded first, then the tracks of each further page, following
 * the `next` links.
 */
module Playlists {
  import opened Models
  import opened Sessions
  import opened Paging

  /**
   * The generator's start: the embedded tracks, then the embedded link.
   * Embedded tracks that cannot be iterated fail the first `next()`.
   */
  function TracksStart(pendingTracks: Json, nextUrl: Option<Json>): (st: PagerState)
    ensures pendingTracks.JList? ==> st == PagerState(pendingTracks.elems, CursorOf(nextUrl))
    ensures Iterate(pendingTracks).Err? ==> st == PagerState([], Broken(Iterate(pendingTracks).error))
  {
    match Iterate(pendingTracks)
    case Ok(items) => PagerState(items, CursorOf(nextUrl))
    case Err(e) => PagerState([], Broken(e))
  }

  /**
   * A further page of tracks: `data["items"]` is iterated as soon as the
   * page arrives, `data["next"]` is read only once its items are used up,
   * so a missing `next` fails after them. Page bodies are dicts; anything
   * else is refused.
   */
  function ParseTrackPage(data: Json): (r: Result<PagerState>)
    ensures IsDict(data) && "items" !in Keys(data) ==> r == Err(KeyMissing("items"))
    ensures r.Ok? ==> IsDict(data) && "items" in Keys(data) && Iterate(Keys(data)["items"]).Ok?
    ensures r.Ok? ==> r.value.buffer == Iterate(Keys(data)["items"]).value
    ensures r.Ok? && "next" !in Keys(data) ==> r.value.cursor == Broken(KeyMissing("next"))
    ensures r.Ok? && "next" in Keys(data) ==> r.value.cursor == CursorOf(Some(Keys(data)["next"]))
  {
    if !IsDict(data) then Err(BodyNotDict)
    else
      match Lookup(data, "items")
      case Err(e) => Err(e)
      case Ok(items) =>
        match Iterate(items)
        case Err(e) => Err(e)
        case Ok(elems) =>
          var cursor := match Lookup(data, "next")
            case Err(e) => Broken(e)
            case Ok(next) => CursorOf(Some(next));
          Ok(PagerState(elems, cursor))
  }

  /** A page of tracks as the remote serves it. */
  function TrackPage(items: seq<Json>, next: Option<string>): Json {
    JDict(map["items" := JList(items), "next" := Link(next)])
  }

  /** Reading a served page of tracks gives back its items and its link. */
  lemma ParseTrackPageRoundTrip(items: seq<Json>, next: Option<string>)
    ensures ParseTrackPage(TrackPage(items, next)) == Ok(PagerState(items, CursorTo(next)))
  {
  }

  /**
   * A page without `next` yields all its items and only then fails with the
   * missing key, without requesting anything.
   */
  lemma {:induction false} MissingNextFailsAfterItems(items: seq<Json>, config: SpotifyConfig, responses: seq<Response>)
    requires AllValid(ValidateEntry, items)
    ensures var st := ParseTrackPage(JDict(map["items" := JList(items)]));
      && st == Ok(PagerState(items, Broken(KeyMissing("next"))))
      && Walk(ValidateEntry, ParseTrackPage, Transport(config), st.value, responses)
           == Walked(Validated(ValidateEntry, items), Some(KeyMissing("next")), NoLog, responses)
  {
    var st := PagerState(items, Broken(KeyMissing("next")));
    assert ParseTrackPage(JDict(map["items" := JList(items)])) == Ok(st);
    DrainBuffer(ValidateEntry, ParseTrackPage, Transport(config), items, st.cursor, responses);
    assert Validated(ValidateEntry, items) + [] == Validated(ValidateEntry, items);
  }

  /**
   * A playlist whose detail has no link to further tracks yields exactly its
   * embedded tracks and requests nothing.
   */
  lemma NoLinkNoRequest(config: SpotifyConfig, items: seq<Json>, responses: seq<Response>)
    requires AllValid(ValidateEntry, items)
    ensures Walk(ValidateEntry, ParseTrackPage, Transport(config), TracksStart(JList(items), None), responses)
      == Walked(Validated(ValidateEntry, items), None, NoLog, responses)
  {
    DrainBuffer(ValidateEntry, ParseTrackPage, Transport(config), items, Stop, responses);
    assert Validated(ValidateEntry, items) + [] == Validated(ValidateEntry, items);
  }

  /** The track pages round-trip through `ParseTrackPage`. */
  lemma TrackPagesRoundTrip()
    ensures RoundTrips(ParseTrackPage, TrackPage)
  {
    forall items, next ensures IsDict(TrackPage(items, next)) && ParseTrackPage(TrackPage(items, next)) == Ok(PagerState(items, CursorTo(next))) {
      ParseTrackPageRoundTrip(items, next);
    }
  }

  /**
   * A client over one playlist: its detail, the link to its second page of
   * tracks, and the tracks embedded in the detail page.
   */
  class PlaylistClient {
    const session: SessionWithBase
    const playlist: Playlist
    const nextUrl: Option<Json>
    const pendingTracks: Json

    constructor (session: SessionWithBase, playlist: Playlist, nextUrl: Option<Json>, pendingTracks: Json)
      ensures this.session == session && this.playlist == playlist
      ensures this.nextUrl == nextUrl && this.pendingTracks == pendingTracks
    {
      this.session := session;
      this.playlist := playlist;
      this.nextUrl := nextUrl;
      this.pendingTracks := pendingTracks;
    }

    /** `get_tracks`: a fresh generator over the embedded tracks and then the further pages; nothing is requested yet. */
    method GetTracks() returns (tracks: Pager<PlaylistTrack>)
      ensures fresh(tracks)
      ensures tracks.session == session && tracks.validate == ValidateEntry && tracks.parse == ParseTrackPage
      ensures tracks.request == Transport(session.config)
      ensures tracks.state == TracksStart(pendingTracks, nextUrl)
    {
      tracks := new Pager(session, ValidateEntry, ParseTrackPage, TracksStart(pendingTracks, nextUrl));
    }
  }

  /**
   * The tracks of a playlist come in order: every embedded track, then
   * every track of each further page; each further page is requested once,
   * at its resolved URL, and nothing else is requested.
   */
  lemma TracksInOrder(config: SpotifyConfig, pending: seq<Json>, urls: seq<string>,
                      pageItems: seq<seq<Json>>, tail: seq<Response>)
    requires config.rateLimitMaxRetries >= 1
    requires |urls| == |pageItems|
    requires AllValid(ValidateEntry, pending)
    requires forall i :: 0 <= i < |pageItems| ==> AllValid(ValidateEntry, pageItems[i])
    ensures AllValid(ValidateEntry, pending + Flatten(pageItems))
    ensures var start := TracksStart(JList(pending), Some(Link(if urls == [] then None else Some(urls[0]))));
      Walk(ValidateEntry, ParseTrackPage, Transport(config), start, ServeAll(PageChain(TrackPage, urls, pageItems)) + tail)
        == Walked(Validated(ValidateEntry, pending + Flatten(pageItems)), None,
                  Log(ResolveAll(config.baseUrl, urls), []), tail)
  {
    TrackPagesRoundTrip();
    PageChainIsChain(ValidateEntry, ParseTrackPage, TrackPage, urls, pageItems);
    var pages := PageChain(TrackPage, urls, pageItems);
    var cursor := if pages == [] then Stop else Follow(urls[0]);
    FollowChain(ValidateEntry, ParseTrackPage, config, urls, pages, tail);
    DrainBuffer(ValidateEntry, ParseTrackPage, Transport(config), pending, cursor, ServeAll(pages) + tail);
    ValidatedAppend(ValidateEntry, pending, Flatten(pageItems));
  }
}

=== FILE: records.dfy ===
/**
 * The deduplicating table writers and the builder that fans events out to
 * them. Every writer keeps the set of keys it has seen and the rows it has
 * written, in order; a row is written only if its key is new. The CSV file
 * behind a writer is modelled as its header and its sequence of rows.
 */
module Records {
  import opened Models

  /** The six tables, one per writer class of the source. */
  datatype TableKind = CategoryPlaylists | Playlists | Tracks | PlaylistTrackIds | TrackArtistIds | Artists

  /** The tables in the order `run` builds their writers. */
  const Kinds: seq<TableKind> := [CategoryPlaylists, Playlists, Tracks, PlaylistTrackIds, TrackArtistIds, Artists]

  /** The file a writer writes to, without its extension. */
  function TableName(kind: TableKind): string {
    match kind
    case CategoryPlaylists => "category_playlists_records"
    case Playlists => "playlist_records"
    case Tracks => "tracks_records"
    case PlaylistTrackIds => "playlist_track_id_records"
    case TrackArtistIds => "track_artist_id_records"
    case Artists => "artists_records"
  }

  /** The header row a writer writes when it is built. */
  function Header(kind: TableKind): seq<string>
  {
    match kind
    case CategoryPlaylists => ["description", "name", "id", "tracks_url", "total_tracks", "snapshot_id"]
    case Playlists => ["id", "followers"]
    case Tracks => ["album_type", "id", "name", "popularity", "uri"]
    case PlaylistTrackIds => ["playlist_id", "playlist_added_at", "track_id"]
    case TrackArtistIds => ["track_id", "artist_id"]
    case Artists => ["id", "name"]
  }

  /** A deduplication key: one id, or a pair of ids. */
  datatype Key = One(id: string) | Pair(first: string, second: string)

  /** A data row of one of the tables. A `None` description or added-at time is an empty cell. */
  datatype Row =
    | CategoryPlaylistRow(description: Option<string>, name: string, id: string, tracksUrl: string,
                          totalTracks: nat, snapshotId: string)
    | PlaylistRow(id: string, followers: int)
    | TrackRow(albumType: string, id: string, name: string, popularity: Popularity, uri: string)
    | PlaylistTrackRow(playlistId: string, addedAt: Option<string>, trackId: string)
    | TrackArtistRow(trackId: string, artistId: string)
    | ArtistRow(id: string, name: string)

  /** The table a row is written to. */
  function RowKind(row: Row): TableKind {
    match row
    case CategoryPlaylistRow(_, _, _, _, _, _) => CategoryPlaylists
    case PlaylistRow(_, _) => Playlists
    case TrackRow(_, _, _, _, _) => Tracks
    case PlaylistTrackRow(_, _, _) => PlaylistTrackIds
    case TrackArtistRow(_, _) => TrackArtistIds
    case ArtistRow(_, _) => Artists
  }

  /** The number of cells in the tuple a writer passes to `writerow` for the row. */
  function CellCount(row: Row): nat {
    match row
    case CategoryPlaylistRow(_, _, _, _, _, _) => 6
    case PlaylistRow(_, _) => 2
    case TrackRow(_, _, _, _, _) => 5
    case PlaylistTrackRow(_, _, _) => 3
    case TrackArtistRow(_, _) => 2
    case ArtistRow(_, _) => 2
  }

  /** The key a writer deduplicates a row by. */
  function KeyOf(row: Row): Key
  {
    match row
    case CategoryPlaylistRow(_, _, id, _, _, _) => One(id)
    case PlaylistRow(id, _) => One(id)
    case TrackRow(_, id, _, _, _) => One(id)
    case PlaylistTrackRow(playlistId, _, trackId) => Pair(playlistId, trackId)
    case TrackArtistRow(trackId, artistId) => Pair(trackId, artistId)
    case ArtistRow(id, _) => One(id)
  }

  /** `track.album.type`: the album model admits a single literal. */
  const AlbumType := "album"

  /** An event of the builder protocol. */
  datatype Event =
    | PlaylistEvent(playlist: Playlist, tracks: seq<PlaylistTrack>)
    | TrackEvent(playlist: Playlist, entry: PlaylistTrack)

  /**
   * The rows a writer's `add_playlist` offers, in order. Only the two
   * playlist tables override the builder's no-op.
   */
  function PlaylistRows(kind: TableKind, playlist: Playlist, tracks: seq<PlaylistTrack>): seq<Row>
  {
    match kind
    case CategoryPlaylists =>
      [CategoryPlaylistRow(playlist.description, playlist.name, playlist.id, playlist.uri + "/tracks",
                           |tracks|, playlist.snapshotId)]
    case Playlists => [PlaylistRow(playlist.id, playlist.followers)]
    case _ => []
  }

  /**
   * The rows a writer's `add_track` offers, in order: nothing for an
   * episode, and for a track one row, or one row per artist in the artist
   * tables. The playlist tables keep the builder's no-op.
   */
  function TrackRows(kind: TableKind, playlist: Playlist, entry: PlaylistTrack): seq<Row>
  {
    match entry.track
    case Episode(_, _) => []
    case Track(id, name, popularity, uri, _, artists, _) =>
      match kind
      case Tracks => [TrackRow(AlbumType, id, name, popularity, uri)]
      case PlaylistTrackIds => [PlaylistTrackRow(playlist.id, entry.addedAt, id)]
      case TrackArtistIds => seq(|artists|, i requires 0 <= i < |artists| => TrackArtistRow(id, artists[i].id))
      case Artists => seq(|artists|, i requires 0 <= i < |artists| => ArtistRow(artists[i].id, artists[i].name))
      case _ => []
  }

  /** The rows an event offers to a writer of the given table. */
  function Offered(kind: TableKind, event: Event): seq<Row> {
    match event
    case PlaylistEvent(playlist, tracks) => PlaylistRows(kind, playlist, tracks)
    case TrackEvent(playlist, entry) => TrackRows(kind, playlist, entry)
  }

  /** The header has one column per cell of the rows its writer writes, and no column named twice. */
  lemma HeaderFitsRows(kind: TableKind)
    ensures forall row :: RowKind(row) == kind ==> CellCount(row) == |Header(kind)|
    ensures forall i, j :: 0 <= i < j < |Header(kind)| ==> Header(kind)[i] != Header(kind)[j]
  {
  }

  /**
   * A row's key is the id column of an entity table or the two id columns
   * of a link table; the added-at cell of a playlist-track link is not part
   * of its key.
   */
  lemma KeyColumns(row: Row)
    ensures KeyOf(row).Pair? <==> RowKind(row) == PlaylistTrackIds || RowKind(row) == TrackArtistIds
    ensures KeyOf(row).One? ==> KeyOf(row).id == row.id
    ensures row.PlaylistTrackRow? ==> KeyOf(row) == Pair(row.playlistId, row.trackId)
    ensures row.TrackArtistRow? ==> KeyOf(row) == Pair(row.trackId, row.artistId)
  {
  }

  /**
   * A playlist event offers the two playlist tables one row each, keyed by
   * the playlist id, whose category row counts the playlist's entries; the
   * other tables are offered nothing.
   */
  lemma PlaylistRowsKeyed(kind: TableKind, playlist: Playlist, tracks: seq<PlaylistTrack>)
    ensures var r := PlaylistRows(kind, playlist, tracks);
      && (forall i :: 0 <= i < |r| ==> RowKind(r[i]) == kind)
      && |r| == (if kind == CategoryPlaylists || kind == Playlists then 1 else 0)
      && (|r| == 1 ==> KeyOf(r[0]) == One(playlist.id))
      && (kind == CategoryPlaylists ==> r[0].totalTracks == |tracks|)
  {
  }

  /**
   * A track event offers each table only rows of that table: nothing for an
   * episode or to the playlist tables; one row keyed by the track id, or by
   * the playlist and track ids with the entry's added-at time, to the track
   * and link tables; one row per artist, keyed by track and artist ids or by
   * the artist id, in the artists' order, to the artist tables.
   */
  lemma TrackRowsKeyed(kind: TableKind, playlist: Playlist, entry: PlaylistTrack)
    ensures var r := TrackRows(kind, playlist, entry);
      && (forall i :: 0 <= i < |r| ==> RowKind(r[i]) == kind)
      && (entry.track.Episode? || kind == CategoryPlaylists || kind == Playlists ==> r == [])
      && (entry.track.Track? && (kind == Tracks || kind == PlaylistTrackIds) ==> |r| == 1)
      && (entry.track.Track? && kind == Tracks ==> KeyOf(r[0]) == One(entry.track.id))
      && (entry.track.Track? && kind == PlaylistTrackIds ==>
            KeyOf(r[0]) == Pair(playlist.id, entry.track.id) && r[0].addedAt == entry.addedAt)
      && (entry.track.Track? && (kind == TrackArtistIds || kind == Artists) ==> |r| == |entry.track.artists|)
      && (entry.track.Track? && kind == TrackArtistIds ==>
            forall i :: 0 <= i < |r| ==> KeyOf(r[i]) == Pair(entry.track.id, entry.track.artists[i].id))
      && (entry.track.Track? && kind == Artists ==>
            forall i :: 0 <= i < |r| ==> KeyOf(r[i]) == One(entry.track.artists[i].id))
  {
  }

  // ---------------------------------------------------------------------
  // The state of a writer

  /** A writer's state: the keys seen and the rows written, in order. */
  datatype Table = Table(ids: set<Key>, rows: seq<Row>)

  const EmptyTable := Table({}, [])

  /** Remember a row's key and write the row. */
  function Add(t: Table, row: Row): Table {
    Table(t.ids + {KeyOf(row)}, t.rows + [row])
  }

  /**
   * Offer rows in order: each new one is written and its key remembered;
   * the first one whose key has been seen ends the call (the writers'
   * early `return`).
   */
  function Offer(t: Table, offered: seq<Row>): Table
    decreases |offered|
  {
    if offered == [] || KeyOf(offered[0]) in t.ids then t
    else Offer(Add(t, offered[0]), offered[1..])
  }

  /** One event, as a writer of the given table handles it. */
  function Apply(kind: TableKind, t: Table, event: Event): Table {
    Offer(t, Offered(kind, event))
  }

  /** The state of a writer of the given table in state `t` after further events. */
  function Resume(kind: TableKind, t: Table, events: seq<Event>): Table
    decreases |events|
  {
    if events == [] then t
    else Apply(kind, Resume(kind, t, events[..|events| - 1]), events[|events| - 1])
  }

  /** The state of a writer of the given table after a history of events. */
  function Replay(kind: TableKind, events: seq<Event>): Table {
    Resume(kind, EmptyTable, events)
  }

  // ---------------------------------------------------------------------
  // At most one row per key

  /** The keys of some rows. */
  function KeysOf(rows: seq<Row>): set<Key> {
    set r | r in rows :: KeyOf(r)
  }

  /** No two rows share a key. */
  predicate Distinct(rows: seq<Row>) {
    forall i, j :: 0 <= i < j < |rows| ==> KeyOf(rows[i]) != KeyOf(rows[j])
  }

  /** The keys seen are exactly the keys of the rows written, and each key has one row. */
  predicate Consistent(t: Table) {
    t.ids == KeysOf(t.rows) && Distinct(t.rows)
  }

  lemma KeysOfAppend(a: seq<Row>, b: seq<Row>)
    ensures KeysOf(a + b) == KeysOf(a) + KeysOf(b)
  {
    forall k | k in KeysOf(a + b) ensures k in KeysOf(a) + KeysOf(b) {
      var r :| r in a + b && KeyOf(r) == k;
    }
    forall k | k in KeysOf(a) + KeysOf(b) ensures k in KeysOf(a + b) {
      if k in KeysOf(a) {
        var r :| r in a && KeyOf(r) == k;
        assert r in a + b;
      } else {
        var r :| r in b && KeyOf(r) == k;
        assert r in a + b;
      }
    }
  }

  /** Writing a row whose key is new keeps a writer consistent. */
  lemma AddKeepsConsistent(t: Table, row: Row)
    requires Consistent(t) && KeyOf(row) !in t.ids
    ensures Consistent(Add(t, row))
  {
    KeysOfAppend(t.rows, [row]);
    assert KeysOf([row]) == {KeyOf(row)};
    var rows := t.rows + [row];
    forall i, j | 0 <= i < j < |rows| ensures KeyOf(rows[i]) != KeyOf(rows[j]) {
      if j == |t.rows| {
        assert rows[i] in t.rows;
      }
    }
  }

  /** Offering rows keeps a writer consistent. */
  lemma {:induction false} OfferKeepsConsistent(t: Table, offered: seq<Row>)
    requires Consistent(t)
    ensures Consistent(Offer(t, offered))
    decreases |offered|
  {
    if offered != [] && KeyOf(offered[0]) !in t.ids {
      AddKeepsConsistent(t, offered[0]);
      OfferKeepsConsistent(Add(t, offered[0]), offered[1..]);
    }
  }

  /** Further events keep a consistent writer consistent. */
  lemma {:induction false} ResumeConsistent(kind: TableKind, t: Table, events: seq<Event>)
    requires Consistent(t)
    ensures Consistent(Resume(kind, t, events))
    decreases |events|
  {
    if events != [] {
      var before := events[..|events| - 1];
      ResumeConsistent(kind, t, before);
      OfferKeepsConsistent(Resume(kind, t, before), Offered(kind, events[|events| - 1]));
    }
  }

  /**
   * Every writer, after any history of events, has written one row per key
   * it has seen and no two rows with the same key.
   */
  lemma ReplayConsistent(kind: TableKind, events: seq<Event>)
    ensures Consistent(Replay(kind, events))
  {
    assert KeysOf([]) == {};
    ResumeConsistent(kind, EmptyTable, events);
  }

  /** Offering only adds: earlier rows and keys stay. */
  lemma {:induction false} OfferOnlyAppends(t: Table, offered: seq<Row>)
    ensures t.ids <= Offer(t, offered).ids
    ensures t.rows <= Offer(t, offered).rows
    decreases |offered|
  {
    if offered != [] && KeyOf(offered[0]) !in t.ids {
      OfferOnlyAppends(Add(t, offered[0]), offered[1..]);
    }
  }

  /** After an offer, the first offered row's key has been seen. */
  lemma FirstOfferedSeen(t: Table, offered: seq<Row>)
    requires offered != []
    ensures KeyOf(offered[0]) in Offer(t, offered).ids
  {
    if KeyOf(offered[0]) !in t.ids {
      OfferOnlyAppends(Add(t, offered[0]), offered[1..]);
    }
  }

  /** Events only add keys. */
  lemma {:induction false} ResumeOnlyAdds(kind: TableKind, t: Table, events: seq<Event>)
    ensures t.ids <= Resume(kind, t, events).ids
    decreases |events|
  {
    if events != [] {
      var before := events[..|events| - 1];
      ResumeOnlyAdds(kind, t, before);
      OfferOnlyAppends(Resume(kind, t, before), Offered(kind, events[|events| - 1]));
    }
  }

  /** A history in two parts is replayed part by part. */
  lemma {:induction false} ResumeAppend(kind: TableKind, t: Table, a: seq<Event>, b: seq<Event>)
    ensures Resume(kind, t, a + b) == Resume(kind, Resume(kind, t, a), b)
    decreases |b|
  {
    if b == [] {
      assert a + b == a;
    } else {
      var b' := b[..|b| - 1];
      assert (a + b)[..|a + b| - 1] == a + b';
      assert (a + b)[|a + b| - 1] == b[|b| - 1];
      ResumeAppend(kind, t, a, b');
    }
  }

  /** The key of the first row an event offers. */
  predicate FirstKeyIn(kind: TableKind, event: Event, ids: set<Key>) {
    Offered(kind, event) != [] ==> KeyOf(Offered(kind, event)[0]) in ids
  }

  /** After a history, the first key every one of its events offered has been seen. */
  lemma {:induction false} FirstKeysSeen(kind: TableKind, t: Table, events: seq<Event>)
    ensures forall i :: 0 <= i < |events| ==> FirstKeyIn(kind, events[i], Resume(kind, t, events).ids)
    decreases |events|
  {
    if events != [] {
      var before := events[..|events| - 1];
      var last := events[|events| - 1];
      FirstKeysSeen(kind, t, before);
      var mid := Resume(kind, t, before);
      OfferOnlyAppends(mid, Offered(kind, last));
      if Offered(kind, last) != [] {
        FirstOfferedSeen(mid, Offered(kind, last));
      }
      forall i | 0 <= i < |events| ensures FirstKeyIn(kind, events[i], Resume(kind, t, events).ids) {
        if i < |events| - 1 {
          assert events[i] == before[i];
        }
      }
    }
  }

  /** Events whose first offered keys have all been seen change nothing. */
  lemma {:induction false} SeenEventsChangeNothing(kind: TableKind, t: Table, events: seq<Event>)
    requires forall i :: 0 <= i < |events| ==> FirstKeyIn(kind, events[i], t.ids)
    ensures Resume(kind, t, events) == t
    decreases |events|
  {
    if events != [] {
      var before := events[..|events| - 1];
      SeenEventsChangeNothing(kind, t, before);
    }
  }

  /**
   * Handing a writer the same history twice leaves it as handing it once:
   * every event's first offered key is then seen, so the second time each
   * `add_*` call returns at its first row.
   */
  lemma ReplayTwice(kind: TableKind, events: seq<Event>)
    ensures Replay(kind, events + events) == Replay(kind, events)
  {
    ResumeAppend(kind, EmptyTable, events, events);
    FirstKeysSeen(kind, EmptyTable, events);
    SeenEventsChangeNothing(kind, Replay(kind, events), events);
  }

  // ---------------------------------------------------------------------
  // Where an offer stops

  /** How many of the offered rows are written before the first one whose key has been seen. */
  function StopIndex(ids: set<Key>, offered: seq<Row>): (k: nat)
    ensures k <= |offered|
    decreases |offered|
  {
    if offered == [] || KeyOf(offered[0]) in ids then 0
    else 1 + StopIndex(ids + {KeyOf(offered[0])}, offered[1..])
  }

  lemma KeysOfPrefix(s: seq<Row>, i: nat)
    requires 1 <= i <= |s|
    ensures s[..i] == [s[0]] + s[1..][..i - 1]
    ensures KeysOf(s[..i]) == {KeyOf(s[0])} + KeysOf(s[1..][..i - 1])
  {
    assert s[..i] == [s[0]] + s[1..][..i - 1];
    KeysOfAppend([s[0]], s[1..][..i - 1]);
    assert KeysOf([s[0]]) == {KeyOf(s[0])};
  }

  /**
   * Where an offer stops: no row before the stop index has a key seen
   * before it, neither in the writer nor earlier among the offered rows;
   * the row at the stop index, if any, has.
   */
  lemma {:induction false} StopIndexAtFirstSeen(ids: set<Key>, offered: seq<Row>)
    ensures var k := StopIndex(ids, offered);
      && (forall i :: 0 <= i < k ==> KeyOf(offered[i]) !in ids + KeysOf(offered[..i]))
      && (k < |offered| ==> KeyOf(offered[k]) in ids + KeysOf(offered[..k]))
    decreases |offered|
  {
    var k := StopIndex(ids, offered);
    if offered == [] || KeyOf(offered[0]) in ids {
      assert offered[..0] == [];
      assert KeysOf([]) == {};
    } else {
      var ids' := ids + {KeyOf(offered[0])};
      var rest := offered[1..];
      StopIndexAtFirstSeen(ids', rest);
      assert k == StopIndex(ids', rest) + 1;
      forall i | 0 <= i < k ensures KeyOf(offered[i]) !in ids + KeysOf(offered[..i]) {
        if i == 0 {
          assert offered[..0] == [];
        } else {
          KeysOfPrefix(offered, i);
          assert offered[i] == rest[i - 1];
        }
      }
      if k < |offered| {
        KeysOfPrefix(offered, k);
        assert offered[k] == rest[k - 1];
      }
    }
  }

  /**
   * The rows an offer writes are the offered rows up to the stop index, and
   * their keys are the keys it adds: the longest prefix that stops before
   * the first row whose key has been seen, keys being remembered as the
   * loop runs.
   */
  lemma {:induction false} OfferWritesPrefix(t: Table, offered: seq<Row>)
    ensures var k := StopIndex(t.ids, offered);
      Offer(t, offered) == Table(t.ids + KeysOf(offered[..k]), t.rows + offered[..k])
    decreases |offered|
  {
    var k := StopIndex(t.ids, offered);
    if offered == [] || KeyOf(offered[0]) in t.ids {
      assert offered[..0] == [];
      assert KeysOf([]) == {};
    } else {
      var t' := Add(t, offered[0]);
      var rest := offered[1..];
      OfferWritesPrefix(t', rest);
      assert k == StopIndex(t'.ids, rest) + 1;
      KeysOfPrefix(offered, k);
      assert t.rows + offered[..k] == t'.rows + rest[..k - 1];
    }
  }

  // ---------------------------------------------------------------------
  // What each writer does with an event

  /** An episode entry changes no table. */
  lemma EpisodeWritesNothing(kind: TableKind, t: Table, playlist: Playlist, entry: PlaylistTrack)
    requires entry.track.Episode?
    ensures Apply(kind, t, TrackEvent(playlist, entry)) == t
  {
  }

  /**
   * The playlist tables: a playlist is written only if its id is new; its
   * id is remembered; the category row is the playlist's description,
   * name, id, tracks URL, number of entries and snapshot id.
   */
  lemma PlaylistWrittenOnce(t: Table, playlist: Playlist, tracks: seq<PlaylistTrack>)
    ensures var after := Apply(CategoryPlaylists, t, PlaylistEvent(playlist, tracks));
      && after.ids == t.ids + {One(playlist.id)}
      && (One(playlist.id) in t.ids ==> after == t)
      && (One(playlist.id) !in t.ids ==>
            after.rows == t.rows + [CategoryPlaylistRow(playlist.description, playlist.name, playlist.id,
                                                        playlist.uri + "/tracks", |tracks|, playlist.snapshotId)])
    ensures var after := Apply(Playlists, t, PlaylistEvent(playlist, tracks));
      && after.ids == t.ids + {One(playlist.id)}
      && (One(playlist.id) in t.ids ==> after == t)
      && (One(playlist.id) !in t.ids ==> after.rows == t.rows + [PlaylistRow(playlist.id, playlist.followers)])
  {
    var row := PlaylistRows(CategoryPlaylists, playlist, tracks)[0];
    assert [row][1..] == [] && Offer(Add(t, row), []) == Add(t, row);
    var row' := PlaylistRows(Playlists, playlist, tracks)[0];
    assert [row'][1..] == [] && Offer(Add(t, row'), []) == Add(t, row');
  }

  /**
   * The playlist-track table keys a row by the playlist and the track, so a
   * track appears once per playlist: a new pair is written after the rows
   * already there, the same pair again adds nothing, the same track in
   * another playlist not yet linked to it adds one more row, and a pair
   * already seen leaves the table as it was.
   */
  lemma OneLinkPerPlaylist(t: Table, p: Playlist, q: Playlist, entry: PlaylistTrack)
    requires entry.track.Track?
    requires Pair(p.id, entry.track.id) !in t.ids
    ensures var once := Apply(PlaylistTrackIds, t, TrackEvent(p, entry));
      && once == Table(t.ids + {Pair(p.id, entry.track.id)}, t.rows + [PlaylistTrackRow(p.id, entry.addedAt, entry.track.id)])
      && Apply(PlaylistTrackIds, once, TrackEvent(p, entry)) == once
      && (q.id != p.id && Pair(q.id, entry.track.id) !in t.ids ==>
            Apply(PlaylistTrackIds, once, TrackEvent(q, entry)).rows
              == t.rows + [PlaylistTrackRow(p.id, entry.addedAt, entry.track.id), PlaylistTrackRow(q.id, entry.addedAt, entry.track.id)])
    ensures Pair(q.id, entry.track.id) in t.ids ==> Apply(PlaylistTrackIds, t, TrackEvent(q, entry)) == t
  {
    var row := PlaylistTrackRow(p.id, entry.addedAt, entry.track.id);
    assert [row][1..] == [] && Offer(Add(t, row), []) == Add(t, row);
    var once := Add(t, row);
    var row' := PlaylistTrackRow(q.id, entry.addedAt, entry.track.id);
    assert [row'][1..] == [] && Offer(Add(once, row'), []) == Add(once, row');
    assert t.rows + [row] + [row'] == t.rows + [row, row'];
  }

  /**
   * The artist tables as written: once an artist of a track has been seen,
   * none of the track's later artists is written, even a new one.
   */
  lemma SeenArtistHidesLaterArtists(t: Table, playlist: Playlist, entry: PlaylistTrack)
    requires entry.track.Track? && entry.track.artists != []
    requires One(entry.track.artists[0].id) in t.ids
    ensures Apply(Artists, t, TrackEvent(playlist, entry)) == t
  {
  }

  /** A history of three events, replayed one at a time. */
  lemma ReplayThree(kind: TableKind, e1: Event, e2: Event, e3: Event)
    ensures Replay(kind, [e1, e2, e3]) == Apply(kind, Apply(kind, Apply(kind, EmptyTable, e1), e2), e3)
  {
    assert [e1, e2, e3][..2] == [e1, e2] && [e1, e2][..1] == [e1] && [e1][..0] == [];
    assert Resume(kind, EmptyTable, [e1]) == Apply(kind, EmptyTable, e1);
    assert Resume(kind, EmptyTable, [e1, e2]) == Apply(kind, Resume(kind, EmptyTable, [e1]), e2);
  }

  /** A row offered alone is written once, however often it is offered again. */
  lemma OneRowOnce(row: Row)
    ensures Offer(EmptyTable, [row]) == Add(EmptyTable, row)
    ensures Offer(Add(EmptyTable, row), [row]) == Add(EmptyTable, row)
  {
    assert [row][1..] == [];
  }

  /** Two rows with different keys offered together are written once, however often they are offered again. */
  lemma TwoRowsOnce(r1: Row, r2: Row)
    requires KeyOf(r1) != KeyOf(r2)
    ensures Offer(EmptyTable, [r1, r2]) == Add(Add(EmptyTable, r1), r2)
    ensures Offer(Add(Add(EmptyTable, r1), r2), [r1, r2]) == Add(Add(EmptyTable, r1), r2)
  {
    assert [r1, r2][1..] == [r2] && [r2][1..] == [];
    assert Offer(EmptyTable, [r1, r2]) == Offer(Add(EmptyTable, r1), [r2]);
    assert Offer(Add(EmptyTable, r1), [r2]) == Offer(Add(Add(EmptyTable, r1), r2), []);
  }

  /** A table that takes one row from a track entry and none from a playlist event, given the entry twice and then the playlist. */
  lemma {:induction false} TrackTableTwice(kind: TableKind, playlist: Playlist, entry: PlaylistTrack, tracks: seq<PlaylistTrack>, row: Row)
    requires TrackRows(kind, playlist, entry) == [row] && PlaylistRows(kind, playlist, tracks) == []
    ensures Replay(kind, [TrackEvent(playlist, entry), TrackEvent(playlist, entry), PlaylistEvent(playlist, tracks)]).rows == [row]
  {
    ReplayThree(kind, TrackEvent(playlist, entry), TrackEvent(playlist, entry), PlaylistEvent(playlist, tracks));
    OneRowOnce(row);
  }

  /** A table that takes two rows from a track entry and none from a playlist event, given the entry twice and then the playlist. */
  lemma {:induction false} ArtistTableTwice(kind: TableKind, playlist: Playlist, entry: PlaylistTrack, tracks: seq<PlaylistTrack>, r1: Row, r2: Row)
    requires TrackRows(kind, playlist, entry) == [r1, r2] && PlaylistRows(kind, playlist, tracks) == []
    requires KeyOf(r1) != KeyOf(r2)
    ensures Replay(kind, [TrackEvent(playlist, entry), TrackEvent(playlist, entry), PlaylistEvent(playlist, tracks)]).rows == [r1, r2]
  {
    ReplayThree(kind, TrackEvent(playlist, entry), TrackEvent(playlist, entry), PlaylistEvent(playlist, tracks));
    TwoRowsOnce(r1, r2);
  }

  /** A table that takes nothing from a track entry and one row from a playlist event, given the entry twice and then the playlist. */
  lemma {:induction false} PlaylistTableOnce(kind: TableKind, playlist: Playlist, entry: PlaylistTrack, tracks: seq<PlaylistTrack>, row: Row)
    requires TrackRows(kind, playlist, entry) == [] && PlaylistRows(kind, playlist, tracks) == [row]
    ensures Replay(kind, [TrackEvent(playlist, entry), TrackEvent(playlist, entry), PlaylistEvent(playlist, tracks)]).rows == [row]
  {
    ReplayThree(kind, TrackEvent(playlist, entry), TrackEvent(playlist, entry), PlaylistEvent(playlist, tracks));
    OneRowOnce(row);
  }

  /**
   * The duplicates scenario as written: with `added_at` the builder as
   * written is `Replay`; without it the run stops at the first entry.
   */
  lemma DuplicateEntriesAsWritten(playlist: Playlist, entry: PlaylistTrack, events: seq<Event>)
    requires entry.track.Track?
    requires events == [TrackEvent(playlist, entry), TrackEvent(playlist, entry), PlaylistEvent(playlist, [entry, entry])]
    ensures entry.addedAt.Some? ==> ReplayAsWritten(events) == Fanned(ReplayAll(events), None)
    ensures entry.addedAt.None? ==>
      && ReplayAsWritten(events) == ReplayAsWritten([TrackEvent(playlist, entry)])
      && ReplayAsWritten(events).failure == Some(NoneAttribute)
  {
    var first := [TrackEvent(playlist, entry)];
    var later := [TrackEvent(playlist, entry), PlaylistEvent(playlist, [entry, entry])];
    assert events == first + later;
    if entry.addedAt.Some? {
      assert forall i :: 0 <= i < |events| ==> Dated(events[i]);
      DatedNeverRaises(events);
    } else {
      MissingAddedAtStopsFanOut(playlist, entry);
      RaiseIsFinal(first, later);
    }
  }

  /**
   * The duplicates scenario: one playlist listing the same track, by two
   * artists, twice. Each table gets one row per key, and the playlist row
   * counts both entries.
   */
  lemma DuplicateEntries(playlist: Playlist, entry: PlaylistTrack, a: Artist, b: Artist, events: seq<Event>)
    requires entry.track.Track? && entry.track.artists == [a, b] && a.id != b.id
    requires events == [TrackEvent(playlist, entry), TrackEvent(playlist, entry), PlaylistEvent(playlist, [entry, entry])]
    ensures Replay(Tracks, events).rows == [TrackRow(AlbumType, entry.track.id, entry.track.name, entry.track.popularity, entry.track.uri)]
    ensures Replay(PlaylistTrackIds, events).rows == [PlaylistTrackRow(playlist.id, entry.addedAt, entry.track.id)]
    ensures Replay(TrackArtistIds, events).rows == [TrackArtistRow(entry.track.id, a.id), TrackArtistRow(entry.track.id, b.id)]
    ensures Replay(Artists, events).rows == [ArtistRow(a.id, a.name), ArtistRow(b.id, b.name)]
    ensures Replay(CategoryPlaylists, events).rows
      == [CategoryPlaylistRow(playlist.description, playlist.name, playlist.id, playlist.uri + "/tracks", 2, playlist.snapshotId)]
    ensures Replay(Playlists, events).rows == [PlaylistRow(playlist.id, playlist.followers)]
    ensures entry.addedAt.Some? ==> ReplayAsWritten(events) == Fanned(ReplayAll(events), None)
    ensures entry.addedAt.None? ==>
      && ReplayAsWritten(events) == ReplayAsWritten([TrackEvent(playlist, entry)])
      && ReplayAsWritten(events).failure == Some(NoneAttribute)
  {
    var track := entry.track;
    var tracks := [entry, entry];
    TrackTableTwice(Tracks, playlist, entry, tracks, TrackRow(AlbumType, track.id, track.name, track.popularity, track.uri));
    TrackTableTwice(PlaylistTrackIds, playlist, entry, tracks, PlaylistTrackRow(playlist.id, entry.addedAt, track.id));
    assert TrackRows(TrackArtistIds, playlist, entry) == [TrackArtistRow(track.id, a.id), TrackArtistRow(track.id, b.id)];
    ArtistTableTwice(TrackArtistIds, playlist, entry, tracks, TrackArtistRow(track.id, a.id), TrackArtistRow(track.id, b.id));
    assert TrackRows(Artists, playlist, entry) == [ArtistRow(a.id, a.name), ArtistRow(b.id, b.name)];
    ArtistTableTwice(Artists, playlist, entry, tracks, ArtistRow(a.id, a.name), ArtistRow(b.id, b.name));
    PlaylistTableOnce(CategoryPlaylists, playlist, entry, tracks,
      CategoryPlaylistRow(playlist.description, playlist.name, playlist.id, playlist.uri + "/tracks", 2, playlist.snapshotId));
    PlaylistTableOnce(Playlists, playlist, entry, tracks, PlaylistRow(playlist.id, playlist.followers));
    DuplicateEntriesAsWritten(playlist, entry, events);
  }

  // ---------------------------------------------------------------------
  // The link row as written

  /**
   * The playlist-track row as the source builds it: `added_at.isoformat()`
   * is called even though `added_at` is optional, so an entry without it
   * raises instead of producing a row.
   */
  function PlaylistTrackRowAsWritten(playlist: Playlist, entry: PlaylistTrack): Result<Row>
    requires entry.track.Track?
  {
    match entry.addedAt
    case None => Err(NoneAttribute)
    case Some(at) => Ok(PlaylistTrackRow(playlist.id, Some(at), entry.track.id))
  }

  /** An entry without `added_at` makes the row as written raise. */
  lemma AddedAtMissingRaises(playlist: Playlist, track: Playable)
    requires track.Track?
    ensures PlaylistTrackRowAsWritten(playlist, PlaylistTrack(None, false, track)) == Err(NoneAttribute)
  {
  }

  /**
   * The corrected row, which `TrackRows` uses: a new track entry always gets
   * its link row, with an empty cell for a missing `added_at`, and agrees
   * with the row as written whenever that one does not raise.
   */
  lemma LinkRowAlwaysWritten(t: Table, playlist: Playlist, entry: PlaylistTrack)
    requires entry.track.Track?
    requires Pair(playlist.id, entry.track.id) !in t.ids
    ensures Apply(PlaylistTrackIds, t, TrackEvent(playlist, entry)).rows
      == t.rows + [PlaylistTrackRow(playlist.id, entry.addedAt, entry.track.id)]
    ensures PlaylistTrackRowAsWritten(playlist, entry).Ok? ==>
      PlaylistTrackRowAsWritten(playlist, entry).value == PlaylistTrackRow(playlist.id, entry.addedAt, entry.track.id)
  {
    var row := PlaylistTrackRow(playlist.id, entry.addedAt, entry.track.id);
    assert [row][1..] == [] && Offer(Add(t, row), []) == Add(t, row);
  }

  // ---------------------------------------------------------------------
  // The builder as written

  /** A writer's table after an `add_*` call, and the error the call raised, if any. */
  datatype Outcome = Outcome(table: Table, failure: Option<Error>)

  /** The six writers' tables, in the order of `Kinds`, and the error that stopped the builder, if any. */
  datatype Fanned = Fanned(tables: seq<Table>, failure: Option<Error>)

  /**
   * One event, as a writer of the given table handles it as written: the
   * link writer remembers the key of a new track entry before it builds the
   * row, so an entry without `added_at` leaves the key seen, writes no row
   * and raises. Every other call is `Apply`.
   */
  function ApplyAsWritten(kind: TableKind, t: Table, event: Event): (r: Outcome)
    ensures r.failure.Some? <==>
      && kind == PlaylistTrackIds && event.TrackEvent? && event.entry.track.Track?
      && Pair(event.playlist.id, event.entry.track.id) !in t.ids && event.entry.addedAt.None?
    ensures r.failure.Some? ==>
      r == Outcome(Table(t.ids + {Pair(event.playlist.id, event.entry.track.id)}, t.rows), Some(NoneAttribute))
    ensures r.failure.None? ==> r.table == Apply(kind, t, event)
  {
    if kind == PlaylistTrackIds && event.TrackEvent? && event.entry.track.Track?
       && Pair(event.playlist.id, event.entry.track.id) !in t.ids
    then
      match PlaylistTrackRowAsWritten(event.playlist, event.entry)
      case Err(e) => Outcome(Table(t.ids + {Pair(event.playlist.id, event.entry.track.id)}, t.rows), Some(e))
      case Ok(row) =>
        assert [row][1..] == [] && Offer(Add(t, row), []) == Add(t, row);
        Outcome(Add(t, row), None)
    else Outcome(Apply(kind, t, event), None)
  }

  /**
   * `RecordBuilder.add_*` as written: the writers in list order, each with
   * its own table; the first one that raises ends the call, and the writers
   * after it do not see the event.
   */
  function FanOutAsWritten(kinds: seq<TableKind>, tables: seq<Table>, event: Event): (r: Fanned)
    requires |kinds| == |tables|
    ensures |r.tables| == |tables|
    decreases |kinds|
  {
    if kinds == [] then Fanned([], None)
    else
      var o := ApplyAsWritten(kinds[0], tables[0], event);
      if o.failure.Some? then Fanned([o.table] + tables[1..], o.failure)
      else
        var later := FanOutAsWritten(kinds[1..], tables[1..], event);
        Fanned([o.table] + later.tables, later.failure)
  }

  /** The six writers before any event. */
  const EmptyTables: seq<Table> := [EmptyTable, EmptyTable, EmptyTable, EmptyTable, EmptyTable, EmptyTable]

  /** The six writers of `run`'s builder after a history of events, as `Replay` gives them. */
  function ReplayAll(events: seq<Event>): (r: seq<Table>)
    ensures |r| == |Kinds| && forall i :: 0 <= i < |Kinds| ==> r[i] == Replay(Kinds[i], events)
  {
    seq(|Kinds|, i requires 0 <= i < |Kinds| => Replay(Kinds[i], events))
  }

  /**
   * `run`'s builder as written, handed a history of events one at a time:
   * the first event a writer raises on ends the run, so no later event
   * reaches any writer.
   */
  function ReplayAsWritten(events: seq<Event>): (r: Fanned)
    ensures |r.tables| == |Kinds|
    decreases |events|
  {
    if events == [] then Fanned(EmptyTables, None)
    else
      var before := ReplayAsWritten(events[..|events| - 1]);
      if before.failure.Some? then before
      else FanOutAsWritten(Kinds, before.tables, events[|events| - 1])
  }

  /** An event whose track, if it is a track, carries its `added_at`. */
  predicate Dated(event: Event) {
    event.TrackEvent? && event.entry.track.Track? ==> event.entry.addedAt.Some?
  }

  /** A fan-out that does not raise gives every writer the event, as `Apply` does. */
  lemma {:induction false} FanOutAgrees(kinds: seq<TableKind>, tables: seq<Table>, event: Event)
    requires |kinds| == |tables|
    ensures var r := FanOutAsWritten(kinds, tables, event);
      r.failure.None? ==> forall i :: 0 <= i < |kinds| ==> r.tables[i] == Apply(kinds[i], tables[i], event)
    ensures Dated(event) ==> FanOutAsWritten(kinds, tables, event).failure.None?
    decreases |kinds|
  {
    if kinds != [] {
      FanOutAgrees(kinds[1..], tables[1..], event);
      var r := FanOutAsWritten(kinds, tables, event);
      if r.failure.None? {
        forall i | 0 <= i < |kinds| ensures r.tables[i] == Apply(kinds[i], tables[i], event) {
          if i > 0 {
            assert kinds[1..][i - 1] == kinds[i] && tables[1..][i - 1] == tables[i];
          }
        }
      }
    }
  }

  /**
   * Until a writer raises, the builder as written holds what `Replay` gives
   * every writer, and a raise is always the link writer's missing
   * `added_at`.
   */
  lemma {:induction false} AgreesUntilRaise(events: seq<Event>)
    ensures var r := ReplayAsWritten(events);
      && (r.failure.None? ==> r.tables == ReplayAll(events))
      && (r.failure.Some? ==> r.failure == Some(NoneAttribute))
    decreases |events|
  {
    if events == [] {
      assert ReplayAll([]) == EmptyTables;
    } else {
      var prefix := events[..|events| - 1];
      var last := events[|events| - 1];
      AgreesUntilRaise(prefix);
      var before := ReplayAsWritten(prefix);
      if before.failure.None? {
        FanOutAgrees(Kinds, before.tables, last);
        FanOutRaisesNoneAttribute(Kinds, before.tables, last);
      }
    }
  }

  /** The only error a fan-out raises is the link writer's. */
  lemma {:induction false} FanOutRaisesNoneAttribute(kinds: seq<TableKind>, tables: seq<Table>, event: Event)
    requires |kinds| == |tables|
    ensures var r := FanOutAsWritten(kinds, tables, event);
      r.failure.Some? ==> r.failure == Some(NoneAttribute)
    decreases |kinds|
  {
    if kinds != [] {
      FanOutRaisesNoneAttribute(kinds[1..], tables[1..], event);
    }
  }

  /** A history whose track entries all carry `added_at` never raises: the builder as written is `Replay`. */
  lemma {:induction false} DatedNeverRaises(events: seq<Event>)
    requires forall i :: 0 <= i < |events| ==> Dated(events[i])
    ensures ReplayAsWritten(events) == Fanned(ReplayAll(events), None)
    decreases |events|
  {
    if events != [] {
      var prefix := events[..|events| - 1];
      DatedNeverRaises(prefix);
      FanOutAgrees(Kinds, ReplayAll(prefix), events[|events| - 1]);
      AgreesUntilRaise(events);
    } else {
      assert ReplayAll([]) == EmptyTables;
    }
  }

  /** Once a writer has raised, later events change nothing: the exception ended the run. */
  lemma {:induction false} RaiseIsFinal(events: seq<Event>, later: seq<Event>)
    requires ReplayAsWritten(events).failure.Some?
    ensures ReplayAsWritten(events + later) == ReplayAsWritten(events)
    decreases |later|
  {
    if later == [] {
      assert events + later == events;
    } else {
      var prefix := later[..|later| - 1];
      assert (events + later)[..|events + later| - 1] == events + prefix;
      RaiseIsFinal(events, prefix);
    }
  }

  /**
   * A first entry without `added_at`: the tracks writer has written its
   * row, the link writer has remembered the key without a row, and the
   * artist writers, after it in list order, never saw the event.
   */
  lemma MissingAddedAtStopsFanOut(playlist: Playlist, entry: PlaylistTrack)
    requires entry.track.Track? && entry.addedAt.None?
    ensures var track := entry.track;
      ReplayAsWritten([TrackEvent(playlist, entry)]) == Fanned(
        [EmptyTable, EmptyTable,
         Add(EmptyTable, TrackRow(AlbumType, track.id, track.name, track.popularity, track.uri)),
         Table({Pair(playlist.id, track.id)}, []),
         EmptyTable, EmptyTable],
        Some(NoneAttribute))
  {
    var event := TrackEvent(playlist, entry);
    var track := entry.track;
    assert [event][..0] == [];
    var row := TrackRow(AlbumType, track.id, track.name, track.popularity, track.uri);
    assert [row][1..] == [] && Offer(Add(EmptyTable, row), []) == Add(EmptyTable, row);
    var tracks := Add(EmptyTable, row);
    var link := Table({Pair(playlist.id, track.id)}, []);
    var raised := Fanned([link] + EmptyTables[..2], Some(NoneAttribute));
    assert EmptyTable.ids + {Pair(playlist.id, track.id)} == link.ids;
    assert ApplyAsWritten(PlaylistTrackIds, EmptyTable, event) == Outcome(link, Some(NoneAttribute));
    assert EmptyTables[..3][1..] == EmptyTables[..2];
    assert FanOutAsWritten([PlaylistTrackIds, TrackArtistIds, Artists], EmptyTables[..3], event) == raised;
    assert ApplyAsWritten(Tracks, EmptyTable, event) == Outcome(tracks, None);
    assert EmptyTables[..4][1..] == EmptyTables[..3];
    assert FanOutAsWritten([Tracks, PlaylistTrackIds, TrackArtistIds, Artists], EmptyTables[..4], event)
      == Fanned([tracks] + raised.tables, raised.failure);
    assert FanOutAsWritten(Kinds, EmptyTables, event)
      == Fanned([EmptyTable, EmptyTable, tracks] + raised.tables, raised.failure);
    assert ReplayAsWritten([event]) == FanOutAsWritten(Kinds, EmptyTables, event);
  }

  // ---------------------------------------------------------------------
  // The writers

  /**
   * A table writer (`RecordWriter` behind a `FileBuilder`): the header is
   * written when it is built, then the rows. `events` is the history of
   * builder events it was given and `closings` counts its `close` calls.
   */
  class TableWriter {
    const kind: TableKind
    const header: seq<string>
    var ids: set<Key>
    var rows: seq<Row>
    var closed: bool
    ghost var events: seq<Event>
    ghost var closings: nat

    /** The writer's table is what its history of events leaves. */
    ghost predicate Valid()
      reads this
    {
      Table(ids, rows) == Replay(kind, events)
    }

    function Contents(): Table
      reads this
    {
      Table(ids, rows)
    }

    constructor (kind: TableKind)
      ensures this.kind == kind && header == Header(kind)
      ensures ids == {} && rows == [] && !closed
      ensures events == [] && closings == 0 && Valid()
    {
      this.kind := kind;
      header := Header(kind);
      ids := {};
      rows := [];
      closed := false;
      events := [];
      closings := 0;
    }

    /** The body shared by the writers' `add_*` methods: write each new row, return at the first seen key. */
    method OfferRows(offered: seq<Row>)
      modifies this`ids, this`rows
      ensures Contents() == Offer(old(Contents()), offered)
    {
      for i := 0 to |offered|
        invariant Offer(Contents(), offered[i..]) == Offer(old(Contents()), offered)
      {
        assert offered[i..][0] == offered[i] && offered[i..][1..] == offered[i + 1..];
        var key := KeyOf(offered[i]);
        if key in ids {
          return;
        }
        ids := ids + {key};
        rows := rows + [offered[i]];
      }
      assert offered[|offered|..] == [];
    }

    /** `add_playlist` */
    method AddPlaylist(playlist: Playlist, tracks: seq<PlaylistTrack>)
      requires Valid()
      modifies this`ids, this`rows, this`events
      ensures Valid() && events == old(events) + [PlaylistEvent(playlist, tracks)]
      ensures Contents() == Apply(kind, old(Contents()), PlaylistEvent(playlist, tracks))
    {
      OfferRows(PlaylistRows(kind, playlist, tracks));
      events := events + [PlaylistEvent(playlist, tracks)];
      assert events[..|events| - 1] == old(events);
    }

    /** `add_track` */
    method AddTrack(playlist: Playlist, entry: PlaylistTrack)
      requires Valid()
      modifies this`ids, this`rows, this`events
      ensures Valid() && events == old(events) + [TrackEvent(playlist, entry)]
      ensures Contents() == Apply(kind, old(Contents()), TrackEvent(playlist, entry))
    {
      OfferRows(TrackRows(kind, playlist, entry));
      events := events + [TrackEvent(playlist, entry)];
      assert events[..|events| - 1] == old(events);
    }

    /** `close`: close the file. */
    method Close()
      modifies this`closed, this`closings
      ensures closed && closings == old(closings) + 1
    {
      closed := true;
      closings := closings + 1;
    }
  }

  /** A writer as built: valid, with an empty history, and never closed. */
  ghost predicate Blank(w: TableWriter)
    reads w
  {
    w.Valid() && w.events == [] && w.closings == 0 && !w.closed
  }

  /** Writers that are distinct objects. */
  ghost predicate Disjoint(writers: seq<TableWriter>) {
    forall i, j :: 0 <= i < j < |writers| ==> writers[i] != writers[j]
  }

  /**
   * The fan-out builder: every event goes to every writer, in list order,
   * so all writers share one history of events, and `close` closes them
   * all, so all of them have been closed equally often.
   */
  class RecordBuilder {
    const builders: seq<TableWriter>
    ghost var events: seq<Event>
    ghost var closings: nat

    ghost predicate Valid()
      reads this, builders
    {
      && Disjoint(builders)
      && (forall i :: 0 <= i < |builders| ==> builders[i].Valid() && builders[i].events == events)
      && (forall i :: 0 <= i < |builders| ==> builders[i].closings == closings && builders[i].closed == (closings > 0))
    }

    constructor (builders: seq<TableWriter>)
      requires Disjoint(builders)
      requires forall i :: 0 <= i < |builders| ==> Blank(builders[i])
      ensures this.builders == builders && events == [] && closings == 0 && Valid()
    {
      this.builders := builders;
      events := [];
      closings := 0;
    }

    /** `add_playlist`: forwarded to every writer. */
    method AddPlaylist(playlist: Playlist, tracks: seq<PlaylistTrack>)
      requires Valid()
      modifies builders, this`events
      ensures Valid() && events == old(events) + [PlaylistEvent(playlist, tracks)]
    {
      var event := PlaylistEvent(playlist, tracks);
      for i := 0 to |builders|
        invariant events == old(events)
        invariant forall j :: 0 <= j < i ==> builders[j].Valid() && builders[j].events == events + [event]
        invariant forall j :: i <= j < |builders| ==> builders[j].Valid() && builders[j].events == events
        invariant forall j :: 0 <= j < |builders| ==> builders[j].closings == closings && builders[j].closed == (closings > 0)
      {
        builders[i].AddPlaylist(playlist, tracks);
      }
      events := events + [event];
    }

    /** `add_track`: forwarded to every writer. */
    method AddTrack(playlist: Playlist, entry: PlaylistTrack)
      requires Valid()
      modifies builders, this`events
      ensures Valid() && events == old(events) + [TrackEvent(playlist, entry)]
    {
      var event := TrackEvent(playlist, entry);
      for i := 0 to |builders|
        invariant events == old(events)
        invariant forall j :: 0 <= j < i ==> builders[j].Valid() && builders[j].events == events + [event]
        invariant forall j :: i <= j < |builders| ==> builders[j].Valid() && builders[j].events == events
        invariant forall j :: 0 <= j < |builders| ==> builders[j].closings == closings && builders[j].closed == (closings > 0)
      {
        builders[i].AddTrack(playlist, entry);
      }
      events := events + [event];
    }

    /** `close`: every writer is closed once more. */
    method Close()
      requires Valid()
      modifies builders, this`closings
      ensures Valid() && events == old(events) && closings == old(closings) + 1
      ensures forall i :: 0 <= i < |builders| ==> builders[i].closed
    {
      for i := 0 to |builders|
        invariant closings == old(closings)
        invariant forall j :: 0 <= j < i ==> builders[j].closed && builders[j].closings == closings + 1
        invariant forall j :: i <= j < |builders| ==> builders[j].closings == closings && builders[j].closed == (closings > 0)
        invariant forall j :: 0 <= j < |builders| ==> builders[j].Valid() && builders[j].events == events
      {
        builders[i].Close();
      }
      closings := closings + 1;
    }
  }

  /** Every writer of a valid builder holds the table its kind makes of the builder's history. */
  lemma BuilderTables(b: RecordBuilder)
    requires b.Valid()
    ensures forall i :: 0 <= i < |b.builders| ==>
      b.builders[i].Contents() == Replay(b.builders[i].kind, b.events) && Consistent(b.builders[i].Contents())
  {
    forall i | 0 <= i < |b.builders|
      ensures b.builders[i].Contents() == Replay(b.builders[i].kind, b.events) && Consistent(b.builders[i].Contents())
    {
      ReplayConsistent(b.builders[i].kind, b.events);
    }
  }
}

=== FILE: sessions.dfy ===
/**
 * The HTTP session: URL resolution against the API base, the bounded
 * sleep-and-retry on HTTP 429, the checks every response body goes through,
 * and the bearer header.
 *
 * The remote side is a script: the responses it will give, in the order
 * requests reach it (one response per attempt). The session logs every URL
 * it sends a request to and every duration it sleeps.
 */
module Sessions {
  import opened Models

  /** The session settings; `retryMaxRetries` belongs to the transport retry, which is not modelled. */
  datatype SpotifyConfig = SpotifyConfig(
    clientId: string,
    clientSecret: string,
    baseUrl: string,
    authUrl: string,
    retryMaxRetries: int,
    rateLimitBucketSizeSeconds: int,
    rateLimitRequestsPerBucket: int,
    rateLimitMaxRetries: int)

  /** A configuration with the extractor's default settings. */
  function DefaultConfig(clientId: string, clientSecret: string): (c: SpotifyConfig)
    ensures c.baseUrl == "https://api.spotify.com/v1/"
    ensures c.rateLimitBucketSizeSeconds == 30 && c.rateLimitMaxRetries == 3
  {
    SpotifyConfig(clientId, clientSecret, "https://api.spotify.com/v1/",
                  "https://accounts.spotify.com/api/token", 5, 30, 100, 3)
  }

  /** A response as the session sees it; `body` is None when the body is not JSON. */
  datatype Response = Response(status: int, retryAfter: Option<string>, body: Option<Json>)

  /** What the session did: the URLs requests were sent to and the durations slept, in order. */
  datatype Log = Log(sent: seq<string>, slept: seq<nat>) {
    function Then(later: Log): (r: Log)
      ensures |r.sent| == |sent| + |later.sent| && |r.slept| == |slept| + |later.slept|
    {
      Log(sent + later.sent, slept + later.slept)
    }
  }

  const NoLog := Log([], [])

  /** Concatenation is associative; stated once so that loops over logs stay cheap. */
  lemma AppendAssoc<X>(a: seq<X>, b: seq<X>, c: seq<X>)
    ensures (a + b) + c == a + (b + c)
  {
  }

  /** Appending logs is associative. */
  lemma ThenAssoc(a: Log, b: Log, c: Log)
    ensures a.Then(b).Then(c) == a.Then(b.Then(c))
  {
    assert (a.sent + b.sent) + c.sent == a.sent + (b.sent + c.sent);
    assert (a.slept + b.slept) + c.slept == a.slept + (b.slept + c.slept);
  }


  /** The outcome of one `request` call and the responses the remote has left. */
  datatype Attempt = Attempt(result: Result<Response>, log: Log, rest: seq<Response>)

  // ---------------------------------------------------------------------
  // URL resolution

  predicate IsAsciiLetter(c: char) {
    'a' <= c <= 'z' || 'A' <= c <= 'Z'
  }

  predicate IsSchemeChar(c: char) {
    IsAsciiLetter(c) || '0' <= c <= '9' || c == '+' || c == '-' || c == '.'
  }

  /** The index of the first ':' in `s`, or `|s|` when there is none. */
  function ColonIndex(s: string): (i: nat)
    ensures i <= |s|
    ensures i < |s| ==> s[i] == ':'
    ensures forall k :: 0 <= k < i ==> s[k] != ':'
  {
    if s == [] then 0 else if s[0] == ':' then 0 else 1 + ColonIndex(s[1..])
  }

  /** `s` without its leading C0 control characters and spaces, as `urlsplit` strips them. */
  function StripControls(s: string): (r: string)
    ensures |r| <= |s|
    ensures r != [] ==> ' ' < r[0]
    decreases |s|
  {
    if s != [] && s[0] <= ' ' then StripControls(s[1..]) else s
  }

  /** The tab, carriage return and line feed `urlsplit` deletes wherever they occur. */
  predicate IsUnsafeUrlChar(c: char) {
    c == '\t' || c == '\r' || c == '\n'
  }

  /** `s` without its tabs, carriage returns and line feeds. */
  function RemoveUnsafe(s: string): (r: string)
    ensures |r| <= |s|
    ensures forall k :: 0 <= k < |r| ==> !IsUnsafeUrlChar(r[k])
  {
    if s == [] then []
    else
      assert forall k :: 0 <= k < |s[1..]| ==> s[1..][k] == s[k + 1];
      (if IsUnsafeUrlChar(s[0]) then [] else [s[0]]) + RemoveUnsafe(s[1..])
  }

  /** A ':' ends a run of scheme characters. */
  predicate SchemeRunThenColon(u: string) {
    var i := ColonIndex(u);
    i < |u| && forall k :: 0 <= k < i ==> IsSchemeChar(u[k])
  }

  /**
   * `urlparse(url).scheme` is non-empty, step by step as `urlsplit` finds
   * it: strip the leading C0 controls and spaces, delete every tab, CR and
   * LF, then look for a ':' after a run of scheme characters that starts
   * with an ASCII letter.
   */
  predicate UrlsplitHasScheme(url: string) {
    var u := RemoveUnsafe(StripControls(url));
    u != [] && IsAsciiLetter(u[0]) && SchemeRunThenColon(u)
  }

  /**
   * The same test in one pass over the URL: before the scheme starts,
   * controls and spaces are skipped and the first other character must be
   * a letter; inside it, tabs, CRs and LFs are skipped and a ':' ends it.
   */
  predicate ScanScheme(s: string, inScheme: bool)
    decreases |s|
  {
    if s == [] then false
    else if !inScheme && s[0] <= ' ' then ScanScheme(s[1..], false)
    else if IsUnsafeUrlChar(s[0]) then ScanScheme(s[1..], inScheme)
    else if !inScheme then IsAsciiLetter(s[0]) && ScanScheme(s[1..], true)
    else s[0] == ':' || (IsSchemeChar(s[0]) && ScanScheme(s[1..], true))
  }

  /** `urlparse(url).scheme` is non-empty. */
  predicate HasScheme(url: string) {
    ScanScheme(url, false)
  }

  /**
   * `url if urlparse(url).scheme else base_url + url`: a URL with a scheme
   * is sent as it is, clean-up characters and all.
   */
  function Resolve(baseUrl: string, url: string): (r: string)
    ensures HasScheme(url) ==> r == url
    ensures !HasScheme(url) ==> r == baseUrl + url
  {
    if HasScheme(url) then url else baseUrl + url
  }

  lemma {:induction false} ColonIndexOfExtension(s: string, t: string)
    requires ColonIndex(s) < |s|
    ensures ColonIndex(s + t) == ColonIndex(s)
  {
    if s[0] != ':' {
      assert (s + t)[1..] == s[1..] + t;
      ColonIndexOfExtension(s[1..], t);
    }
  }

  /** A scheme character in front of a run keeps the run; any other character but ':' breaks it. */
  lemma RunThenColonOfCons(c: char, tail: string)
    requires c != ':'
    ensures SchemeRunThenColon([c] + tail) == (IsSchemeChar(c) && SchemeRunThenColon(tail))
  {
    var u := [c] + tail;
    assert u[1..] == tail;
    assert ColonIndex(u) == 1 + ColonIndex(tail);
    if SchemeRunThenColon(tail) && IsSchemeChar(c) {
      forall k | 1 <= k < ColonIndex(u) ensures IsSchemeChar(u[k]) {
        assert u[k] == tail[k - 1];
      }
    }
    if SchemeRunThenColon(u) {
      forall k | 0 <= k < ColonIndex(tail) ensures IsSchemeChar(tail[k]) {
        assert tail[k] == u[k + 1];
      }
    }
  }

  /** Inside the scheme, the scan reads what is left once tabs, CRs and LFs are deleted. */
  lemma {:induction false} ScanInsideScheme(s: string)
    ensures ScanScheme(s, true) == SchemeRunThenColon(RemoveUnsafe(s))
  {
    if s != [] {
      ScanInsideScheme(s[1..]);
      var tail := RemoveUnsafe(s[1..]);
      if IsUnsafeUrlChar(s[0]) {
        assert RemoveUnsafe(s) == tail;
      } else {
        assert RemoveUnsafe(s) == [s[0]] + tail;
        if s[0] != ':' {
          RunThenColonOfCons(s[0], tail);
        } else {
          assert ([s[0]] + tail)[0] == ':';
        }
      }
    }
  }

  /** The one-pass scan agrees with `urlsplit`'s steps on every URL. */
  lemma {:induction false} HasSchemeIsUrlsplits(url: string)
    ensures HasScheme(url) == UrlsplitHasScheme(url)
  {
    if url != [] {
      if url[0] <= ' ' {
        HasSchemeIsUrlsplits(url[1..]);
      } else {
        var tail := RemoveUnsafe(url[1..]);
        assert RemoveUnsafe(url) == [url[0]] + tail;
        ScanInsideScheme(url[1..]);
        if IsAsciiLetter(url[0]) {
          RunThenColonOfCons(url[0], tail);
        }
      }
    }
  }

  lemma {:induction false} ScanSurvivesAppend(s: string, t: string, inScheme: bool)
    requires ScanScheme(s, inScheme)
    ensures ScanScheme(s + t, inScheme)
  {
    assert (s + t)[1..] == s[1..] + t;
    if !(inScheme && s[0] == ':') && s[1..] != [] {
      if !inScheme && s[0] <= ' ' {
        ScanSurvivesAppend(s[1..], t, false);
      } else if IsUnsafeUrlChar(s[0]) {
        ScanSurvivesAppend(s[1..], t, inScheme);
      } else {
        ScanSurvivesAppend(s[1..], t, true);
      }
    }
  }

  /** A URL with a scheme keeps it whatever is appended to it. */
  lemma SchemeSurvivesAppend(baseUrl: string, url: string)
    requires HasScheme(baseUrl)
    ensures HasScheme(baseUrl + url)
  {
    ScanSurvivesAppend(baseUrl, url, false);
  }

  /** Leading C0 controls and spaces do not change whether a URL has a scheme. */
  lemma {:induction false} LeadingControlsIgnored(pre: string, url: string)
    requires forall k :: 0 <= k < |pre| ==> pre[k] <= ' '
    ensures HasScheme(pre + url) == HasScheme(url)
  {
    if pre != [] {
      assert (pre + url)[1..] == pre[1..] + url;
      LeadingControlsIgnored(pre[1..], url);
    } else {
      assert pre + url == url;
    }
  }

  lemma {:induction false} ScanSkipsUnsafe(front: string, c: char, back: string, inScheme: bool)
    requires IsUnsafeUrlChar(c)
    ensures ScanScheme(front + [c] + back, inScheme) == ScanScheme(front + back, inScheme)
  {
    if front == [] {
      assert ([c] + back)[1..] == back;
      assert front + [c] + back == [c] + back && front + back == back;
    } else {
      assert (front + [c] + back)[1..] == front[1..] + [c] + back;
      assert (front + back)[1..] == front[1..] + back;
      if !inScheme && front[0] <= ' ' {
        ScanSkipsUnsafe(front[1..], c, back, false);
      } else if IsUnsafeUrlChar(front[0]) {
        ScanSkipsUnsafe(front[1..], c, back, inScheme);
      } else {
        ScanSkipsUnsafe(front[1..], c, back, true);
      }
    }
  }

  /** A tab, carriage return or line feed anywhere does not change whether a URL has a scheme. */
  lemma UnsafeCharIgnored(front: string, c: char, back: string)
    requires IsUnsafeUrlChar(c)
    ensures HasScheme(front + [c] + back) == HasScheme(front + back)
  {
    ScanSkipsUnsafe(front, c, back, false);
  }

  lemma {:induction false} ScanNeedsColon(s: string, inScheme: bool)
    requires forall k :: 0 <= k < |s| ==> s[k] != ':'
    ensures !ScanScheme(s, inScheme)
  {
    if s != [] {
      ScanNeedsColon(s[1..], s[0] > ' ' || inScheme);
      ScanNeedsColon(s[1..], inScheme);
    }
  }

  /** A URL without a ':', such as the client's relative paths, has no scheme and is resolved against the base. */
  lemma NoColonNoScheme(url: string)
    requires forall k :: 0 <= k < |url| ==> url[k] != ':'
    ensures !HasScheme(url)
  {
    ScanNeedsColon(url, false);
  }

  lemma {:induction false} ScanSchemeChars(run: string, rest: string)
    requires forall k :: 0 <= k < |run| ==> IsSchemeChar(run[k])
    ensures ScanScheme(run + ":" + rest, true)
  {
    if run != [] {
      assert (run + ":" + rest)[1..] == run[1..] + ":" + rest;
      ScanSchemeChars(run[1..], rest);
    } else {
      assert run + ":" + rest == ":" + rest;
    }
  }

  /** A scheme of scheme characters starting with a letter, then ':', makes a URL with a scheme. */
  lemma SchemeThenRest(scheme: string, rest: string)
    requires scheme != [] && IsAsciiLetter(scheme[0])
    requires forall k :: 0 <= k < |scheme| ==> IsSchemeChar(scheme[k])
    ensures HasScheme(scheme + ":" + rest)
  {
    assert (scheme + ":" + rest)[1..] == scheme[1..] + ":" + rest;
    ScanSchemeChars(scheme[1..], rest);
  }

  /** The default API base has a scheme, so the request lemmas below apply to it. */
  lemma DefaultBaseHasScheme(clientId: string, clientSecret: string)
    ensures HasScheme(DefaultConfig(clientId, clientSecret).baseUrl)
  {
    var base := DefaultConfig(clientId, clientSecret).baseUrl;
    assert base == "https" + ":" + base[6..];
    SchemeThenRest("https", base[6..]);
  }

  /**
   * Resolving is idempotent once the base has a scheme, so re-resolving the
   * already resolved URL on every retry never prefixes the base twice.
   */
  lemma ResolveIdempotent(baseUrl: string, url: string)
    requires HasScheme(baseUrl)
    ensures HasScheme(Resolve(baseUrl, url))
    ensures Resolve(baseUrl, Resolve(baseUrl, url)) == Resolve(baseUrl, url)
  {
    if !HasScheme(url) {
      SchemeSurvivesAppend(baseUrl, url);
    }
  }

  // ---------------------------------------------------------------------
  // Retry-After

  predicate IsDigit(c: char) {
    '0' <= c <= '9'
  }

  /** The value of a non-empty string of decimal digits. */
  function DigitsValue(s: string): (n: nat)
    requires forall k :: 0 <= k < |s| ==> IsDigit(s[k])
  {
    if s == [] then 0
    else
      assert IsDigit(s[|s| - 1]);
      10 * DigitsValue(s[..|s| - 1]) + (s[|s| - 1] as int - '0' as int)
  }

  /**
   * The whitespace `int()` skips around a number (its ASCII part): space,
   * tab, LF, VT, FF, CR, and the separators 0x1C to 0x1F, which
   * `str.isspace` counts as whitespace.
   */
  predicate IsBlank(c: char) {
    c == ' ' || '\t' <= c <= '\r' || 28 as char <= c <= 31 as char
  }

  /** `s` without its leading whitespace. */
  function StripLeading(s: string): (r: string)
    ensures |r| <= |s|
    decreases |s|
  {
    if s != [] && IsBlank(s[0]) then StripLeading(s[1..]) else s
  }

  /** `s` without its trailing whitespace. */
  function StripTrailing(s: string): (r: string)
    ensures |r| <= |s|
    decreases |s|
  {
    if s != [] && IsBlank(s[|s| - 1]) then StripTrailing(s[..|s| - 1]) else s
  }

  /** Decimal digits with single underscores between them, as `int()` accepts them. */
  predicate IsDigitRun(s: string) {
    && s != [] && IsDigit(s[0]) && IsDigit(s[|s| - 1])
    && (forall k :: 0 <= k < |s| ==> IsDigit(s[k]) || s[k] == '_')
    && (forall k :: 0 <= k < |s| - 1 ==> s[k] == '_' ==> s[k + 1] != '_')
  }

  /** The digits of a digit run, without its underscores. */
  function DropUnderscores(s: string): (r: string)
    requires forall k :: 0 <= k < |s| ==> IsDigit(s[k]) || s[k] == '_'
    ensures forall k :: 0 <= k < |r| ==> IsDigit(r[k])
  {
    if s == [] then []
    else
      assert forall k :: 0 <= k < |s[1..]| ==> s[1..][k] == s[k + 1];
      (if s[0] == '_' then [] else [s[0]]) + DropUnderscores(s[1..])
  }

  /** The most digits `int()` converts from a decimal string (CPython's default `int_max_str_digits`). */
  const MaxStrDigits := 4300

  /**
   * `int(s)` in base 10: surrounding whitespace, then an optional sign, then
   * a digit run of at most `MaxStrDigits` digits (underscores not counted);
   * anything else is rejected.
   */
  function ParseInt(s: string): (r: Option<int>)
    ensures r.Some? ==> |s| > 0
  {
    var t := StripTrailing(StripLeading(s));
    var sign := if |t| > 0 && (t[0] == '-' || t[0] == '+') then 1 else 0;
    var digits := t[sign..];
    if !IsDigitRun(digits) then None
    else if |DropUnderscores(digits)| > MaxStrDigits then None
    else
      var magnitude: int := DigitsValue(DropUnderscores(digits));
      Some(if sign == 1 && t[0] == '-' then -magnitude else magnitude)
  }

  /** Decimal rendering of a natural number. */
  function NatToDigits(n: nat): (s: string)
    ensures |s| > 0 && forall k :: 0 <= k < |s| ==> IsDigit(s[k])
  {
    if n < 10 then [('0' as int + n) as char] else NatToDigits(n / 10) + [('0' as int + n % 10) as char]
  }

  lemma {:induction false} DigitsValueOfNatToDigits(n: nat)
    ensures DigitsValue(NatToDigits(n)) == n
  {
    var s := NatToDigits(n);
    if n >= 10 {
      DigitsValueOfNatToDigits(n / 10);
      assert s[..|s| - 1] == NatToDigits(n / 10);
    }
  }

  /** A plain run of digits reads as its value, unless it is longer than `MaxStrDigits`. */
  lemma ParseIntOfDigits(s: string)
    requires s != [] && forall k :: 0 <= k < |s| ==> IsDigit(s[k])
    ensures |s| <= MaxStrDigits ==> ParseInt(s) == Some(DigitsValue(s))
    ensures MaxStrDigits < |s| ==> ParseInt(s) == None
  {
    var t := StripTrailing(StripLeading(s));
    assert t == s by {
      assert StripLeading(s) == s;
      assert StripTrailing(s) == s;
    }
    assert !(t[0] == '-' || t[0] == '+');
    assert t[0..] == s;
    assert IsDigitRun(s) by { assert IsDigit(s[0]) && IsDigit(s[|s| - 1]); }
    assert DropUnderscores(s) == s by { DropUnderscoresOfDigits(s); }
  }

  /** A Retry-After header written as a decimal number `int()` accepts is read back as that number. */
  lemma ParseIntOfDecimal(n: nat)
    requires |NatToDigits(n)| <= MaxStrDigits
    ensures ParseInt(NatToDigits(n)) == Some(n)
  {
    ParseIntOfDigits(NatToDigits(n));
    DigitsValueOfNatToDigits(n);
  }

  /** A decimal number longer than `MaxStrDigits` digits is rejected, as `int()` raises ValueError for it. */
  lemma LongDecimalRejected(n: nat)
    requires |NatToDigits(n)| > MaxStrDigits
    ensures ParseInt(NatToDigits(n)) == None
  {
    ParseIntOfDigits(NatToDigits(n));
  }

  function Pow10(k: nat): (p: nat)
    ensures p > 0
  {
    if k == 0 then 1 else 10 * Pow10(k - 1)
  }

  /** A number below `10^k` has at most `k` decimal digits. */
  lemma {:induction false} NatToDigitsLength(n: nat, k: nat)
    requires 0 < k && n < Pow10(k)
    ensures |NatToDigits(n)| <= k
  {
    if n >= 10 {
      assert n < 10 * Pow10(k - 1);
      NatToDigitsLength(n / 10, k - 1);
    }
  }

  /** A run of plain digits has no underscores to drop. */
  lemma {:induction false} DropUnderscoresOfDigits(s: string)
    requires forall k :: 0 <= k < |s| ==> IsDigit(s[k])
    ensures DropUnderscores(s) == s
  {
    if s != [] {
      assert forall k :: 0 <= k < |s[1..]| ==> s[1..][k] == s[k + 1];
      DropUnderscoresOfDigits(s[1..]);
      assert s == [s[0]] + s[1..];
    }
  }

  /** A Retry-After header with a trailing blank reads as its number. */
  lemma TrailingBlankRetryAfter()
    ensures ParseInt("42 ") == Some(42)
  {
    assert StripLeading("42 ") == "42 ";
    assert "42 "[..2] == "42";
    assert StripTrailing("42 ") == "42";
    assert "42"[0..] == "42";
    assert IsDigitRun("42");
    assert DropUnderscores("42") == "42" by { DropUnderscoresOfDigits("42"); }
    assert DigitsValue("42") == 42 by { assert "42"[..1] == "4"; }
  }

  /** A leading blank and a sign are skipped. */
  lemma LeadingBlankRetryAfter()
    ensures ParseInt(" +42") == Some(42)
  {
    assert " +42"[1..] == "+42";
    assert StripLeading(" +42") == "+42";
    assert StripTrailing("+42") == "+42";
    assert "+42"[1..] == "42";
    assert IsDigitRun("42");
    assert DropUnderscores("42") == "42" by { DropUnderscoresOfDigits("42"); }
    assert DigitsValue("42") == 42 by { assert "42"[..1] == "4"; }
  }

  /** An ASCII separator (0x1C to 0x1F) around the number is whitespace to `int()` too. */
  lemma SeparatorBlankRetryAfter(s: string)
    requires s == [28 as char, '4', '2', 31 as char]
    ensures ParseInt(s) == Some(42)
  {
    assert s[1..] == "42" + [31 as char];
    assert StripLeading(s) == "42" + [31 as char];
    assert ("42" + [31 as char])[..2] == "42";
    assert StripTrailing("42" + [31 as char]) == "42";
    assert "42"[0..] == "42";
    assert IsDigitRun("42");
    assert DropUnderscores("42") == "42" by { DropUnderscoresOfDigits("42"); }
    assert DigitsValue("42") == 42 by { assert "42"[..1] == "4"; }
  }

  /** Single underscores between digits are dropped. */
  lemma UnderscoreRetryAfter()
    ensures ParseInt("4_2") == Some(42)
  {
    assert StripLeading("4_2") == "4_2";
    assert StripTrailing("4_2") == "4_2";
    assert "4_2"[0..] == "4_2";
    assert IsDigitRun("4_2");
    assert "4_2"[1..] == "_2" && "_2"[1..] == "2" && "2"[1..] == [];
    assert DropUnderscores("4_2") == "42";
    assert DigitsValue("42") == 42 by { assert "42"[..1] == "4"; }
  }

  /** Doubled underscores, and underscores at either end, are rejected. */
  lemma BadUnderscoreRetryAfter()
    ensures ParseInt("4__2") == None && ParseInt("_42") == None && ParseInt("42_") == None
  {
    DoubledUnderscoreRejected("4__2");
    EdgeUnderscoreRejected("_42");
    EdgeUnderscoreRejected("42_");
  }

  lemma DoubledUnderscoreRejected(s: string)
    requires s == "4__2"
    ensures ParseInt(s) == None
  {
    assert StripLeading(s) == s && StripTrailing(s) == s && s[0..] == s;
    assert !IsDigitRun(s) by { assert s[1] == '_' && s[2] == '_'; }
  }

  lemma EdgeUnderscoreRejected(s: string)
    requires s == "_42" || s == "42_"
    ensures ParseInt(s) == None
  {
    assert StripLeading(s) == s && StripTrailing(s) == s && s[0..] == s;
  }

  /**
   * The seconds a 429 asks for: the Retry-After header read as a base-10
   * integer the way `int()` reads a string (blanks around it, a sign,
   * underscores between digits), or the configured bucket size when the
   * header is absent; a header `int()` rejects is an error.
   */
  function RetryAfterSeconds(config: SpotifyConfig, response: Response): (r: Result<int>)
    ensures response.retryAfter.None? ==> r == Ok(config.rateLimitBucketSizeSeconds)
    ensures response.retryAfter.Some? && r.Ok? ==> ParseInt(response.retryAfter.value) == Some(r.value)
    ensures response.retryAfter.Some? ==> (r.Err? <==> ParseInt(response.retryAfter.value).None?)
  {
    match response.retryAfter
    case None => Ok(config.rateLimitBucketSizeSeconds)
    case Some(h) =>
      match ParseInt(h)
      case None => Err(BadRetryAfter(h))
      case Some(n) => Ok(n)
  }

  /**
   * The most seconds `time.sleep` takes either way: it converts its argument
   * to signed 64-bit nanoseconds, and one second more overflows them.
   */
  const MaxSleepSeconds := 9223372036

  /**
   * How long a 429 makes the session sleep: `time.sleep` raises OverflowError
   * for a duration outside its range and ValueError for a negative one.
   */
  function SleepFor(config: SpotifyConfig, response: Response): (r: Result<nat>)
    ensures r.Ok? <==> && RetryAfterSeconds(config, response).Ok?
                       && 0 <= RetryAfterSeconds(config, response).value <= MaxSleepSeconds
    ensures r.Ok? ==> r.value == RetryAfterSeconds(config, response).value
    ensures RetryAfterSeconds(config, response).Ok? && MaxSleepSeconds < RetryAfterSeconds(config, response).value
      ==> r == Err(SleepOverflow(RetryAfterSeconds(config, response).value))
  {
    match RetryAfterSeconds(config, response)
    case Err(e) => Err(e)
    case Ok(n) =>
      if n < -MaxSleepSeconds || MaxSleepSeconds < n then Err(SleepOverflow(n))
      else if n < 0 then Err(NegativeSleep(n))
      else Ok(n)
  }

  // ---------------------------------------------------------------------
  // The request loop

  /**
   * `SessionWithBase.request` from attempt number `retry` on: resolve the
   * URL, send it, return the first answer that is not a 429; on a 429 sleep
   * for Retry-After seconds (or the bucket size when the header is absent)
   * and try again; after `rateLimitMaxRetries` attempts give up.
   */
  function Attempts(config: SpotifyConfig, url: string, responses: seq<Response>, retry: int): (a: Attempt)
    decreases config.rateLimitMaxRetries - retry
    ensures |a.rest| <= |responses|
    ensures a.result.Ok? ==> |a.rest| < |responses| && a.result.value.status != 429
  {
    if retry >= config.rateLimitMaxRetries then
      Attempt(Err(RateLimitExhausted(config.rateLimitMaxRetries)), NoLog, responses)
    else
      var resolved := Resolve(config.baseUrl, url);
      if responses == [] then
        Attempt(Err(NoResponse), Log([resolved], []), responses)
      else if responses[0].status != 429 then
        Attempt(Ok(responses[0]), Log([resolved], []), responses[1..])
      else
        match SleepFor(config, responses[0])
        case Err(e) => Attempt(Err(e), Log([resolved], []), responses[1..])
        case Ok(seconds) =>
          var later := Attempts(config, resolved, responses[1..], retry + 1);
          Attempt(later.result, Log([resolved] + later.log.sent, [seconds] + later.log.slept), later.rest)
  }

  /** One call of `SessionWithBase.request`. */
  function RequestSpec(config: SpotifyConfig, url: string, responses: seq<Response>): Attempt {
    Attempts(config, url, responses, 0)
  }

  /** A request never adds answers, and an answered one uses up at least one of them. */
  ghost predicate Consumes(request: (string, seq<Response>) -> Attempt) {
    forall url, responses ::
      && |request(url, responses).rest| <= |responses|
      && (request(url, responses).result.Ok? ==> |request(url, responses).rest| < |responses|)
  }

  /** A way of requesting a URL, given the answers the remote still has. */
  type Requester = r: (string, seq<Response>) -> Attempt | Consumes(r)
    witness (url: string, responses: seq<Response>) => Attempt(Err(NoResponse), NoLog, responses)

  /** The session's request as a function of the URL and the remote's answers. */
  function Transport(config: SpotifyConfig): Requester {
    (url, responses) => RequestSpec(config, url, responses)
  }

  /**
   * Every sleep answers a 429 and lasts exactly that response's Retry-After;
   * one request is sent per sleep, plus one more unless the attempts ran out.
   */
  lemma {:induction false} SleepsFollowRetryAfter(config: SpotifyConfig, url: string, responses: seq<Response>, retry: int)
    ensures var a := Attempts(config, url, responses, retry);
      && |a.log.slept| <= |a.log.sent| <= |a.log.slept| + 1
      && (a.result.Err? && a.result.error.RateLimitExhausted? ==> |a.log.sent| == |a.log.slept|)
      && |a.log.slept| <= |responses|
      && forall k :: 0 <= k < |a.log.slept| ==>
           responses[k].status == 429 && SleepFor(config, responses[k]) == Ok(a.log.slept[k])
    decreases config.rateLimitMaxRetries - retry
  {
    var a := Attempts(config, url, responses, retry);
    if retry < config.rateLimitMaxRetries && responses != [] && responses[0].status == 429
       && SleepFor(config, responses[0]).Ok?
    {
      var resolved := Resolve(config.baseUrl, url);
      SleepsFollowRetryAfter(config, resolved, responses[1..], retry + 1);
      var later := Attempts(config, resolved, responses[1..], retry + 1);
      assert a.log.slept == [SleepFor(config, responses[0]).value] + later.log.slept;
      forall k | 0 <= k < |a.log.slept|
        ensures responses[k].status == 429 && SleepFor(config, responses[k]) == Ok(a.log.slept[k])
      {
        if k > 0 { assert responses[k] == responses[1..][k - 1]; }
      }
    }
  }

  /**
   * A successful request returns the first answer that is not a 429, after
   * one sleep for each 429 before it; it consumes exactly those responses
   * and stays within the attempt limit.
   */
  lemma {:induction false} ReturnsFirstNon429(config: SpotifyConfig, url: string, responses: seq<Response>, retry: int)
    ensures var a := Attempts(config, url, responses, retry);
      var n := |a.log.slept|;
      a.result.Ok? ==>
        && n < |responses| && |a.log.sent| == n + 1
        && a.result.value == responses[n] && a.rest == responses[n + 1..]
        && (forall k :: 0 <= k < n ==> responses[k].status == 429)
        && retry + n < config.rateLimitMaxRetries
    decreases config.rateLimitMaxRetries - retry
  {
    var a := Attempts(config, url, responses, retry);
    if retry < config.rateLimitMaxRetries && responses != [] && responses[0].status == 429
       && SleepFor(config, responses[0]).Ok?
    {
      var resolved := Resolve(config.baseUrl, url);
      ReturnsFirstNon429(config, resolved, responses[1..], retry + 1);
      var later := Attempts(config, resolved, responses[1..], retry + 1);
      if a.result.Ok? {
        var n := |later.log.slept|;
        assert responses[n + 1] == responses[1..][n];
        assert responses[n + 2..] == responses[1..][n + 1..];
        forall k | 0 <= k < n + 1 ensures responses[k].status == 429 {
          if k > 0 { assert responses[k] == responses[1..][k - 1]; }
        }
      }
    }
  }

  /**
   * Conversely, when the first answer that is not a 429 comes within the
   * attempt limit and every 429 before it has a usable Retry-After, the
   * request returns that answer after one sleep per 429 before it.
   */
  lemma {:induction false} ReturnsNon429WithinLimit(config: SpotifyConfig, url: string, responses: seq<Response>,
                                                   retry: int, n: nat)
    requires n < |responses| && responses[n].status != 429
    requires retry + n < config.rateLimitMaxRetries
    requires forall k :: 0 <= k < n ==> responses[k].status == 429 && SleepFor(config, responses[k]).Ok?
    ensures var a := Attempts(config, url, responses, retry);
      && a.result == Ok(responses[n]) && a.rest == responses[n + 1..]
      && |a.log.slept| == n && |a.log.sent| == n + 1
    decreases n
  {
    if n > 0 {
      var resolved := Resolve(config.baseUrl, url);
      forall k | 0 <= k < n - 1
        ensures responses[1..][k].status == 429 && SleepFor(config, responses[1..][k]).Ok?
      {
        assert responses[1..][k] == responses[k + 1];
      }
      ReturnsNon429WithinLimit(config, resolved, responses[1..], retry + 1, n - 1);
      assert responses[1..][n - 1] == responses[n];
      assert responses[1..][n..] == responses[n + 1..];
    }
  }

  /** Every request in `log` went to `url`. */
  predicate AllSentTo(log: Log, url: string) {
    forall k :: 0 <= k < |log.sent| ==> log.sent[k] == url
  }

  /**
   * With the base URL absolute, every attempt of one request goes to the
   * same resolved URL.
   */
  lemma {:induction false} EveryAttemptSameUrl(config: SpotifyConfig, url: string, responses: seq<Response>, retry: int)
    requires HasScheme(config.baseUrl)
    ensures AllSentTo(Attempts(config, url, responses, retry).log, Resolve(config.baseUrl, url))
    decreases config.rateLimitMaxRetries - retry
  {
    var a := Attempts(config, url, responses, retry);
    if retry < config.rateLimitMaxRetries && responses != [] && responses[0].status == 429
       && SleepFor(config, responses[0]).Ok?
    {
      var resolved := Resolve(config.baseUrl, url);
      EveryAttemptSameUrl(config, resolved, responses[1..], retry + 1);
      ResolveIdempotent(config.baseUrl, url);
      var later := Attempts(config, resolved, responses[1..], retry + 1);
      assert a.log.sent == [resolved] + later.log.sent;
    }
  }

  /**
   * `rateLimitMaxRetries` consecutive 429s, each with a usable Retry-After,
   * exhaust the request: it fails with the rate-limit error after exactly
   * that many attempts and sleeps. With a limit of zero or less nothing is sent.
   */
  lemma {:induction false} ExhaustedAfterMaxAttempts(config: SpotifyConfig, url: string, responses: seq<Response>, retry: int)
    requires 0 <= retry
    requires config.rateLimitMaxRetries - retry <= |responses|
    requires forall k :: 0 <= k < |responses| && k < config.rateLimitMaxRetries - retry ==>
      responses[k].status == 429 && SleepFor(config, responses[k]).Ok?
    ensures var a := Attempts(config, url, responses, retry);
      var n := if config.rateLimitMaxRetries > retry then config.rateLimitMaxRetries - retry else 0;
      && a.result == Err(RateLimitExhausted(config.rateLimitMaxRetries))
      && |a.log.sent| == n && |a.log.slept| == n
      && a.rest == responses[n..]
    decreases config.rateLimitMaxRetries - retry
  {
    if retry < config.rateLimitMaxRetries {
      assert responses[0].status == 429 && SleepFor(config, responses[0]).Ok?;
      var resolved := Resolve(config.baseUrl, url);
      forall k | 0 <= k < |responses[1..]| && k < config.rateLimitMaxRetries - (retry + 1)
        ensures responses[1..][k].status == 429 && SleepFor(config, responses[1..][k]).Ok?
      {
        assert responses[1..][k] == responses[k + 1];
      }
      ExhaustedAfterMaxAttempts(config, resolved, responses[1..], retry + 1);
      var n := config.rateLimitMaxRetries - retry;
      assert responses[1..][n - 1..] == responses[n..];
    }
  }

  /**
   * One 429 whose Retry-After reads `n`, then an answer: the request sleeps
   * exactly once, for `n` seconds, sends the same resolved URL twice and
   * returns the answer.
   */
  lemma OneRateLimitOneSleep(config: SpotifyConfig, url: string, n: nat, answer: Response, rest: seq<Response>)
    requires config.rateLimitMaxRetries >= 2 && HasScheme(config.baseUrl)
    requires n <= MaxSleepSeconds && answer.status != 429
    ensures var resolved := Resolve(config.baseUrl, url);
      var a := RequestSpec(config, url, [Response(429, Some(NatToDigits(n)), None), answer] + rest);
      && a.result == Ok(answer) && a.rest == rest
      && a.log.slept == [n] && a.log.sent == [resolved, resolved]
  {
    var responses := [Response(429, Some(NatToDigits(n)), None), answer] + rest;
    NatToDigitsLength(n, 10);
    ParseIntOfDecimal(n);
    assert SleepFor(config, responses[0]) == Ok(n);
    ResolveIdempotent(config.baseUrl, url);
    var resolved := Resolve(config.baseUrl, url);
    assert responses[1..] == [answer] + rest;
    assert responses[1..][1..] == rest;
    var later := Attempts(config, resolved, responses[1..], 1);
    assert later == Attempt(Ok(answer), Log([resolved], []), rest);
    assert Attempts(config, url, responses, 0)
      == Attempt(later.result, Log([resolved] + later.log.sent, [n] + later.log.slept), later.rest);
  }

  /** The rate-limit case of the extractor's tests: one 429 with `Retry-After: 42` is one `sleep(42)`. */
  lemma RetryAfter42(config: SpotifyConfig, url: string, answer: Response, rest: seq<Response>)
    requires config.rateLimitMaxRetries >= 2 && HasScheme(config.baseUrl)
    requires answer.status != 429
    ensures RequestSpec(config, url, [Response(429, Some("42"), None), answer] + rest).log.slept == [42]
  {
    assert NatToDigits(42) == "42";
    OneRateLimitOneSleep(config, url, 42, answer, rest);
  }

  /**
   * A 429 whose Retry-After is past the range of `time.sleep`: the request
   * raises OverflowError after one send and no sleep, and the answers after
   * the 429 are left to the next request.
   */
  lemma OverlongRetryAfterFails(config: SpotifyConfig, url: string, n: nat, rest: seq<Response>)
    requires config.rateLimitMaxRetries >= 1
    requires MaxSleepSeconds < n && |NatToDigits(n)| <= MaxStrDigits
    ensures var a := RequestSpec(config, url, [Response(429, Some(NatToDigits(n)), None)] + rest);
      && a.result == Err(SleepOverflow(n)) && a.rest == rest
      && a.log.slept == [] && a.log.sent == [Resolve(config.baseUrl, url)]
  {
    var responses := [Response(429, Some(NatToDigits(n)), None)] + rest;
    ParseIntOfDecimal(n);
    assert SleepFor(config, responses[0]) == Err(SleepOverflow(n));
    assert responses[1..] == rest;
  }

  // ---------------------------------------------------------------------
  // Response bodies and the bearer header

  /** `get_response_dict`: `raise_for_status`, `response.json()`, and the dict assertion. */
  function GetResponseDict(response: Response): (r: Result<Json>)
    ensures r.Ok? <==> !(400 <= response.status < 600) && response.body.Some? && IsDict(response.body.value)
    ensures r.Ok? ==> r.value == response.body.value
    ensures 400 <= response.status < 600 ==> r == Err(HttpError(response.status))
  {
    if 400 <= response.status < 600 then Err(HttpError(response.status))
    else if response.body.None? then Err(BodyNotJson)
    else if !IsDict(response.body.value) then Err(BodyNotDict)
    else Ok(response.body.value)
  }

  const BearerPrefix := "Bearer "

  /** The `Authorization` header carrying an access token. */
  function BearerHeader(accessToken: string): (h: map<string, string>)
    ensures h.Keys == {"Authorization"}
  {
    map["Authorization" := BearerPrefix + accessToken]
  }

  /** The access token a bearer header value carries, if it is one. */
  function BearerToken(value: string): Option<string> {
    if |value| >= |BearerPrefix| && value[..|BearerPrefix|] == BearerPrefix then Some(value[|BearerPrefix|..])
    else None
  }

  /** The header value reads back as the token it was built from. */
  lemma BearerRoundTrip(accessToken: string)
    ensures BearerToken(BearerHeader(accessToken)["Authorization"]) == Some(accessToken)
  {
    var v := BearerPrefix + accessToken;
    assert v[..|BearerPrefix|] == BearerPrefix;
    assert v[|BearerPrefix|..] == accessToken;
  }

  // ---------------------------------------------------------------------
  // The session object

  /**
   * A requests session with a base URL and soft 429 handling. `responses`
   * is what the remote will still answer, `sent` and `slept` are the logs of
   * requests sent and of `time.sleep` calls.
   */
  class SessionWithBase {
    const config: SpotifyConfig
    var headers: map<string, string>
    var responses: seq<Response>
    var sent: seq<string>
    var slept: seq<nat>

    constructor (config: SpotifyConfig, responses: seq<Response>)
      ensures this.config == config && this.responses == responses
      ensures headers == map[] && sent == [] && slept == []
    {
      this.config := config;
      this.responses := responses;
      headers := map[];
      sent := [];
      slept := [];
    }

    /** `session.headers.update(...)` */
    method UpdateHeaders(h: map<string, string>)
      modifies this`headers
      ensures headers == old(headers) + h
    {
      headers := headers + h;
    }

    /** `SessionWithBase.request` (every request of the extractor is a GET). */
    method Request(url: string) returns (r: Result<Response>)
      modifies this`responses, this`sent, this`slept
      ensures var a := RequestSpec(config, url, old(responses));
        && r == a.result && responses == a.rest
        && sent == old(sent) + a.log.sent && slept == old(slept) + a.log.slept
    {
      ghost var whole := RequestSpec(config, url, responses);
      ghost var sent0, slept0 := sent, slept;
      ghost var done := NoLog;
      var retry := 0;
      var current := url;
      while retry < config.rateLimitMaxRetries
        invariant 0 <= retry
        invariant sent == sent0 + done.sent && slept == slept0 + done.slept
        invariant var a := Attempts(config, current, responses, retry);
          whole == Attempt(a.result, done.Then(a.log), a.rest)
        decreases config.rateLimitMaxRetries - retry
      {
        current := Resolve(config.baseUrl, current);
        AppendAssoc(sent0, done.sent, [current]);
        sent := sent + [current];
        if responses == [] {
          return Err(NoResponse);
        }
        var response := responses[0];
        if response.status != 429 {
          responses := responses[1..];
          return Ok(response);
        }
        var seconds := SleepFor(config, response);
        if seconds.Err? {
          responses := responses[1..];
          return Err(seconds.error);
        }
        ghost var later := Attempts(config, current, responses[1..], retry + 1);
        ThenAssoc(done, Log([current], [seconds.value]), later.log);
        AppendAssoc(slept0, done.slept, [seconds.value]);
        done := done.Then(Log([current], [seconds.value]));
        slept := slept + [seconds.value];
        responses := responses[1..];
        retry := retry + 1;
      }
      r := Err(RateLimitExhausted(config.rateLimitMaxRetries));
    }
  }

  /**
   * `create_session`: a session over the remote carrying the bearer header.
   * The access token is the outcome of the client-credentials request, whose
   * failure propagates before the session is handed out.
   */
  method CreateSession(config: SpotifyConfig, accessToken: Result<string>, remote: seq<Response>)
    returns (r: Result<SessionWithBase>)
    ensures r.Ok? <==> accessToken.Ok?
    ensures r.Err? ==> r.error == accessToken.error
    ensures r.Ok? ==> && fresh(r.value) && r.value.config == config
                      && r.value.headers == BearerHeader(accessToken.value)
                      && r.value.responses == remote && r.value.sent == [] && r.value.slept == []
  {
    var session := new SessionWithBase(config, remote);
    if accessToken.Err? {
      return Err(accessToken.error);
    }
    session.UpdateHeaders(BearerHeader(accessToken.value));
    assert map[] + BearerHeader(accessToken.value) == BearerHeader(accessToken.value);
    r := Ok(session);
  }
}
